=== FILE: README.md ===
# SadhuCourse in Dafny

A model of the webinar-funnel system "Гвозди Просто" (Sadhu-board practice). It
has four parts:

- **The Telegram bot.** It takes `/start` with referral parameters, registers users
  for a live webinar, collects friend recommendations, and runs the admin test and
  broadcast commands.
- **The reminder scheduler.** Warm-up videos, the start reminder and the offer
  notices are dated relative to the webinar start.
- **The HTTP API the mini app calls.** It serves the event phase with its
  deadline, user records, referral links, and the 21-day practice tracker.
- **The mini app and the two static landing pages.** The model covers the
  countdowns, the screen navigation, the registration form, the sales screen,
  the stopwatch and tracker, and the JSON each sends back.

Every operation is a pure function or a short method over immutable data. The
`users` table is a `map<int, Row>`. A request body is a small JSON datatype.
Whatever the code obtains from outside is a parameter, never something the model
fetches:

- the clock;
- database reads that `database.py` does not define;
- the configuration module `messages`;
- the outcome of each Telegram send.

## Units and conventions

- **Instants.** Server instants (Python `datetime`) are microseconds. Client
  instants (JavaScript `Date`) are milliseconds. `ApiServer.ToClient` converts
  from one to the other.
- **Time zone.** All instants are Europe/Moscow wall time. That is the
  scheduler's configured zone. The API host and the browser are taken to run on
  it too.
- **Integer reads.** `int()` on text is `Text.ParseInt`: a plain decimal with an
  optional `-`. `None` stands for `ValueError`.
- **Splitting.** `str.split()` is `Text.Words`. `split(maxsplit=1)` is
  `Text.SplitFirst`.
- **Rounding.** `Math.round` is `Rounding.Round`, which is `floor(x + 0.5)` on exact
  reals.
- **Missing values.** A `null`, `None` or absent value is `Options.Option`.

## Behaviour the model keeps as written

Each point below is proved as a lemma, not smoothed over.

- **Three different ends of the sale.** These comparisons take the API host,
  the scheduler and the browser to run on the same wall time, Europe/Moscow.
  The scheduler is configured for Europe/Moscow. The API compares with a naive
  local `now`, and the browser reads the API's naive ISO dates in its own zone.
  - The API reports the sale window until 14 h after the start (`ApiServer.Classify`).
  - The scheduler's closing notice goes out 13 h 30 min after the start.
  - The notices print "start + 12 h" as the deadline.
  - `Scheduler.DeadlinesDisagree` shows the one-hour notice going out half an hour
    after the deadline it prints.
  - `Timeline.ClosedNoticeWhileStillSelling` shows the mini app still selling, with
    1800 s on its timer, when the "offer closed" notice is sent.
- **The registration form's error text.** When the server refuses, the form shows
  "API returned null", never the server's reason (`WelcomeScreen.ServerErrorNotShown`).
  `fetchApi` turns every failed envelope into `null`, and the form only sees that.
- **Every `ref_` is removed, not only the leading one.** `"ref_12ref_34"` names user
  1234 (`Bot.EveryTagRemoved`).
- **The two registration paths differ.**
  - The button path refuses a second registration (`Bot.RegistrationIdempotent`).
    A user without a row is confirmed on every press (`Bot.UnknownUserConfirmedEachTime`).
  - The mini app path confirms again with no check (`Bot.WebAppConfirmsAgain`).
- **`/test_warmup` ignores `callback_data`.** A warm-up with only a callback button
  shows a button when scheduled and none through `/test_warmup` (`Bot.TestDropsCallbackButton`).
- **`resetPractice` bypasses `fetchApi`.** A `success: true` envelope without data is
  a failure for `fetchApi` and a success for the reset
  (`ApiClient.ResetIsTheEnvelopeException`). If the reset call throws, the tracker
  is not emptied.
- **`seconds_until` truncates.** In the last second before a deadline it already
  reads 0 (`ApiServer.LastSecondReadsZero`).
- **The weekly landing page's extra-week branch is dead.** Its "target in the past"
  branch never fires: the computed candidate is always ahead
  (`WeeklyTimer.CandidateNotPast`).
- **The welcome screen has no way out.** No control leaves it; only a reload with a
  registered user does (`App.WelcomeIsTerminal`).

## Model

| member | source | states |
|---|---|---|
| Text.IntToString | mini-app/src/components/CountdownTimer.tsx:78 | The decimal rendering is non-empty and, for a non-negative number, all digits. |
| Text.ParseInt | bot.py:89-91 | `int()` succeeds exactly on plain decimal text. |
| Text.ParseIntOfIntToString | api.py:172-175 | Reading back the decimal rendering of any integer gives that integer. |
| Text.DigitsValueOfNatToString | api.py:172-175 | The digits rendered for a natural number read back as that number. |
| Text.DigitsValueLeadingZero | api.py:172 | A leading zero does not change the value `int()` reads. |
| Text.PadStart | mini-app/src/components/CountdownTimer.tsx:78 | `padStart`: the text ends the result, it is preceded only by the fill character, and the result reaches the width. |
| Text.Pad2 | mini-app/src/components/CountdownTimer.tsx:78 | A single digit gets a leading '0'; 10 and above are shown as is; below 100 the field is two characters. |
| Text.Pad2Value | mini-app/src/screens/ToolsScreen.tsx:67 | A padded clock field is all digits and reads back as the number it shows. |
| Text.ReplaceAll | bot.py:91 | `replace` with a replacement no longer than the pattern never lengthens the text. |
| Text.ReplaceAllNoOccurrence | bot.py:91 | `replace` leaves text in which the pattern's first character never occurs unchanged. |
| Text.ReplaceAllPastPrefix | bot.py:91 | `replace` passes a stretch without the pattern's first character through unchanged and carries on after it. |
| Text.DropSpaces | bot.py:379 | The left-stripped rest is a suffix whose dropped part is whitespace and whose first character is not. |
| Text.DropSpacesEnd | bot.py:474 | The right-stripped text is a prefix whose dropped tail is whitespace and whose last character is not. |
| Text.TakeWord | bot.py:86 | The first word is a whitespace-free prefix ending at whitespace or at the end of the text. |
| Text.Words | bot.py:86 | Every word `split()` yields is a non-empty run without whitespace, and there are no more words than characters. |
| Text.WordsSplit | bot.py:86 | Any whitespace character splits the text: its words are the words before it followed by the words after it. |
| Text.TakeWordExtend | bot.py:86 | A word that ends at whitespace is not lengthened by what follows the text. |
| Text.SplitFirst | bot.py:379 | `split(maxsplit=1)` gives at most two parts: a whitespace-free first word and a rest that starts with a non-blank. |
| Text.DropSpacesWords | bot.py:379 | Stripping leading blanks does not change what `split()` yields. |
| Text.SplitFirstWords | bot.py:379-380 | For every text, `split(maxsplit=1)` yields as many parts as `split()` yields words, up to two. The first part is the first word. The second is a tail end of the text whose words are all the remaining words. |
| Text.TakeWordOfWord | bot.py:86 | A word followed by whitespace or nothing is taken whole. |
| Text.WordsCons | bot.py:86 | A leading word and a blank split off that word in front of the rest's words. |
| Text.WordsHead | bot.py:86 | The words of "w rest" are w followed by the words of rest, index by index. |
| Text.WordsOfWord | bot.py:86 | A single word splits into itself. |
| Text.WordsOfTwo | bot.py:86 | "a b" splits into exactly a and b. |
| Text.WordsLeadingTwo | bot.py:289 | The first two words of "a b rest" are a and b. |
| Text.TakeUntil | mini-app/src/screens/DashboardScreen.tsx:63 | `split(' ')[0]`: the prefix before the first separator, which it does not contain. |
| Text.TakeUntilPast | mini-app/src/screens/DashboardScreen.tsx:63 | Text free of the separator is recovered from "text separator rest". |
| Text.Lower | bot.py:36 | `lower()` keeps the length and lower-cases each character. |
| Rounding.Round | mini-app/src/components/ProgressBar.tsx:25 | `Math.round` lands within half a unit of its argument, with a half rounded up. |
| Rounding.RoundMonotone | mini-app/src/components/ProgressBar.tsx:25 | A larger argument never rounds lower. |
| Rounding.RoundWithin | mini-app/src/components/ProgressBar.tsx:25 | Rounding stays inside any integer interval that holds the argument. |
| Json.Get | api.py:138 | `d.get(key)`: the value `Json.Find` gives on an object, nothing on any other value. |
| Json.Truthy | api.py:140-144 | Python's truthiness: `None`, `False`, 0, the empty string and empty collections are false (see `ApiServer.ZeroIdRefused`). |
| Json.Find | api.py:138 | A key is found iff some field binds it, and the value found is one that it binds. |
| Json.FindPastOtherKeys | api.py:138 | Fields that bind other keys do not hide an earlier binding. |
| Json.FindLastBinding | api.py:138 | The last binding of a key is the one `json.loads` keeps. |
| Countdown.Breakdown | mini-app/src/components/CountdownTimer.tsx:30-36 | The four fields are in clock range and recompose the difference to within one second. |
| Countdown.BreakdownArithmetic | mini-app/src/components/CountdownTimer.tsx:31-34 | The nested remainders equal the direct ones. |
| Countdown.CalculateTimeLeft | mini-app/src/components/CountdownTimer.tsx:22-37 | All zero exactly when the deadline is reached; otherwise an in-range breakdown of the remaining time. |
| Countdown.BreakdownUnique | mini-app/src/components/CountdownTimer.tsx:30-36 | Any in-range split that recomposes the difference is the breakdown: the fields are determined by it. |
| Countdown.TotalNonIncreasing | mini-app/src/components/CountdownTimer.tsx:22-37 | A later sample never shows more time left. |
| Countdown.WorkedExample | mini-app/src/components/CountdownTimer.tsx:30-36 | 90 061 000 ms is one day, one hour, one minute and one second. |
| Countdown.OnTick | mini-app/src/components/CountdownTimer.tsx:52-61 | A cleared interval does nothing; a live one stores the new breakdown, and stops and calls `onExpire` iff the deadline is reached. |
| Countdown.ExpireCalledAtMostOnce | mini-app/src/components/CountdownTimer.tsx:52-64 | Over any run of firings `onExpire` is called at most once: once iff some sample reaches the deadline. The interval stays live iff none does. |
| Countdown.Render | mini-app/src/components/CountdownTimer.tsx:80-120 | "Time is up" iff nothing is left. Otherwise the hours and minutes are padded, days appear only when positive, and seconds appear unless the size is small. |
| Countdown.ExpiredViewAtDeadline | mini-app/src/components/CountdownTimer.tsx:80-86 | The "time is up" view appears exactly from the deadline on. |
| ProgressBar.Percentage | mini-app/src/components/ProgressBar.tsx:13 | The bar is exactly the smaller of the ratio and 100: never above either, and equal to one of them. It is full once the target is met and never negative for non-negative counts. |
| ProgressBar.PercentageMonotone | mini-app/src/components/ProgressBar.tsx:13 | More referrals never shrink the bar. |
| ProgressBar.LabelOf | mini-app/src/components/ProgressBar.tsx:20-22 | The "goal reached" wording appears exactly when the count meets the target. |
| ProgressBar.Shown | mini-app/src/components/ProgressBar.tsx:25 | The printed number is the bar's width rounded to the nearest integer: at most 100, and exactly 100 once the target is met. |
| ProgressBar.DefaultTargetReached | mini-app/src/components/ProgressBar.tsx:13-25 | Two of two friends: full bar, 100, and the goal-reached label. |
| Host.UserId | mini-app/src/hooks/useTelegram.ts:101 | The id is never 0. It is the host user's id when there is one, and the mock user's id without a host. |
| Host.OpenLink | mini-app/src/hooks/useTelegram.ts:51-61 | Without a host a browser window opens; with one, external links leave the client and others stay in it. |
| ApiClient.Begin | mini-app/src/hooks/useApi.ts:26-27 | A call in flight is loading with the error cleared. |
| ApiClient.FetchApi | mini-app/src/hooks/useApi.ts:22-51 | Data is returned iff the envelope succeeded with data. Otherwise null, with the server's error, 'Unknown error' or the thrown message in the error slot. Loading always ends. |
| ApiClient.UserDataRequest | mini-app/src/hooks/useApi.ts:53-55 | GET `/api/user/<id>` (the id reads back by `ApiClient.IdReadableFromPath`). |
| ApiClient.AppModeRequest | mini-app/src/hooks/useApi.ts:57-59 | GET `/api/mode`. |
| ApiClient.ReferralRequest | mini-app/src/hooks/useApi.ts:61-63 | GET `/api/referral/<id>`. |
| ApiClient.RegisterRequest | mini-app/src/hooks/useApi.ts:65-75 | POST `/api/register` with the id and the given fields (see `ApiClient.RegisterBodyCarriesId`). |
| ApiClient.PracticeRequest | mini-app/src/hooks/useApi.ts:88-90 | GET `/api/practice/<id>`. |
| ApiClient.SavePracticeRequest | mini-app/src/hooks/useApi.ts:92-101 | POST `/api/practice` with the id and the given fields (see `ApiClient.SaveBodyCarriesId`). |
| ApiClient.ResetPracticeRequest | mini-app/src/hooks/useApi.ts:103-104 | DELETE `/api/practice/<id>`. |
| ApiClient.OptionalField | mini-app/src/hooks/useApi.ts:73 | `JSON.stringify` writes a field iff its value is defined. |
| ApiClient.IdReadableFromPath | mini-app/src/hooks/useApi.ts:53-109 | Each per-user URL ends in the id, and that segment reads back as the id. |
| ApiClient.RegisterBodyCarriesId | mini-app/src/hooks/useApi.ts:65-75 | The registration body binds `telegram_id` to the user, whatever optional fields follow. |
| ApiClient.SaveBodyCarriesId | mini-app/src/hooks/useApi.ts:92-101 | The practice body binds `telegram_id` to the user, whatever optional fields follow. |
| ApiClient.ResetPractice | mini-app/src/hooks/useApi.ts:103-109 | The reset leaves the shared slots alone, returns the envelope's `success`, and lets a failure propagate. |
| ApiClient.ResetIsTheEnvelopeException | mini-app/src/hooks/useApi.ts:103-109 | A success without data is null for `fetchApi` but true for the reset. |
| ApiServer.OfferDeadline | api.py:101-104 | The API's end of the sale: two hours of broadcast and twelve of sale after the start. |
| ApiServer.Classify | api.py:86-108 | Before the start, live for two hours, the sale for the next twelve, expired afterwards: each phase holds on exactly its interval. |
| ApiServer.ModeMonotone | api.py:93-108 | The phase never moves backwards in time. |
| ApiServer.GetAppMode | api.py:81-120 | There is a deadline exactly before the webinar (the start) and during the sale (start + 14 h). The deadline is ahead, `seconds_until` is the whole seconds to it and 0 without one, and prices pass through. |
| ApiServer.LastSecondReadsZero | api.py:93-115 | Inside the last second before the start the count already reads 0. |
| ApiServer.ToClient | api.py:110-120 | The client snapshot keeps the phase and the count, and carries the instants in milliseconds. |
| ApiServer.Ok | api.py:54-57 | Success answers are 200 with `success: true`. |
| ApiServer.Fail | api.py:59-62 | Error answers carry the status and the error text with `success: false`. |
| ApiServer.ClientSeesRefusal | api.py:59-62 | A refusal reaches the client's error slot word for word, with a null result. |
| ApiServer.GetUserData | api.py:50-62 | 400 iff the id is not a number; otherwise the record the database reports for that id. |
| ApiServer.GetReferralLink | api.py:171-190 | 400 iff the id is not a number. Otherwise the link's start parameter reads back as the id, and the share URL embeds the link and text. |
| ApiServer.ReferralLinkCanonical | api.py:172-175 | A zero-padded id still yields the canonical link. |
| ApiServer.RegisterUser | api.py:136-162 | An unreadable or non-object body is a 500 and a missing or falsy id a 400; neither writes. An integer id is flagged as registered and answered with its record. |
| ApiServer.ClientRegistrationRegisters | api.py:137-156 | The form the mini app posts registers exactly the poster. |
| ApiServer.ZeroIdRefused | api.py:140-144 | An id of 0 is refused as missing and writes nothing. |
| ApiServer.SavePractice | api.py:247-277 | A row is written iff the id is present and truthy and the database step does not raise. Date and duration default only when absent. A raising database step is a 500 carrying the exception's message. Otherwise the answer carries the days and their count. |
| ApiServer.ClientSaveWritesToday | api.py:248-259 | The stopwatch's save writes today's date with the session's seconds for the user. |
| ApiServer.ClientSaveDatabaseFailure | api.py:259-277 | When the database step raises, the stopwatch's save writes nothing and answers 500 with the exception's message. |
| ApiServer.NullDateKept | api.py:250 | An explicit null date is stored as null: the default applies only to a missing key. |
| ApiServer.GetPractice | api.py:212-231 | 400 iff the id is not a number; otherwise that user's days, their count and the 21-day target. |
| ApiServer.ResetPractice | api.py:286-299 | The tracker cleared is the one the path names. A non-number is a 400; a success carries no data. |
| ApiServer.ClientPathsReachTheirUser | api.py:319-327 | Each URL the client builds is served for the id it was built from. |
| ApiServer.SegmentEndpoints | api.py:319-327 | Every per-user endpoint acts on the id its path segment reads as. |
| ApiServer.ResetReadAsSuccess | api.py:291-294 | The client reads the reset's answer as success. |
| Database.NewRow | database.py:22-28 | A new row is active and not registered. |
| Database.AddUser | database.py:22-33 | The id ends up present and active, a new row as created and an existing one unchanged otherwise. Other rows are untouched, and a failure changes nothing. |
| Database.AddUserIdempotent | database.py:25-30 | A repeated insert leaves the row as the first one made it. |
| Database.SetWebinarRegistration | database.py:35-38 | Only that row's flag is set; an unknown id creates nothing. |
| Database.UpdateStatus | database.py:54-57 | Only that row's active flag changes. |
| Database.ActiveUsers | database.py:40-45 | Exactly the active ids. |
| Database.RegisteredUsers | database.py:47-52 | Exactly the active registered ids, a subset of the active ones. |
| Database.DeactivateRemovesFromAudiences | database.py:40-57 | Deactivation removes exactly that user from both audiences. |
| Database.RegistrationJoinsAudience | database.py:35-52 | Registering an active user adds exactly that user to the registered audience. |
| Delivery.Delivered | scheduler.py:25-33 | The count of successful sends never exceeds the recipients. |
| Delivery.SendToAll | scheduler.py:25-33 | The count is the number of accepted sends, and exactly the failed recipients are marked inactive. |
| Delivery.FailuresLeaveAudience | scheduler.py:30-32 | After the loop every failed recipient is out of the active audience, and nobody else's membership changed. |
| Delivery.AllDelivered | scheduler.py:25-29 | With no failures every recipient is counted. |
| Scheduler.OfferEnd | scheduler.py:183-184 | The scheduler's end of the sale is half an hour before the API's. |
| Scheduler.ProductionJobs | scheduler.py:128-202 | Nine jobs: warm-ups 1–4 at 5 days, 3 days, 1 day and 1 hour before the start; the start reminder at the start; warm-up 5 ninety minutes in; the notices for 3, 1 and 0 hours left counted back from the offer end. |
| Scheduler.ProductionJobsOrdered | scheduler.py:140-202 | The production jobs run in list order, under pairwise different ids. |
| Scheduler.AdjacentIncreasing | scheduler.py:140-202 | Adjacent jobs in order put the whole list in order. |
| Scheduler.StartTestSchedule | scheduler.py:208-231 | Six jobs, the i-th one i+1 minutes from now. |
| Scheduler.TestScheduleOrdered | scheduler.py:216-231 | The test jobs run in list order, under pairwise different ids. |
| Scheduler.TestMirrorsProduction | scheduler.py:208-231 | The test run replays the first six production actions in order, with no offer notice. |
| Scheduler.ClockOf | scheduler.py:108 | `%H:%M` is five characters with a colon in the middle. |
| Scheduler.ClockOfReadsBack | scheduler.py:108 | The two fields read back as the instant's hour of the day and minute of the hour. |
| Scheduler.PrintedDeadline | scheduler.py:105-108 | The deadline printed in the notices is an hour and a half before the scheduler's own end of the sale. |
| Scheduler.SendPostWebinarOffer | scheduler.py:98-125 | A notice exists only for 3, 1 and 0 hours left. The dated ones carry the buyer count and the printed deadline, and 0 gives the closing text. |
| Scheduler.PrintedClockTwelveHoursOn | scheduler.py:105-108 | The printed deadline is the start's minute with the hour moved on 12, modulo 24. |
| Scheduler.DeadlinesDisagree | scheduler.py:183-202 | The one-hour notice goes out half an hour after the deadline it prints. The closing notice goes out while the API still reports the sale, and the API's window ends half an hour after it. |
| Scheduler.ScheduledOffersAllSend | scheduler.py:187-202 | Every dated offer job produces a notice. |
| Scheduler.WarmupKeyboard | scheduler.py:47-59 | No button without a label. A callback wins over a URL, and neither gives no button. |
| Scheduler.WarmupMessage | scheduler.py:61-77 | A video with the caption when a file id is set, the caption as text otherwise; both carry the keyboard. |
| Scheduler.SendWarmupJob | scheduler.py:37-83 | Without configuration nothing is sent or changed. Otherwise the message goes to the registered users, the successes are counted, and failures are deactivated. |
| Scheduler.StartReminder | scheduler.py:86-95 | The link text exactly when a stream link is stored. |
| Scheduler.SendReminder | scheduler.py:18-34 | The chosen audience is messaged, successes are counted, and every failed member leaves the active audience. |
| Bot.ListedExactly | bot.py:36 | The membership walk agrees with "some configured name lower-cases to it". |
| Bot.IsAdmin | bot.py:34-36 | An administrator iff the username is non-empty and matches a configured name, ignoring case. |
| Bot.AdminIgnoresCase | bot.py:36 | Two spellings that lower-case alike are both administrators or neither. |
| Bot.ConfiguredNamesAreAdmins | bot.py:36 | Every configured name, as written or lower-cased, is an administrator; a user without a username never is. |
| Bot.StartReferral | bot.py:84-98 | A referrer iff the second word starts with `ref_` and reads as a number once every `ref_` is removed. Never the sender. |
| Bot.CmdStart | bot.py:80-106 | The user is stored whatever the parameter says; the referrer read is never the sender. |
| Bot.StartWords | bot.py:86-88 | "/start p" splits into the command and p. |
| Bot.StripTag | bot.py:91 | Removing the tag from a tagged number leaves the number. |
| Bot.StartTagged | bot.py:86-98 | A tagged parameter that strips to digits names that number, unless it is the sender. |
| Bot.StartTaggedNumber | bot.py:86-98 | `/start ref_<digits>` names that number, unless it is the sender. |
| Bot.LinkParameter | api.py:175 | The referral link's start parameter is the tag followed by the id. |
| Bot.ReferralLinkRoundTrip | bot.py:85-98 | Opening a user's referral link names exactly that user; one's own link names nobody. |
| Bot.StripTwoTags | bot.py:91 | Both tags of "ref_d1ref_d2" are removed. |
| Bot.EveryTagRemoved | bot.py:89-91 | A parameter with two tagged numbers names the number they form together. |
| Bot.AtWords | bot.py:289 | The kept words are the words that start with '@', no others and none missed. |
| Bot.Mentions | bot.py:288 | The usernames are the message's words that start with '@' (see `Bot.MentionsSplit`). |
| Bot.AtWordsAppend | bot.py:288 | The filter keeps order across a join: the mentions of the first list, then those of the second. |
| Bot.AtWordsSnoc | bot.py:288 | One more word is appended to the mentions exactly when it starts with '@'. |
| Bot.MentionsSplit | bot.py:286-295 | A message's mentions are those before any blank followed by those after it, so the first two kept are the first two in message order. |
| Bot.HandleRecommendation | bot.py:272-311 | Existing recommendations block the save. Fewer than two mentions are refused. Otherwise the first two mentions are saved, and the reply follows the save's answer. |
| Bot.AtWordsFirstTwo | bot.py:289-296 | Two leading mentions are the first two kept. |
| Bot.MentionsFirstTwo | bot.py:288-296 | In "@a @b rest" the first two mentions are @a and @b. |
| Bot.FirstTwoMentionsSaved | bot.py:295-299 | With two mentions up front exactly those two are saved. |
| Bot.LoneMentionRefused | bot.py:289-293 | A single mention with a plain word is refused. |
| Bot.HandleRegistration | bot.py:150-191 | A registered user is told so and nothing changes. Anyone else is flagged and gets the delayed confirmation. |
| Bot.RegistrationIdempotent | bot.py:157-165 | A second press changes nothing and schedules no second confirmation. |
| Bot.UnknownUserConfirmedEachTime | bot.py:158-168 | A user without a row is never flagged, so every press confirms again. |
| Bot.HandleWebAppData | bot.py:194-218 | Only an object whose action is `register_webinar` registers and confirms; anything else changes nothing. |
| Bot.WebAppPayloads | bot.py:202-209 | The mini app's form payload and the landing page's confirmation register; the purchase payload does not. |
| Bot.WebAppConfirmsAgain | bot.py:205-215 | The mini app path confirms an already registered user again, where the button would not. |
| Bot.TestWarmupKeyboard | bot.py:47-53 | A link button only when both a label and a link are set. |
| Bot.TestWarmupMessage | bot.py:47-71 | A video when a file id is set, text otherwise, carrying the link button. |
| Bot.TestDropsCallbackButton | bot.py:488-495 | A callback-only warm-up has a button when scheduled and none through `/test_warmup`. |
| Bot.CmdTestWarmup | bot.py:458-497 | Silent for others. Usage without an argument, and a refusal unless the argument reads as 1–5. Then the configured video, or a "not configured" note. |
| Bot.SplitFirstCommand | bot.py:464 | "cmd arg" splits into the command and the argument. |
| Bot.VideoNumber | bot.py:473-474 | The video number is the `int()` of the right-stripped argument, and none without an argument (see `Bot.VideoNumberOf`, `Bot.TestWarmupRange`). |
| Bot.VideoNumberOf | bot.py:473-474 | The number after the command reads back as itself. |
| Bot.TestWarmupRange | bot.py:473-486 | Numbers 1–5 reach the configuration; 0 and anything above 5 are refused. |
| Bot.CmdBroadcast | bot.py:373-397 | Silent for others and usage without text. Otherwise the text goes to the active users, the confirmation counts successes, and failures are deactivated. |
| App.InitialRequests | mini-app/src/App.tsx:36-41 | The mode is requested first, then the user record only when a user is known. |
| App.LoadInitialData | mini-app/src/App.tsx:31-54 | The mode is stored, and the dashboard follows only a registered user. Loading always ends. |
| App.FirstScreen | mini-app/src/App.tsx:19-47 | The first screen is the dashboard iff the user is registered, the welcome screen otherwise. |
| App.HandleRegistrationComplete | mini-app/src/App.tsx:56-62 | The dashboard, and a refresh of the record only when a user is known. |
| App.HandleNavigate | mini-app/src/App.tsx:64-66 | The requested screen, with the data untouched. |
| App.HandleBack | mini-app/src/App.tsx:68-70 | The dashboard, with the data untouched. |
| App.Render | mini-app/src/App.tsx:73-112 | The loading view iff loading or not ready; otherwise the view of the current screen, with the mode handed on. |
| App.LoadedStateRenders | mini-app/src/App.tsx:48-53 | After the load a screen is drawn even when both fetches failed. |
| App.Offered | mini-app/src/screens/DashboardScreen.tsx:190-209 | The controls drawn: none while loading (App.tsx:73-84) and none on the welcome screen. The dashboard has Tools, plus Sales in the sale window; sales and tools each have Back. |
| App.Step | mini-app/src/App.tsx:64-70 | Controls never touch the data, and a control the screen does not offer changes nothing. |
| App.WelcomeIsTerminal | mini-app/src/App.tsx:87-89 | No sequence of presses leaves the welcome screen. |
| App.RunKeepsData | mini-app/src/App.tsx:64-70 | Any sequence of presses keeps the loaded data. |
| App.SalesOnlyAfterWebinar | mini-app/src/screens/DashboardScreen.tsx:190-200 | The sales screen is reachable only while the stored mode is the sale window. |
| App.BackReturnsToDashboard | mini-app/src/App.tsx:68-70 | Back from sales or tools lands on the dashboard; while loading there is no Back and nothing changes. |
| DashboardScreen.ShowSales | mini-app/src/screens/DashboardScreen.tsx:190 | The sales control is offered only in the post-webinar mode (see `Timeline.SalesButtonWindow`). |
| DashboardScreen.ShowCountdown | mini-app/src/screens/DashboardScreen.tsx:71 | The countdown needs the pre-webinar mode and a webinar date (see `Timeline.CountdownBeforeStart`). |
| DashboardScreen.SalesAndCountdownExclusive | mini-app/src/screens/DashboardScreen.tsx:71-79 | The countdown block and the sales button never show together. |
| DashboardScreen.ProgressArgs | mini-app/src/screens/DashboardScreen.tsx:103-107 | A missing record or zero falls back to 0 of 2, and the target is never 0. |
| DashboardScreen.EmptyBarWithoutUser | mini-app/src/screens/DashboardScreen.tsx:103-107 | Before the record arrives the bar is empty and the goal not reached. |
| DashboardScreen.Raffle | mini-app/src/screens/DashboardScreen.tsx:87-101 | The "participating" text iff in the raffle; the instructions show exactly otherwise. |
| DashboardScreen.Greeting | mini-app/src/screens/DashboardScreen.tsx:63 | The greeting is a non-empty blank-free word: the full name's first word, or the fallback. |
| DashboardScreen.GreetingFirstWord | mini-app/src/screens/DashboardScreen.tsx:63 | A full name starting with a word greets by that word. |
| DashboardScreen.LoadRequests | mini-app/src/screens/DashboardScreen.tsx:24-36 | Both records are requested for a known user, nothing otherwise. |
| DashboardScreen.LoadData | mini-app/src/screens/DashboardScreen.tsx:30-40 | Both answers are stored; without a user nothing changes. |
| DashboardScreen.HandleInvite | mini-app/src/screens/DashboardScreen.tsx:42-47 | Nothing until the referral record is loaded; then the share text, a blank line and the link. |
| DashboardScreen.HandleStory | mini-app/src/screens/DashboardScreen.tsx:119-135 | Nothing until the referral record is loaded; then a caption ending in the link, with a widget pointing at it. |
| SalesScreen.Price | mini-app/src/screens/SalesScreen.tsx:24 | The price from the mode, or 5990 when absent or zero; never zero. |
| SalesScreen.DiscountPrice | mini-app/src/screens/SalesScreen.tsx:25 | The discounted price from the mode, or 4790 when absent or zero; never zero. |
| SalesScreen.Discount | mini-app/src/screens/SalesScreen.tsx:26 | The badge is between 0 and 100 for a genuine discount, 0 for none, and not positive for a mark-up. |
| SalesScreen.RatioBounds | mini-app/src/screens/SalesScreen.tsx:26 | The price ratio is in (0, 1] for a discount, 1 for none, and above 1 for a mark-up. |
| SalesScreen.DiscountMonotone | mini-app/src/screens/SalesScreen.tsx:26 | A deeper cut never shows a smaller saving. |
| SalesScreen.DefaultDiscount | mini-app/src/screens/SalesScreen.tsx:24-26 | The default prices read -20%. |
| SalesScreen.Render | mini-app/src/screens/SalesScreen.tsx:23-133 | "Discount ended" iff the offer expired. Otherwise the buy button, with a timer exactly when there is a deadline. |
| SalesScreen.RenderWithoutMode | mini-app/src/screens/SalesScreen.tsx:23-28 | Without a snapshot the buy button shows with no timer. |
| SalesScreen.HandleBuy | mini-app/src/screens/SalesScreen.tsx:17-21 | The checkout page, opened outside the client when a host is present. |
| WelcomeScreen.QueryGet | mini-app/src/screens/WelcomeScreen.tsx:25-26 | The first value bound to the key, and none iff no parameter has it. |
| WelcomeScreen.InitialStep | mini-app/src/screens/WelcomeScreen.tsx:25-27 | The form first iff `form=1`. |
| WelcomeScreen.FirstFormParameterWins | mini-app/src/screens/WelcomeScreen.tsx:25-27 | A later `form` binding does not override the first. |
| WelcomeScreen.Back | mini-app/src/screens/WelcomeScreen.tsx:178-183 | Back from the form returns to the intro. |
| WelcomeScreen.GoalName | mini-app/src/screens/WelcomeScreen.tsx:13 | A goal is one of the three names the form offers. |
| WelcomeScreen.InitialFields | mini-app/src/screens/WelcomeScreen.tsx:19-22 | The name starts as the first name, or empty without a user; the rest start empty. |
| WelcomeScreen.RegisterPayloadFields | mini-app/src/screens/WelcomeScreen.tsx:51-56 | The confirmation carries the action and exactly the attempt's fields. |
| WelcomeScreen.SubmitEnabled | mini-app/src/screens/WelcomeScreen.tsx:172 | The submit button is enabled with a goal chosen and no request in flight. |
| WelcomeScreen.SubmitGuardMatchesButton | mini-app/src/screens/WelcomeScreen.tsx:36 | For a known user a press posts exactly when the idle button is enabled: the goal guard repeats the button's. |
| WelcomeScreen.HandleRegister | mini-app/src/screens/WelcomeScreen.tsx:29-72 | Without an id only an alert, and without a goal nothing. Otherwise the form is posted. A record sends the confirmation to the bot through the host; null shows 'API returned null'. |
| WelcomeScreen.NoHostNoConfirmation | mini-app/src/screens/WelcomeScreen.tsx:49-56 | Outside the client the mock user registers but nothing reaches the bot. |
| WelcomeScreen.ServerErrorNotShown | mini-app/src/screens/WelcomeScreen.tsx:57-63 | Any two server refusals leave the form in the same state: the server's reason is lost. |
| ToolsScreen.Tick | mini-app/src/screens/ToolsScreen.tsx:50-54 | A running stopwatch gains one second per firing; a stopped one is unchanged. |
| ToolsScreen.TicksCount | mini-app/src/screens/ToolsScreen.tsx:50-54 | After n firings a running stopwatch has counted exactly n seconds. |
| ToolsScreen.HandleStartStop | mini-app/src/screens/ToolsScreen.tsx:70-79 | The toggle flips running and keeps the count; stopping a non-empty session saves it. |
| ToolsScreen.HandleReset | mini-app/src/screens/ToolsScreen.tsx:104-108 | Reset stops at zero from any state. |
| ToolsScreen.SessionSaves | mini-app/src/screens/ToolsScreen.tsx:70-79 | Start, n seconds, stop: the count grew by n and a save happens iff it is non-zero. |
| ToolsScreen.FormatTime | mini-app/src/screens/ToolsScreen.tsx:64-68 | "MM:SS" with the colon third from the end, five characters below 100 minutes. |
| ToolsScreen.ParseClockOf | mini-app/src/screens/ToolsScreen.tsx:64-68 | A digit run, a colon and two digits below 60 read as minutes and seconds. |
| ToolsScreen.ClockRoundTrip | mini-app/src/screens/ToolsScreen.tsx:64-68 | Digit runs worth the whole minutes and the remaining seconds read back as the total. |
| ToolsScreen.FormatTimeRoundTrip | mini-app/src/screens/ToolsScreen.tsx:64-68 | The rendered clock reads back as the seconds it shows. |
| ToolsScreen.LocalRecord | mini-app/src/screens/ToolsScreen.tsx:82-91 | The next day is marked iff it is at most 21 and not yet marked; a well-formed list stays well-formed. |
| ToolsScreen.DaysUpTo | mini-app/src/screens/ToolsScreen.tsx:84-86 | The days 1..k in order. |
| ToolsScreen.LocalRecordsFromEmpty | mini-app/src/screens/ToolsScreen.tsx:84-89 | From empty, successive saves mark 1, 2, … in order and stop at 21. |
| ToolsScreen.SavePracticeToServer | mini-app/src/screens/ToolsScreen.tsx:81-102 | Without a user the local fallback runs and is stored when it marked a day. With one the session is posted, and a non-null answer replaces the list. |
| ToolsScreen.HandleResetTracker | mini-app/src/screens/ToolsScreen.tsx:110-120 | Without a user local storage is cleared. With one the deletion is sent, and the list empties unless the call propagates a failure. |
| ToolsScreen.Progress | mini-app/src/screens/ToolsScreen.tsx:122 | 0 iff nothing is marked, 100 at 21 days, and within 0..100 for a valid list. |
| ToolsScreen.ProgressMonotone | mini-app/src/screens/ToolsScreen.tsx:122 | More marked days never lower the percentage. |
| ToolsScreen.InitialDays | mini-app/src/screens/ToolsScreen.tsx:28-48 | The server's list when fetched, the stored list without a user, empty otherwise. |
| ToolsScreen.ReloadShowsStoredDays | mini-app/src/screens/ToolsScreen.tsx:84-88 | What the fallback stored is what a reload shows. |
| Landing.UpdateCountdown | docs/app.js:63-99 | Nothing changes without the elements. "00" with the live labels from the event on; padded fields before it. |
| Landing.SameFieldsAsMiniApp | docs/app.js:92-98 | Before the event the page shows the same days, hours and minutes as the mini app's countdown. With less than a day left, where the mini app drops the days block, the page shows "00" days. |
| Landing.HandleBuyClick | docs/app.js:151-168 | With a host, the buy payload goes to it and then an alert; without one, only a browser alert. |
| WeeklyTimer.DayOfWeek | frontend/docs/app.js:11 | `getDay()` is a weekday number 0–6 with 0 for Sunday; day 0 of the count is a Thursday. |
| WeeklyTimer.HourOf | frontend/docs/app.js:12 | `getHours()` is an hour 0–23. |
| WeeklyTimer.DaysUntilSunday | frontend/docs/app.js:15-22 | 0 on Sunday before 18:00, 7 on Sunday from 18:00, the days to Sunday otherwise. |
| WeeklyTimer.DayRemainder | frontend/docs/app.js:25-27 | An instant's day number and time of day are its quotient and remainder by a day. |
| WeeklyTimer.CandidateNotPast | frontend/docs/app.js:25-33 | The computed target is always ahead and at most a week away, so the extra-week branch is dead. |
| WeeklyTimer.NextSession | frontend/docs/app.js:8-35 | The target is a Sunday at 18:00:00, strictly ahead and at most seven days away. |
| WeeklyTimer.UpdateTimer | frontend/docs/app.js:8-44 | The fields are the padded breakdown of the time to the next session, never more than seven days. |
| WeeklyTimer.CloseAppEffects | frontend/docs/app.js:79-87 | The confirmation payload goes to the host, then the app closes. |
| WeeklyTimer.HandleRegistration | frontend/docs/app.js:50-77 | The modal shows, haptics follow when available, and no payload is sent. |
| Timeline.Snapshot | api.py:81-120 | The client's snapshot carries the phase the API classifies for that instant. |
| Timeline.SalesButtonWindow | mini-app/src/screens/DashboardScreen.tsx:190-200 | The dashboard offers the sales screen exactly from 2 h to 14 h after the start. |
| Timeline.CountdownBeforeStart | mini-app/src/screens/DashboardScreen.tsx:71 | The dashboard countdown shows exactly before the start. |
| Timeline.SalesScreenFollowsDeadline | mini-app/src/screens/SalesScreen.tsx:23-28 | During the sale the buy button shows with a timer at start + 14 h in milliseconds; afterwards only "discount ended". |
| Timeline.ClosedNoticeWhileStillSelling | scheduler.py:183-202 | When the closing notice goes out the mini app still sells, with 1800 s on its timer. |

## Left out

- **Randomness and fixed replies.**
  - The raffle draws by `random.choice` (bot.py:318-340). The landing page's buyer
    counter grows at random (docs/app.js:105-124). Neither is modelled.
  - `/stats`, `/set_stream_link`, `/reset`, `/debug`, the file-id handler, `/help`,
    the unknown-message reply, `/recommend` and the `start_recommend` callback only
    read or write configuration, or answer fixed texts; they are not modelled.
  - The text `/test_scenario` prints is not modelled; the schedule it starts is
    `Scheduler.StartTestSchedule`.
- **Timers and delays.**
  - The 30-second delayed confirmation (`send_confirmation_delayed`) is the boolean
    `confirmation`.
  - The broadcast's anti-flood sleep and the landing pages' intervals and modals
    are not modelled.
  - Theme colours and haptic feedback are not modelled.
- **Database functions not defined in `database.py`.**
  - `get_user`, `get_user_referral_info`, `get_user_referrals`, `get_stream_link`,
    `get_buyers_count`, `get_completed_days`, `get_practice_logs`,
    `save_practice_log`, `add_referrals`, `reset_practice_tracker` and
    `reset_registration` are not part of this model.
  - Their results are parameters: `lookup`, `completedOf`, `existing`, `streamLink`,
    `buyers`, `saveOk`, `dbError`.
  - `init_db` is not modelled.
- **Configuration.** The `messages` module is not part of this model. Webinar date,
  prices, admin names, warm-up configurations and texts are parameters.
- **Other modules.** `payments.py`, `fix_db.py` and `fix_db_v2.py` are not modelled.
  Neither are the `useTelegram` hook's effects beyond identity, `openLink` and
  `sendData`.
- **Server plumbing.**
  - The CORS middleware is not modelled. Its allowed methods omit DELETE, which the
    tracker reset uses.
  - The health endpoint and the server start-up are not modelled.
  - Routing is modelled only as the URL-to-id property
    `ApiServer.ClientPathsReachTheirUser`.
- **Dates and numbers.**
  - Date parsing and ISO formatting are not modelled, and neither are time zones or
    daylight saving. Nor is `toLocaleDateString` (DashboardScreen.tsx:49-55).
  - JSON numbers are integers; floats are not modelled.
- **Scheduler.StartTestSchedule:** the jobs at `now` + i minutes assume the API host's naive `now` is Moscow wall time. On a host in another zone the scheduler reads the dates in Europe/Moscow, and the jobs may fall in the past and be skipped.
- **Scheduler.DeadlinesDisagree:** the clause comparing with the API's phase assumes the API host runs on Moscow wall time, like the scheduler.
- **Timeline.ClosedNoticeWhileStillSelling:** the 1800 s on the timer assume the API host, the scheduler and the browser all run on Moscow wall time. On a UTC host the API's timer differs by the zone offset.
- **ApiServer.GetUserData:** a database exception (the 500 branch) is not modelled.
  The lookup is a total function.
- **ApiServer.GetPractice:** the database 500 branch and the `logs` field are not
  modelled.
- **ApiServer.RegisterUser:**
  - A truthy `telegram_id` that is not a JSON integer (a string, say) is taken to
    match no row. SQLite's type affinity could match a numeric string.
  - The 500 branch for database errors is not modelled.
- **ApiServer.SavePractice:** the written row is returned rather than stored; the
  database reads the days afterwards through the `completed` parameter.
  - `database.py` defines no `save_practice_log` (called at api.py:259). As
    shipped, every valid save raises there and takes the 500 branch with the
    `AttributeError`'s message. The model does not fix that message: the
    exception's text is the `dbError` parameter, and `dbError == None` stands for
    a database module that defines the function.
- **Text.ParseInt:** accepts only plain decimal text with an optional '-'.
  Python's `int()` also accepts surrounding whitespace, '+', underscores and
  non-ASCII digits.
- **Text.Words:** splits on the six blanks ' ', `\t`, `\n`, `\v`, `\f` and `\r` only.
  Python's `split()` also splits on the separators `\x1c`–`\x1f` and on Unicode
  spaces.
- **Text.Lower:** lower-cases ASCII letters only. Telegram usernames are ASCII.
- **WelcomeScreen.HandleRegister:** the failure alert inside the client assumes the build variable `VITE_API_URL` is unset, so it reads "API: HARDCODED" (WelcomeScreen.tsx:66). Other build settings are not modelled.
- **ProgressBar.Percentage:** requires a non-zero target. JavaScript would draw
  `Infinity` or `NaN`, and the only caller never passes 0 (`DashboardScreen.ProgressArgs`).
- **SalesScreen.Discount:** requires a non-zero price, which `SalesScreen.Price`
  always gives.
- **Scheduler.SendWarmupJob:** a configuration always has a caption. The
  `KeyError` for a missing one is not modelled.
- **Delivery.SendToAll:** which sends fail is fixed in advance as the set `failing`.
  Network errors are not modelled further.
- **Bot.CmdStart:** as shown, `cmd_start` calls `database.add_user(..., ref_by=ref_by)` (bot.py:101-106). The only `add_user` in `database.py` takes no `ref_by` (database.py:22), so that call raises `TypeError`: nothing is stored and no welcome is sent. The model assumes an `add_user` that accepts `ref_by` and ignores it. It stores the user as `database.py`'s `add_user` does and returns the parsed referrer without recording it. The welcome video and its text fallback are not modelled.
- **Bot.HandleRegistration:** the alert texts and keyboard edits are summarised as
  the reply kind. Failures of the message edits, which the handler swallows, are
  not modelled.
- **Countdown.OnTick:** the interval is modelled per firing. React's effect
  clean-up and re-subscription are not modelled.
- **App.LoadInitialData:** a re-run when the hook's user or readiness changes is a
  further call of the same function.

=== FILE: api_client.dfy ===
/**
 * The client's gateway to the HTTP API (`useApi`): envelope unwrapping into a
 * nullable result with shared `loading`/`error` slots, the fixed endpoint of
 * each helper, and the deletion call that bypasses the envelope logic.
 */
module ApiClient {
  import opened Options
  import opened Text
  import Json

  const ApiBase := "https://web-production-fbbc.up.railway.app"

  datatype Method = Get | Post | Delete

  datatype Request = Request(verb: Method, url: string, body: Option<Json.Value>)

  /** The server's uniform answer `{success, data?, error?}`; an absent or null `data` is `None`. */
  datatype Envelope<T> = Envelope(success: bool, data: Option<T>, error: Option<string>)

  /** One round trip: a decoded envelope, or a thrown value (an `Error` carrying a message, or anything else). */
  datatype Outcome<T> = Answered(envelope: Envelope<T>) | Threw(isError: bool, message: string)

  /** The hook's shared `loading` and `error` slots. */
  datatype Slots = Slots(loading: bool, error: Option<string>)

  /** The slots while a call is in flight: loading, error cleared. */
  function Begin(): (r: Slots)
    ensures r.loading && r.error.None?
  {
    Slots(true, None)
  }

  datatype Fetched<T> = Fetched(result: Option<T>, slots: Slots)

  /**
   * `fetchApi`: the data when the envelope succeeded and carries data, null
   * otherwise with the error slot filled in; it never throws, and `loading` is
   * false on every exit.
   */
  function FetchApi<T>(outcome: Outcome<T>): (f: Fetched<T>)
    ensures !f.slots.loading
    ensures f.result.Some? <==> outcome.Answered? && outcome.envelope.success && outcome.envelope.data.Some?
    ensures f.result.Some? ==> f.result == outcome.envelope.data && f.slots.error.None?
    ensures f.result.None? && outcome.Answered? ==>
      f.slots.error == Some(if outcome.envelope.error.Some? && outcome.envelope.error.value != ""
                            then outcome.envelope.error.value else "Unknown error")
    ensures outcome.Threw? ==>
      f.slots.error == Some(if outcome.isError then outcome.message else "Network error")
  {
    match outcome
    case Answered(env) =>
      if env.success && env.data.Some? then Fetched(env.data, Slots(false, None))
      else
        var message := match env.error
          case Some(e) => if e != "" then e else "Unknown error"
          case None => "Unknown error";
        Fetched(None, Slots(false, Some(message)))
    case Threw(isError, message) =>
      Fetched(None, Slots(false, Some(if isError then message else "Network error")))
  }

  // ---------------------------------------------------------------------------
  // Endpoints
  // ---------------------------------------------------------------------------

  const UserPath := "/api/user/"
  const ModePath := "/api/mode"
  const ReferralPath := "/api/referral/"
  const RegisterPath := "/api/register"
  const PracticePath := "/api/practice"

  function UserDataRequest(telegramId: int): Request {
    Request(Get, ApiBase + UserPath + IntToString(telegramId), None)
  }

  function AppModeRequest(): Request {
    Request(Get, ApiBase + ModePath, None)
  }

  function ReferralRequest(telegramId: int): Request {
    Request(Get, ApiBase + ReferralPath + IntToString(telegramId), None)
  }

  function PracticeRequest(telegramId: int): Request {
    Request(Get, ApiBase + PracticePath + "/" + IntToString(telegramId), None)
  }

  function ResetPracticeRequest(telegramId: int): Request {
    Request(Delete, ApiBase + PracticePath + "/" + IntToString(telegramId), None)
  }

  /** `JSON.stringify` drops fields whose value is `undefined`. */
  function OptionalField(key: string, v: Option<Json.Value>): (r: seq<(string, Json.Value)>)
    ensures |r| <= 1 && (r != [] <==> v.Some?)
    ensures forall i :: 0 <= i < |r| ==> r[i] == (key, v.value)
  {
    if v.Some? then [(key, v.value)] else []
  }

  function StrOpt(s: Option<string>): Option<Json.Value> {
    if s.Some? then Some(Json.Str(s.value)) else None
  }

  function RegisterRequest(telegramId: int, name: Option<string>, phone: Option<string>, goal: Option<string>): Request {
    Request(Post, ApiBase + RegisterPath,
      Some(Json.Obj([("telegram_id", Json.Num(telegramId))]
        + OptionalField("name", StrOpt(name))
        + OptionalField("phone", StrOpt(phone))
        + OptionalField("goal", StrOpt(goal)))))
  }

  function SavePracticeRequest(telegramId: int, date: Option<string>, duration: Option<int>): Request {
    Request(Post, ApiBase + PracticePath,
      Some(Json.Obj([("telegram_id", Json.Num(telegramId))]
        + OptionalField("date", StrOpt(date))
        + OptionalField("duration", if duration.Some? then Some(Json.Num(duration.value)) else None))))
  }

  /** The id segment that follows `prefix` in a URL, when the URL starts with it. */
  function Segment(url: string, prefix: string): Option<string> {
    if StartsWith(url, prefix) then Some(url[|prefix|..]) else None
  }

  /** Every per-user endpoint carries the id as its last path segment, readable back as that id. */
  lemma IdReadableFromPath(telegramId: int)
    ensures var s := Segment(UserDataRequest(telegramId).url, ApiBase + UserPath);
      s.Some? && ParseInt(s.value) == Some(telegramId)
    ensures var s := Segment(ReferralRequest(telegramId).url, ApiBase + ReferralPath);
      s.Some? && ParseInt(s.value) == Some(telegramId)
    ensures var s := Segment(PracticeRequest(telegramId).url, ApiBase + PracticePath + "/");
      s.Some? && ParseInt(s.value) == Some(telegramId)
    ensures var s := Segment(ResetPracticeRequest(telegramId).url, ApiBase + PracticePath + "/");
      s.Some? && ParseInt(s.value) == Some(telegramId)
  {
    var id := IntToString(telegramId);
    ParseIntOfIntToString(telegramId);
    assert (ApiBase + UserPath + id)[|ApiBase + UserPath|..] == id;
    assert (ApiBase + ReferralPath + id)[|ApiBase + ReferralPath|..] == id;
    assert (ApiBase + PracticePath + "/" + id)[|ApiBase + PracticePath + "/"|..] == id;
  }

  /** The registration body carries the id under `telegram_id`, whatever optional fields follow. */
  lemma RegisterBodyCarriesId(telegramId: int, name: Option<string>, phone: Option<string>, goal: Option<string>)
    ensures Json.Get(RegisterRequest(telegramId, name, phone, goal).body.value, "telegram_id") == Some(Json.Num(telegramId))
  {
    var head := [("telegram_id", Json.Num(telegramId))];
    var a := OptionalField("name", StrOpt(name));
    var b := OptionalField("phone", StrOpt(phone));
    var c := OptionalField("goal", StrOpt(goal));
    assert RegisterRequest(telegramId, name, phone, goal).body.value.fields == head + (a + b + c);
    Json.FindPastOtherKeys(head, a + b + c, "telegram_id");
  }

  /** The practice body carries the id under `telegram_id`, whatever optional fields follow. */
  lemma SaveBodyCarriesId(telegramId: int, date: Option<string>, duration: Option<int>)
    ensures Json.Get(SavePracticeRequest(telegramId, date, duration).body.value, "telegram_id") == Some(Json.Num(telegramId))
  {
    var head := [("telegram_id", Json.Num(telegramId))];
    var a := OptionalField("date", StrOpt(date));
    var b := OptionalField("duration", if duration.Some? then Some(Json.Num(duration.value)) else None);
    assert SavePracticeRequest(telegramId, date, duration).body.value.fields == head + (a + b);
    Json.FindPastOtherKeys(head, a + b, "telegram_id");
  }

  // ---------------------------------------------------------------------------
  // resetPractice
  // ---------------------------------------------------------------------------

  /** What `resetPractice` gives its caller: the envelope's `success`, or the failure it lets through. */
  datatype ResetResult = Returned(success: bool) | Propagated(message: string)

  /**
   * `resetPractice` does not go through `fetchApi`: it leaves the slots as they
   * are, answers `success` whether or not data came back, and does not catch.
   */
  function ResetPractice<T>(s: Slots, outcome: Outcome<T>): (r: (Slots, ResetResult))
    ensures r.0 == s
    ensures outcome.Answered? ==> r.1 == Returned(outcome.envelope.success)
    ensures outcome.Threw? ==> r.1.Propagated?
  {
    match outcome
    case Answered(env) => (s, Returned(env.success))
    case Threw(_, message) => (s, Propagated(message))
  }

  /** A successful envelope without data is a failure for `fetchApi` but a success for `resetPractice`. */
  lemma ResetIsTheEnvelopeException<T>(s: Slots, env: Envelope<T>)
    requires env.success && env.data.None?
    ensures FetchApi(Answered(env)).result.None?
    ensures ResetPractice(s, Answered(env)).1 == Returned(true)
  {
  }
}

=== FILE: api_server.dfy ===
/**
 * The HTTP API the mini app calls: the timeline classification behind
 * `/api/mode`, the referral link, and the input validation and answer shapes
 * of the registration and practice endpoints. Instants are microseconds.
 */
module ApiServer {
  import opened Options
  import opened Text
  import opened Types
  import Json
  import ApiClient
  import Database

  const UsPerSecond := 1_000_000
  const UsPerMinute := 60_000_000
  const UsPerHour := 3_600_000_000

  /** The broadcast's assumed length and the sale window that follows it. */
  const WebinarDuration := 2 * UsPerHour
  const OfferDuration := 12 * UsPerHour

  function OfferDeadline(w: int): int {
    w + WebinarDuration + OfferDuration
  }

  // ---------------------------------------------------------------------------
  // /api/mode
  // ---------------------------------------------------------------------------

  /** The phase of the event at `now` for a webinar starting at `w`. */
  function Classify(w: int, now: int): (m: Mode)
    ensures m == BeforeWebinar <==> now < w
    ensures m == Live <==> w <= now < w + 2 * UsPerHour
    ensures m == AfterWebinar <==> w + 2 * UsPerHour <= now < w + 14 * UsPerHour
    ensures m == OfferExpired <==> w + 14 * UsPerHour <= now
  {
    if now < w then BeforeWebinar
    else if now < w + WebinarDuration then Live
    else if now < OfferDeadline(w) then AfterWebinar
    else OfferExpired
  }

  /** The phase only moves forward as time passes. */
  lemma ModeMonotone(w: int, t1: int, t2: int)
    requires t1 <= t2
    ensures Rank(Classify(w, t1)) <= Rank(Classify(w, t2))
  {
  }

  /** The `/api/mode` answer; instants in microseconds. */
  datatype ModeReport = ModeReport(mode: Mode, webinarDate: int, secondsUntil: int, deadline: Option<int>, coursePrice: int, coursePriceDiscount: int)

  /**
   * `get_app_mode`: the phase, the next deadline (the start before the
   * webinar, the end of the sale after it, none otherwise), and the whole
   * seconds left until it — `int()` truncates the positive remainder.
   */
  function GetAppMode(w: int, now: int, price: int, discount: int): (r: ModeReport)
    ensures r.mode == Classify(w, now) && r.webinarDate == w
    ensures r.coursePrice == price && r.coursePriceDiscount == discount
    ensures r.deadline.Some? <==> r.mode == BeforeWebinar || r.mode == AfterWebinar
    ensures r.mode == BeforeWebinar ==> r.deadline == Some(w)
    ensures r.mode == AfterWebinar ==> r.deadline == Some(w + 14 * UsPerHour)
    ensures r.deadline.Some? ==> now < r.deadline.value
    ensures r.deadline.Some? ==>
      r.secondsUntil * UsPerSecond <= r.deadline.value - now < (r.secondsUntil + 1) * UsPerSecond
    ensures r.deadline.None? ==> r.secondsUntil == 0
    ensures r.secondsUntil >= 0
  {
    var mode := Classify(w, now);
    var deadline := match mode
      case BeforeWebinar => Some(w)
      case AfterWebinar => Some(OfferDeadline(w))
      case _ => None;
    ModeReport(mode, w, if deadline.Some? then (deadline.value - now) / UsPerSecond else 0, deadline, price, discount)
  }

  /** In the last second before a deadline the whole-second count is already zero. */
  lemma LastSecondReadsZero(w: int, now: int)
    requires w - UsPerSecond < now < w
    ensures GetAppMode(w, now, 0, 0).secondsUntil == 0 && GetAppMode(w, now, 0, 0).mode == BeforeWebinar
  {
  }

  /** The snapshot as the client holds it: the ISO instants read back as milliseconds. */
  function ToClient(r: ModeReport): (m: AppMode)
    ensures m.mode == r.mode && m.secondsUntil == r.secondsUntil
    ensures m.webinarDate == Some(r.webinarDate / 1000)
    ensures m.deadline.Some? <==> r.deadline.Some?
    ensures m.deadline.Some? ==> m.deadline.value == r.deadline.value / 1000
  {
    AppMode(r.mode, Some(r.webinarDate / 1000), r.secondsUntil,
      if r.deadline.Some? then Some(r.deadline.value / 1000) else None,
      r.coursePrice, r.coursePriceDiscount)
  }

  // ---------------------------------------------------------------------------
  // Answers
  // ---------------------------------------------------------------------------

  /** An HTTP status with the JSON envelope the client unwraps. */
  datatype Response<T> = Response(status: int, envelope: ApiClient.Envelope<T>)

  function Ok<T>(data: Option<T>): (r: Response<T>)
    ensures r.status == 200 && r.envelope.success
  {
    Response(200, ApiClient.Envelope(true, data, None))
  }

  function Fail<T>(status: int, error: string): (r: Response<T>)
    ensures r.status == status && !r.envelope.success && r.envelope.error == Some(error)
  {
    Response(status, ApiClient.Envelope(false, None, Some(error)))
  }

  const InvalidId := "Invalid telegram_id"
  const IdRequired := "telegram_id is required"

  /** A refusal reaches the client's error slot word for word. */
  lemma ClientSeesRefusal<T>(status: int, error: string)
    requires error != ""
    ensures ApiClient.FetchApi(ApiClient.Answered(Fail<T>(status, error).envelope)).slots.error == Some(error)
    ensures ApiClient.FetchApi(ApiClient.Answered(Fail<T>(status, error).envelope)).result.None?
  {
  }

  // ---------------------------------------------------------------------------
  // /api/user/{id} and /api/referral/{id}
  // ---------------------------------------------------------------------------

  /** `get_user_data`: 400 for a non-numeric id, otherwise the record the database reports (possibly none). */
  function GetUserData(segment: string, lookup: int -> Option<UserData>): (r: Response<UserData>)
    ensures r.envelope.success <==> IsDecimal(segment)
    ensures !r.envelope.success ==> r == Fail(400, InvalidId)
    ensures r.envelope.success ==> r.envelope.data == lookup(ParseInt(segment).value)
  {
    match ParseInt(segment)
    case None => Fail(400, InvalidId)
    case Some(id) => Ok(lookup(id))
  }

  const ReferralPrefix := "https://t.me/GvozdiProstoBot?start=ref_"
  const ShareText := "Присоединяйся к эфиру про практику на гвоздях! 🔥"
  const SharePrefix := "https://t.me/share/url?url="

  /** The id a referral link carries, read back from its start parameter. */
  function ReferralIdOf(link: string): Option<int> {
    if StartsWith(link, ReferralPrefix) then ParseInt(link[|ReferralPrefix|..]) else None
  }

  /**
   * `get_referral_link`: 400 for a non-numeric id; otherwise a bot deep link
   * whose start parameter names the id, and a share URL that embeds the link.
   */
  function GetReferralLink(segment: string): (r: Response<ReferralInfo>)
    ensures r.envelope.success <==> IsDecimal(segment)
    ensures !r.envelope.success ==> r == Fail(400, InvalidId)
    ensures r.envelope.success ==>
      r.envelope.data.Some? && ReferralIdOf(r.envelope.data.value.referralLink) == ParseInt(segment)
    ensures r.envelope.success ==> var info := r.envelope.data.value;
      info.shareText == ShareText &&
      info.shareUrl == SharePrefix + info.referralLink + "&text=" + ShareText
  {
    match ParseInt(segment)
    case None => Fail(400, InvalidId)
    case Some(id) =>
      var link := ReferralPrefix + IntToString(id);
      ParseIntOfIntToString(id);
      assert link[|ReferralPrefix|..] == IntToString(id);
      Ok(Some(ReferralInfo(link, ShareText, SharePrefix + link + "&text=" + ShareText)))
  }

  /** A leading-zero path still yields the canonical link: the id is re-rendered, not copied. */
  lemma ReferralLinkCanonical()
    ensures GetReferralLink("007").envelope.data.value.referralLink == ReferralPrefix + "7"
  {
    assert ParseInt("007") == Some(7) by {
      assert "007"[..2] == "00" && "00"[..1] == "0" && "0"[..0] == [];
    }
  }

  // ---------------------------------------------------------------------------
  // Request bodies
  // ---------------------------------------------------------------------------

  /** `await request.json()`: a parse error with its message, or the decoded value. */
  datatype Body = Malformed(message: string) | Parsed(value: Json.Value)

  function PyTypeName(v: Json.Value): string {
    match v
    case Null => "NoneType"
    case Bool(_) => "bool"
    case Num(_) => "int"
    case Str(_) => "str"
    case Arr(_) => "list"
    case Obj(_) => "dict"
  }

  /** The `AttributeError` text of `.get` on a decoded value that is not an object. */
  function NoGetMessage(v: Json.Value): string {
    "'" + PyTypeName(v) + "' object has no attribute 'get'"
  }

  // ---------------------------------------------------------------------------
  // POST /api/register
  // ---------------------------------------------------------------------------

  /**
   * `register_user`. A body that does not parse, or is not an object, is a
   * 500; a missing or falsy `telegram_id` is a 400; both leave the table
   * alone. An integer id registers that row and answers the record the
   * database reports; an id of another JSON type matches no row.
   */
  function RegisterUser(db: Database.Users, body: Body, lookup: int -> Option<UserData>): (r: (Database.Users, Response<UserData>))
    ensures body.Malformed? ==> r == (db, Fail(500, body.message))
    ensures body.Parsed? && !body.value.Obj? ==> r == (db, Fail(500, NoGetMessage(body.value)))
    ensures body.Parsed? && body.value.Obj? ==>
      var id := Json.Get(body.value, "telegram_id");
      (r.1.status == 400 <==> id.None? || !Json.Truthy(id.value)) &&
      (r.1.status == 400 ==> r == (db, Fail(400, IdRequired))) &&
      (r.1.status != 400 ==> r.1.envelope.success) &&
      (r.1.status != 400 && id.value.Num? ==> r == (Database.SetWebinarRegistration(db, id.value.n), Ok(lookup(id.value.n)))) &&
      (r.1.status != 400 && !id.value.Num? ==> r.0 == db)
  {
    match body
    case Malformed(message) => (db, Fail(500, message))
    case Parsed(v) =>
      if !v.Obj? then (db, Fail(500, NoGetMessage(v)))
      else
        var id := Json.Get(v, "telegram_id");
        if id.None? || !Json.Truthy(id.value) then (db, Fail(400, IdRequired))
        else if id.value.Num? then (Database.SetWebinarRegistration(db, id.value.n), Ok(lookup(id.value.n)))
        else (db, Ok(None))
  }

  /** The form the mini app posts registers the poster, whatever optional fields it carries. */
  lemma ClientRegistrationRegisters(db: Database.Users, id: int, name: Option<string>, phone: Option<string>, goal: Option<string>,
                                    lookup: int -> Option<UserData>)
    requires id != 0
    ensures var body := ApiClient.RegisterRequest(id, name, phone, goal).body.value;
      RegisterUser(db, Parsed(body), lookup) == (Database.SetWebinarRegistration(db, id), Ok(lookup(id)))
  {
    ApiClient.RegisterBodyCarriesId(id, name, phone, goal);
  }

  /** An id of zero is refused like a missing one and registers nobody. */
  lemma ZeroIdRefused(db: Database.Users, lookup: int -> Option<UserData>)
    ensures RegisterUser(db, Parsed(Json.Obj([("telegram_id", Json.Num(0))])), lookup) == (db, Fail(400, IdRequired))
  {
  }

  // ---------------------------------------------------------------------------
  // The practice endpoints
  // ---------------------------------------------------------------------------

  /** The practice-log row `save_practice` writes, with the values as received. */
  datatype LogEntry = LogEntry(telegramId: Json.Value, date: Json.Value, duration: Json.Value)

  /**
   * `save_practice`, with `today` the server's date, `dbError` the message of
   * the exception the database step raises (if any) and `completed` the days
   * the database reports after the write. The date defaults to today and the
   * duration to 0 only when the key is absent; a falsy id is a 400 and writes
   * nothing; a raising database step is the catch-all 500 with its message.
   */
  function SavePractice(body: Body, today: string, dbError: Option<string>, completed: seq<int>): (r: (Option<LogEntry>, Response<PracticeData>))
    ensures r.0.Some? <==>
      body.Parsed? && body.value.Obj? && Json.Get(body.value, "telegram_id").Some? &&
      Json.Truthy(Json.Get(body.value, "telegram_id").value) && dbError.None?
    ensures body.Malformed? ==> r.1 == Fail(500, body.message)
    ensures body.Parsed? && !body.value.Obj? ==> r.1 == Fail(500, NoGetMessage(body.value))
    ensures (body.Parsed? && body.value.Obj? &&
      (Json.Get(body.value, "telegram_id").None? || !Json.Truthy(Json.Get(body.value, "telegram_id").value))) ==>
      r.1 == Fail(400, IdRequired)
    ensures (body.Parsed? && body.value.Obj? && Json.Get(body.value, "telegram_id").Some? &&
      Json.Truthy(Json.Get(body.value, "telegram_id").value) && dbError.Some?) ==>
      r.1 == Fail(500, dbError.value)
    ensures r.0.Some? ==>
      r.0.value.telegramId == Json.Get(body.value, "telegram_id").value &&
      r.0.value.date == Json.Get(body.value, "date").GetOr(Json.Str(today)) &&
      r.0.value.duration == Json.Get(body.value, "duration").GetOr(Json.Num(0)) &&
      r.1 == Ok(Some(PracticeData(completed, |completed|, None)))
  {
    match body
    case Malformed(message) => (None, Fail(500, message))
    case Parsed(v) =>
      if !v.Obj? then (None, Fail(500, NoGetMessage(v)))
      else
        var id := Json.Get(v, "telegram_id");
        var date := Json.Get(v, "date").GetOr(Json.Str(today));
        var duration := Json.Get(v, "duration").GetOr(Json.Num(0));
        if id.None? || !Json.Truthy(id.value) then (None, Fail(400, IdRequired))
        else if dbError.Some? then (None, Fail(500, dbError.value))
        else (Some(LogEntry(id.value, date, duration)), Ok(Some(PracticeData(completed, |completed|, None))))
  }

  /** The stopwatch's save writes today's entry with the session's length in seconds. */
  lemma ClientSaveWritesToday(id: int, seconds: nat, today: string, completed: seq<int>)
    requires id != 0
    ensures SavePractice(Parsed(ApiClient.SavePracticeRequest(id, None, Some(seconds)).body.value), today, None, completed).0
      == Some(LogEntry(Json.Num(id), Json.Str(today), Json.Num(seconds)))
  {
    var body := ApiClient.SavePracticeRequest(id, None, Some(seconds)).body.value;
    var fields := body.fields;
    assert fields == [("telegram_id", Json.Num(id)), ("duration", Json.Num(seconds))];
    Json.FindLastBinding(fields, 0, "telegram_id");
    Json.FindLastBinding(fields, 1, "duration");
    assert fields[0].0 != "date" && fields[1].0 != "date";
    assert Json.Get(body, "date").None?;
  }

  /** When the database step raises, the stopwatch's save writes nothing and answers 500 with the exception's message. */
  lemma ClientSaveDatabaseFailure(id: int, seconds: nat, today: string, message: string, completed: seq<int>)
    requires id != 0
    ensures SavePractice(Parsed(ApiClient.SavePracticeRequest(id, None, Some(seconds)).body.value), today, Some(message), completed)
      == (None, Fail(500, message))
  {
    var body := ApiClient.SavePracticeRequest(id, None, Some(seconds)).body.value;
    assert body.fields[0] == ("telegram_id", Json.Num(id));
    Json.FindLastBinding(body.fields, 0, "telegram_id");
  }

  /** An explicit `null` date is kept as it is: the default applies to a missing key only. */
  lemma NullDateKept(today: string)
    ensures SavePractice(Parsed(Json.Obj([("telegram_id", Json.Num(5)), ("date", Json.Null)])), today, None, []).0
      == Some(LogEntry(Json.Num(5), Json.Null, Json.Num(0)))
  {
  }

  /** `get_practice`: 400 for a non-numeric id; otherwise the days, their count, and the 21-day target. */
  function GetPractice(segment: string, completedOf: int -> seq<int>): (r: Response<PracticeData>)
    ensures r.envelope.success <==> IsDecimal(segment)
    ensures !r.envelope.success ==> r == Fail(400, InvalidId)
    ensures r.envelope.success ==> r.envelope.data.Some?
    ensures r.envelope.success ==>
      var d := r.envelope.data.value;
      d.completedDays == completedOf(ParseInt(segment).value) && d.totalDays == |d.completedDays| && d.targetDays == Some(21)
  {
    match ParseInt(segment)
    case None => Fail(400, InvalidId)
    case Some(id) =>
      var days := completedOf(id);
      Ok(Some(PracticeData(days, |days|, Some(21))))
  }

  /** `reset_practice`: 400 for a non-numeric id; otherwise the id whose tracker is cleared and a bare success. */
  function ResetPractice(segment: string): (r: (Option<int>, Response<PracticeData>))
    ensures r.0 == ParseInt(segment)
    ensures r.1.envelope.success <==> r.0.Some?
    ensures r.0.None? ==> r.1 == Fail(400, InvalidId)
    ensures r.0.Some? ==> r.1.envelope.data.None?
  {
    match ParseInt(segment)
    case None => (None, Fail(400, InvalidId))
    case Some(id) => (Some(id), Ok(None))
  }

  /** The id in each per-user URL the client builds is the id these endpoints act on. */
  lemma ClientPathsReachTheirUser(id: int, lookup: int -> Option<UserData>, completedOf: int -> seq<int>)
    ensures var s := ApiClient.Segment(ApiClient.UserDataRequest(id).url, ApiClient.ApiBase + ApiClient.UserPath);
      s.Some? && GetUserData(s.value, lookup) == Ok(lookup(id))
    ensures var s := ApiClient.Segment(ApiClient.ReferralRequest(id).url, ApiClient.ApiBase + ApiClient.ReferralPath);
      s.Some? && GetReferralLink(s.value).envelope.data.Some? &&
      ReferralIdOf(GetReferralLink(s.value).envelope.data.value.referralLink) == Some(id)
    ensures var s := ApiClient.Segment(ApiClient.PracticeRequest(id).url, ApiClient.ApiBase + ApiClient.PracticePath + "/");
      s.Some? && GetPractice(s.value, completedOf).envelope.data.Some? &&
      GetPractice(s.value, completedOf).envelope.data.value.completedDays == completedOf(id)
    ensures var s := ApiClient.Segment(ApiClient.ResetPracticeRequest(id).url, ApiClient.ApiBase + ApiClient.PracticePath + "/");
      s.Some? && ResetPractice(s.value).0 == Some(id)
  {
    ApiClient.IdReadableFromPath(id);
    var s1 := ApiClient.Segment(ApiClient.UserDataRequest(id).url, ApiClient.ApiBase + ApiClient.UserPath).value;
    var s2 := ApiClient.Segment(ApiClient.ReferralRequest(id).url, ApiClient.ApiBase + ApiClient.ReferralPath).value;
    var s3 := ApiClient.Segment(ApiClient.PracticeRequest(id).url, ApiClient.ApiBase + ApiClient.PracticePath + "/").value;
    var s4 := ApiClient.Segment(ApiClient.ResetPracticeRequest(id).url, ApiClient.ApiBase + ApiClient.PracticePath + "/").value;
    SegmentEndpoints(s1, id, lookup, completedOf);
    SegmentEndpoints(s2, id, lookup, completedOf);
    SegmentEndpoints(s3, id, lookup, completedOf);
    SegmentEndpoints(s4, id, lookup, completedOf);
  }

  /** Every per-user endpoint acts on the id its path segment reads as. */
  lemma SegmentEndpoints(s: string, id: int, lookup: int -> Option<UserData>, completedOf: int -> seq<int>)
    requires ParseInt(s) == Some(id)
    ensures GetUserData(s, lookup) == Ok(lookup(id))
    ensures GetReferralLink(s).envelope.data.Some? &&
      ReferralIdOf(GetReferralLink(s).envelope.data.value.referralLink) == Some(id)
    ensures GetPractice(s, completedOf).envelope.data.Some? &&
      GetPractice(s, completedOf).envelope.data.value.completedDays == completedOf(id)
    ensures ResetPractice(s).0 == Some(id)
  {
  }

  /** The client's resetPractice reads this answer as a success. */
  lemma ResetReadAsSuccess(id: int, slots: ApiClient.Slots)
    ensures var s := IntToString(id);
      ApiClient.ResetPractice(slots, ApiClient.Answered(ResetPractice(s).1.envelope)).1 == ApiClient.Returned(true)
  {
    ParseIntOfIntToString(id);
  }
}

=== FILE: app.dfy ===
/**
 * The mini app's root: the initial load that picks the first screen, the
 * loading gate, the navigation handlers, and the screen switch. Screen changes
 * come only from the controls each screen offers.
 */
module App {
  import opened Options
  import opened Types
  import ApiClient
  import DashboardScreen

  datatype AppState = AppState(screen: Screen, appMode: Option<AppMode>, userData: Option<UserData>, loading: bool)

  /** Before the first load: the welcome screen, no data, loading. */
  const Initial := AppState(Welcome, None, None, true)

  /** The requests of `loadInitialData`, in order: the mode first, then the user when one is known. */
  function InitialRequests(userId: Option<int>): (rs: seq<ApiClient.Request>)
    ensures |rs| >= 1 && rs[0] == ApiClient.AppModeRequest()
    ensures |rs| == 2 <==> userId.Some?
    ensures userId.Some? ==> rs[1] == ApiClient.UserDataRequest(userId.value)
  {
    [ApiClient.AppModeRequest()] + if userId.Some? then [ApiClient.UserDataRequest(userId.value)] else []
  }

  /**
   * `loadInitialData` with the two `fetchApi` results (`null` on any failure,
   * and `fetchApi` never throws). The mode is stored as received, the user
   * record when a user is known; the screen moves to the dashboard only for a
   * registered user, and loading always ends.
   */
  function LoadInitialData(s: AppState, userId: Option<int>, mode: Option<AppMode>, user: Option<UserData>): (r: AppState)
    ensures !r.loading && r.appMode == mode
    ensures r.userData == if userId.Some? then user else s.userData
    ensures r.screen == Dashboard <==> s.screen == Dashboard || (userId.Some? && user.Some? && user.value.isRegistered)
    ensures r.screen != Dashboard ==> r.screen == s.screen
  {
    var registered := userId.Some? && user.Some? && user.value.isRegistered;
    AppState(if registered then Dashboard else s.screen, mode, if userId.Some? then user else s.userData, false)
  }

  /** From the start, the first screen is the dashboard for a registered user and the welcome screen otherwise. */
  lemma FirstScreen(userId: Option<int>, mode: Option<AppMode>, user: Option<UserData>)
    ensures var r := LoadInitialData(Initial, userId, mode, user);
      (r.screen == Dashboard <==> userId.Some? && user.Some? && user.value.isRegistered) &&
      (r.screen != Dashboard ==> r.screen == Welcome)
  {
  }

  /** `handleRegistrationComplete`: the dashboard, and a refresh of the user record when a user is known. */
  function HandleRegistrationComplete(s: AppState, userId: Option<int>): (r: (AppState, Option<ApiClient.Request>))
    ensures r.0 == s.(screen := Dashboard)
    ensures r.1.Some? <==> userId.Some?
    ensures r.1.Some? ==> r.1.value == ApiClient.UserDataRequest(userId.value)
  {
    (s.(screen := Dashboard), if userId.Some? then Some(ApiClient.UserDataRequest(userId.value)) else None)
  }

  datatype Target = ToSales | ToTools

  function TargetScreen(t: Target): Screen {
    match t
    case ToSales => Sales
    case ToTools => Tools
  }

  /** `handleNavigate`: the requested screen, with no check of the mode. */
  function HandleNavigate(s: AppState, t: Target): (r: AppState)
    ensures r.screen == TargetScreen(t) && r.appMode == s.appMode && r.userData == s.userData && r.loading == s.loading
  {
    s.(screen := TargetScreen(t))
  }

  /** `handleBack`: the dashboard, whatever screen asked. */
  function HandleBack(s: AppState): (r: AppState)
    ensures r.screen == Dashboard && r.appMode == s.appMode && r.userData == s.userData && r.loading == s.loading
  {
    s.(screen := Dashboard)
  }

  /** The screen switch, behind the loading gate. */
  datatype View = LoadingView | WelcomeView | DashboardView(appMode: Option<AppMode>) | SalesView(appMode: Option<AppMode>) | ToolsView

  function Render(s: AppState, isReady: bool): (v: View)
    ensures v == LoadingView <==> s.loading || !isReady
    ensures v.DashboardView? ==> v.appMode == s.appMode && s.screen == Dashboard
    ensures v.SalesView? ==> v.appMode == s.appMode && s.screen == Sales
    ensures v == WelcomeView ==> s.screen == Welcome
    ensures v == ToolsView ==> s.screen == Tools
  {
    if s.loading || !isReady then LoadingView
    else
      match s.screen
      case Welcome => WelcomeView
      case Dashboard => DashboardView(s.appMode)
      case Sales => SalesView(s.appMode)
      case Tools => ToolsView
  }

  /** Once the initial load finishes a screen is drawn, even when both fetches failed. */
  lemma LoadedStateRenders(s: AppState, userId: Option<int>)
    ensures Render(LoadInitialData(s, userId, None, None), true) != LoadingView
  {
  }

  // ---------------------------------------------------------------------------
  // Navigation through the screens' controls
  // ---------------------------------------------------------------------------

  /** The controls that change screens: the dashboard's Sales and Tools buttons, and Back on those two. */
  datatype UiEvent = PressSales | PressTools | PressBack

  /**
   * Which controls are on screen: none while the loading view is drawn, none
   * on the welcome screen, and otherwise the screen's own buttons.
   */
  predicate Offered(s: AppState, e: UiEvent) {
    !s.loading &&
    match s.screen
    case Welcome => false
    case Dashboard => e == PressTools || (e == PressSales && DashboardScreen.ShowSales(s.appMode))
    case Sales => e == PressBack
    case Tools => e == PressBack
  }

  /** A press of an offered control runs its handler; anything else changes nothing. */
  function Step(s: AppState, e: UiEvent): (r: AppState)
    ensures r.appMode == s.appMode && r.userData == s.userData && r.loading == s.loading
    ensures !Offered(s, e) ==> r == s
  {
    if !Offered(s, e) then s
    else
      match e
      case PressSales => HandleNavigate(s, ToSales)
      case PressTools => HandleNavigate(s, ToTools)
      case PressBack => HandleBack(s)
  }

  function Run(s: AppState, events: seq<UiEvent>): AppState
    decreases |events|
  {
    if |events| == 0 then s else Run(Step(s, events[0]), events[1..])
  }

  /** The welcome screen has no way out: only a reload with a registered user leaves it. */
  lemma {:induction false} WelcomeIsTerminal(s: AppState, events: seq<UiEvent>)
    requires s.screen == Welcome
    ensures Run(s, events) == s
    decreases |events|
  {
    if |events| > 0 {
      WelcomeIsTerminal(Step(s, events[0]), events[1..]);
    }
  }

  /** Pressing controls never touches the loaded data. */
  lemma {:induction false} RunKeepsData(s: AppState, events: seq<UiEvent>)
    ensures var r := Run(s, events);
      r.appMode == s.appMode && r.userData == s.userData && r.loading == s.loading
    decreases |events|
  {
    if |events| > 0 {
      RunKeepsData(Step(s, events[0]), events[1..]);
    }
  }

  /** The sales screen is reached from elsewhere only while the stored mode is the sale window. */
  lemma {:induction false} SalesOnlyAfterWebinar(s: AppState, events: seq<UiEvent>)
    requires s.screen != Sales
    requires Run(s, events).screen == Sales
    ensures DashboardScreen.ShowSales(s.appMode)
    decreases |events|
  {
    var t := Step(s, events[0]);
    if t.screen != Sales {
      SalesOnlyAfterWebinar(t, events[1..]);
    }
  }

  /** Navigation never leaves the four screens' cycle through the dashboard: Back always lands there. */
  lemma BackReturnsToDashboard(s: AppState)
    requires s.screen == Sales || s.screen == Tools
    ensures !s.loading ==> Step(s, PressBack).screen == Dashboard
    ensures s.loading ==> Step(s, PressBack) == s
  {
  }
}

=== FILE: bot.dfy ===
/**
 * The bot's handlers, reduced to their decisions: who is an administrator,
 * which referrer a `/start` parameter names, which friends a recommendation
 * saves, when a registration is recorded and confirmed, and what the test and
 * broadcast commands accept and count.
 */
module Bot {
  import opened Options
  import opened Text
  import opened Database
  import Json
  import Delivery
  import ApiServer
  import Scheduler
  import WelcomeScreen
  import WeeklyTimer
  import Landing

  // ---------------------------------------------------------------------------
  // Administrators
  // ---------------------------------------------------------------------------

  /** Whether `name` equals the lower-cased form of some configured administrator name. */
  predicate Listed(name: string, admins: seq<string>)
    decreases |admins|
  {
    |admins| > 0 && (Lower(admins[0]) == name || Listed(name, admins[1..]))
  }

  lemma {:induction false} ListedExactly(name: string, admins: seq<string>)
    ensures Listed(name, admins) <==> exists i :: 0 <= i < |admins| && Lower(admins[i]) == name
    decreases |admins|
  {
    if |admins| > 0 {
      ListedExactly(name, admins[1..]);
      if Listed(name, admins[1..]) {
        var i :| 0 <= i < |admins[1..]| && Lower(admins[1..][i]) == name;
        assert admins[i + 1] == admins[1..][i];
      }
      if exists i :: 0 <= i < |admins| && Lower(admins[i]) == name {
        var i :| 0 <= i < |admins| && Lower(admins[i]) == name;
        if i > 0 {
          assert admins[1..][i - 1] == admins[i];
        }
      }
    }
  }

  /** `is_admin`: a non-empty username that matches a configured name, ignoring ASCII case. */
  function IsAdmin(username: Option<string>, admins: seq<string>): (b: bool)
    ensures b <==> username.Some? && username.value != [] &&
                   exists i :: 0 <= i < |admins| && Lower(admins[i]) == Lower(username.value)
  {
    ListedExactly(if username.Some? then Lower(username.value) else [], admins);
    username.Some? && username.value != [] && Listed(Lower(username.value), admins)
  }

  lemma LowerChar2(c: char)
    ensures LowerChar(LowerChar(c)) == LowerChar(c)
  {
  }

  /** Case does not matter: two spellings that lower-case alike are both administrators or neither. */
  lemma AdminIgnoresCase(u: string, v: string, admins: seq<string>)
    requires Lower(u) == Lower(v)
    ensures IsAdmin(Some(u), admins) == IsAdmin(Some(v), admins)
  {
  }

  /** Every configured name, in any case, is an administrator; an absent username never is. */
  lemma ConfiguredNamesAreAdmins(admins: seq<string>, i: nat)
    requires i < |admins| && admins[i] != []
    ensures IsAdmin(Some(admins[i]), admins)
    ensures IsAdmin(Some(Lower(admins[i])), admins)
    ensures !IsAdmin(None, admins)
  {
    var l := Lower(admins[i]);
    forall k | 0 <= k < |l|
      ensures Lower(l)[k] == l[k]
    {
      LowerChar2(admins[i][k]);
    }
    assert Lower(l) == l;
  }

  // ---------------------------------------------------------------------------
  // /start
  // ---------------------------------------------------------------------------

  const RefTag := "ref_"
  const StartLinkPrefix := "https://t.me/GvozdiProstoBot?start="

  /**
   * The referrer a `/start` message names: its second word must start with
   * `ref_`, what remains once every `ref_` is removed must be a number, and
   * that number must not be the sender's own id.
   */
  function StartReferral(text: string, senderId: int): (refBy: Option<int>)
    ensures refBy.Some? ==> refBy.value != senderId
    ensures refBy.Some? <==>
      |Words(text)| > 1 && StartsWith(Words(text)[1], RefTag) &&
      ParseInt(ReplaceAll(Words(text)[1], RefTag, "")).Some? &&
      ParseInt(ReplaceAll(Words(text)[1], RefTag, "")).value != senderId
    ensures refBy.Some? ==> ParseInt(ReplaceAll(Words(text)[1], RefTag, "")) == refBy
  {
    var args := Words(text);
    if |args| > 1 && StartsWith(args[1], RefTag) then
      match ParseInt(ReplaceAll(args[1], RefTag, ""))
      case Some(id) => if id == senderId then None else Some(id)
      case None => None
    else None
  }

  /** `cmd_start`: the user is stored whatever the parameter says; the referrer is read but not stored. */
  function CmdStart(db: Users, id: int, username: Option<string>, fullName: Option<string>, text: string,
                    now: int, fails: bool): (r: (Users, Option<int>))
    ensures r.0 == AddUser(db, id, username, fullName, now, fails)
    ensures r.1.Some? ==> r.1.value != id
  {
    (AddUser(db, id, username, fullName, now, fails), StartReferral(text, id))
  }

  lemma NoSpaceOfDigits(s: string)
    requires AllDigits(s)
    ensures NoSpace(s)
  {
  }

  /** The words of a `/start` message with one parameter. */
  lemma StartWords(param: string)
    requires param != [] && NoSpace(param)
    ensures |Words("/start " + param)| == 2 && Words("/start " + param)[1] == param
  {
    assert "/start " + param == "/start" + " " + param;
    WordsOfTwo("/start", param);
  }

  /** Removing the tag from a tagged number leaves the number. */
  lemma StripTag(digits: string)
    requires AllDigits(digits)
    ensures ReplaceAll(RefTag + digits, RefTag, "") == digits
  {
    var param := RefTag + digits;
    assert param[..|RefTag|] == RefTag && param[|RefTag|..] == digits;
    ReplaceAllNoOccurrence(digits, RefTag, "");
  }

  /** The referrer named by a `/start` parameter that starts with the tag and strips to a number. */
  lemma StartTagged(param: string, digits: string, senderId: int)
    requires param != [] && NoSpace(param) && StartsWith(param, RefTag)
    requires digits != [] && AllDigits(digits) && ReplaceAll(param, RefTag, "") == digits
    ensures StartReferral("/start " + param, senderId) ==
      if DigitsValue(digits) == senderId then None else Some(DigitsValue(digits))
  {
    StartWords(param);
    assert ParseInt(digits) == Some(DigitsValue(digits));
  }

  /** The referrer named by `/start ref_<digits>`. */
  lemma StartTaggedNumber(digits: string, senderId: int)
    requires digits != [] && AllDigits(digits)
    ensures StartReferral("/start " + (RefTag + digits), senderId) ==
      if DigitsValue(digits) == senderId then None else Some(DigitsValue(digits))
  {
    var param := RefTag + digits;
    NoSpaceOfDigits(digits);
    assert NoSpace(param);
    StripTag(digits);
    assert param[..|RefTag|] == RefTag;
    StartTagged(param, digits, senderId);
  }

  /** The start parameter a referral link carries: the tag and the user's id. */
  lemma LinkParameter(id: nat)
    ensures ApiServer.GetReferralLink(IntToString(id)).envelope.data.Some?
    ensures var link := ApiServer.GetReferralLink(IntToString(id)).envelope.data.value.referralLink;
      StartsWith(link, StartLinkPrefix) && link[|StartLinkPrefix|..] == RefTag + IntToString(id)
  {
    ParseIntOfIntToString(id);
    var link := ApiServer.GetReferralLink(IntToString(id)).envelope.data.value.referralLink;
    assert link == ApiServer.ReferralPrefix + IntToString(id);
    assert ApiServer.ReferralPrefix == StartLinkPrefix + RefTag;
  }

  /**
   * Opening another user's referral link sends `/start` with the link's start
   * parameter, and the bot reads back exactly the id the API put in the link;
   * one's own link names nobody.
   */
  lemma ReferralLinkRoundTrip(id: nat, senderId: int)
    ensures ApiServer.GetReferralLink(IntToString(id)).envelope.data.Some?
    ensures var link := ApiServer.GetReferralLink(IntToString(id)).envelope.data.value.referralLink;
      StartReferral("/start " + link[|StartLinkPrefix|..], senderId) == if id == senderId then None else Some(id)
  {
    LinkParameter(id);
    var digits := IntToString(id);
    ParseIntOfIntToString(id);
    assert DigitsValue(digits) == id;
    StartTaggedNumber(digits, senderId);
  }

  lemma StripTwoTags(d1: string, d2: string)
    requires AllDigits(d1) && AllDigits(d2)
    ensures ReplaceAll(RefTag + d1 + RefTag + d2, RefTag, "") == d1 + d2
  {
    var param := RefTag + d1 + RefTag + d2;
    assert param[..|RefTag|] == RefTag && param[|RefTag|..] == d1 + (RefTag + d2);
    ReplaceAllPastPrefix(d1, RefTag + d2, RefTag, "");
    StripTag(d2);
  }

  /**
   * Every `ref_` is removed, not only the leading one: a parameter with two
   * tagged numbers names the user whose id is the two numbers run together.
   */
  lemma EveryTagRemoved(d1: string, d2: string, senderId: int)
    requires d1 != [] && AllDigits(d1) && d2 != [] && AllDigits(d2)
    ensures AllDigits(d1 + d2)
    ensures StartReferral("/start " + (RefTag + d1 + RefTag + d2), senderId) ==
      if DigitsValue(d1 + d2) == senderId then None else Some(DigitsValue(d1 + d2))
  {
    var param := RefTag + d1 + RefTag + d2;
    NoSpaceOfDigits(d1);
    NoSpaceOfDigits(d2);
    assert NoSpace(param);
    assert param[..|RefTag|] == RefTag;
    StripTwoTags(d1, d2);
    StartTagged(param, d1 + d2, senderId);
  }

  // ---------------------------------------------------------------------------
  // Recommendations
  // ---------------------------------------------------------------------------

  /** The words of a list that start with `@`, in order. */
  function AtWords(ws: seq<string>): (ms: seq<string>)
    ensures forall k :: 0 <= k < |ms| ==> StartsWith(ms[k], "@") && ms[k] in ws
    ensures forall k :: 0 <= k < |ws| && StartsWith(ws[k], "@") ==> ws[k] in ms
    ensures |ms| <= |ws|
    decreases |ws|
  {
    if |ws| == 0 then []
    else if StartsWith(ws[0], "@") then [ws[0]] + AtWords(ws[1..])
    else AtWords(ws[1..])
  }

  /** The usernames a message mentions: its whitespace-separated words that start with `@`. */
  function Mentions(text: string): seq<string> {
    AtWords(Words(text))
  }

  /** The filter keeps order across a join: the mentions of the first list, then those of the second. */
  lemma {:induction false} AtWordsAppend(a: seq<string>, b: seq<string>)
    ensures AtWords(a + b) == AtWords(a) + AtWords(b)
    decreases |a|
  {
    if |a| > 0 {
      assert (a + b)[0] == a[0] && (a + b)[1..] == a[1..] + b;
      AtWordsAppend(a[1..], b);
    } else {
      assert a + b == b;
    }
  }

  /** One more word adds itself at the end exactly when it starts with `@`. */
  lemma AtWordsSnoc(ws: seq<string>, w: string)
    ensures AtWords(ws + [w]) == AtWords(ws) + (if StartsWith(w, "@") then [w] else [])
  {
    AtWordsAppend(ws, [w]);
    assert [w][1..] == [];
  }

  /** The mentions of a message are those before a blank followed by those after it, in message order. */
  lemma MentionsSplit(x: string, c: char, y: string)
    requires IsSpace(c)
    ensures Mentions(x + [c] + y) == Mentions(x) + Mentions(y)
  {
    WordsSplit(x, c, y);
    AtWordsAppend(Words(x), Words(y));
  }

  datatype RecommendReply = AlreadyRecommended(friends: seq<string>) | TooFewMentions | Recommended(friends: seq<string>)

  /** The save call made, if any, and the reply shown. */
  datatype Recommendation = Recommendation(saved: Option<seq<string>>, reply: RecommendReply)

  /**
   * `handle_recommendation`, with `existing` the stored recommendations,
   * `saveOk` the answer of the save call and `existingAfter` the list re-read
   * when it refuses.
   */
  function HandleRecommendation(text: string, existing: seq<string>, saveOk: bool, existingAfter: seq<string>): (r: Recommendation)
    ensures |existing| > 0 ==> r == Recommendation(None, AlreadyRecommended(existing))
    ensures |existing| == 0 && |Mentions(text)| < 2 ==> r == Recommendation(None, TooFewMentions)
    ensures |existing| == 0 && |Mentions(text)| >= 2 ==> r.saved == Some(Mentions(text)[..2])
    ensures r.saved.Some? ==> |r.saved.value| == 2 && forall k :: 0 <= k < 2 ==>
      StartsWith(r.saved.value[k], "@") && r.saved.value[k] in Words(text)
    ensures r.reply.Recommended? <==> r.saved.Some? && saveOk
    ensures r.reply.Recommended? ==> r.reply.friends == r.saved.value
    ensures r.saved.Some? && !saveOk ==> r.reply == AlreadyRecommended(existingAfter)
  {
    if |existing| > 0 then Recommendation(None, AlreadyRecommended(existing))
    else
      var usernames := Mentions(text);
      if |usernames| < 2 then Recommendation(None, TooFewMentions)
      else
        var friends := usernames[..2];
        Recommendation(Some(friends), if saveOk then Recommended(friends) else AlreadyRecommended(existingAfter))
  }

  lemma AtWordsFirstTwo(ws: seq<string>)
    requires |ws| >= 2 && StartsWith(ws[0], "@") && StartsWith(ws[1], "@")
    ensures |AtWords(ws)| >= 2 && AtWords(ws)[0] == ws[0] && AtWords(ws)[1] == ws[1]
  {
    var tail := ws[1..];
    assert tail[0] == ws[1];
    assert AtWords(tail) == [tail[0]] + AtWords(tail[1..]);
  }

  lemma MentionsFirstTwo(a: string, b: string, rest: string)
    requires StartsWith(a, "@") && NoSpace(a)
    requires StartsWith(b, "@") && NoSpace(b)
    ensures var ms := Mentions(a + " " + (b + " " + rest));
      |ms| >= 2 && ms[0] == a && ms[1] == b
  {
    assert a != [] && b != [];
    WordsLeadingTwo(a, b, rest);
    AtWordsFirstTwo(Words(a + " " + (b + " " + rest)));
  }

  /** With two mentions up front the first two are saved, whatever follows. */
  lemma FirstTwoMentionsSaved(a: string, b: string, rest: string, saveOk: bool, after: seq<string>)
    requires StartsWith(a, "@") && NoSpace(a)
    requires StartsWith(b, "@") && NoSpace(b)
    ensures var r := HandleRecommendation(a + " " + (b + " " + rest), [], saveOk, after);
      r.saved.Some? && r.saved.value[0] == a && r.saved.value[1] == b
  {
    MentionsFirstTwo(a, b, rest);
  }

  /** Words without `@` do not count, so a single mention is refused. */
  lemma LoneMentionRefused(a: string, w: string, saveOk: bool, after: seq<string>)
    requires StartsWith(a, "@") && NoSpace(a)
    requires w != [] && NoSpace(w) && w[0] != '@'
    ensures HandleRecommendation(a + " " + w, [], saveOk, after) == Recommendation(None, TooFewMentions)
  {
    WordsOfTwo(a, w);
    var ws := Words(a + " " + w);
    assert ws[1..][0] == w && |ws[1..][1..]| == 0;
    assert AtWords(ws[1..][1..]) == [];
    assert AtWords(ws[1..]) == [];
    assert |AtWords(ws)| == 1;
  }

  // ---------------------------------------------------------------------------
  // Registration
  // ---------------------------------------------------------------------------

  datatype RegistrationReply = AlreadyRegistered | NowRegistered

  /** The table afterwards, the alert shown, and whether the delayed confirmation is scheduled. */
  datatype Registration = Registration(db: Users, reply: RegistrationReply, confirmation: bool)

  predicate HasRegistered(db: Users, id: int) {
    id in db && db[id].hasRegisteredWebinar
  }

  /** `handle_registration`: a user already flagged is told so and nothing else happens; anyone else is flagged and confirmed. */
  function HandleRegistration(db: Users, id: int): (r: Registration)
    ensures HasRegistered(db, id) ==> r == Registration(db, AlreadyRegistered, false)
    ensures !HasRegistered(db, id) ==> r.reply == NowRegistered && r.confirmation
    ensures !HasRegistered(db, id) ==> r.db == SetWebinarRegistration(db, id)
    ensures r.db.Keys == db.Keys
  {
    if HasRegistered(db, id) then Registration(db, AlreadyRegistered, false)
    else Registration(SetWebinarRegistration(db, id), NowRegistered, true)
  }

  /** Pressing the button twice: the second press changes nothing and schedules no second confirmation. */
  lemma RegistrationIdempotent(db: Users, id: int)
    requires id in db
    ensures var once := HandleRegistration(db, id);
      HandleRegistration(once.db, id) == Registration(once.db, AlreadyRegistered, false)
  {
  }

  /** A user with no row cannot be flagged, so every press confirms again. */
  lemma UnknownUserConfirmedEachTime(db: Users, id: int)
    requires id !in db
    ensures var once := HandleRegistration(db, id);
      once.db == db && HandleRegistration(once.db, id) == once
  {
  }

  /** What `handle_web_app_data` does: `None` stands for text `json.loads` rejects. */
  datatype WebAppResult = WebAppResult(db: Users, confirmed: bool)

  predicate IsRegistrationRequest(data: Option<Json.Value>) {
    data.Some? && Json.Get(data.value, "action") == Some(Json.Str("register_webinar"))
  }

  /** `handle_web_app_data`: only an object whose `action` is `register_webinar` registers, with no already-registered check. */
  function HandleWebAppData(db: Users, id: int, data: Option<Json.Value>): (r: WebAppResult)
    ensures r.confirmed <==> IsRegistrationRequest(data)
    ensures r.confirmed ==> r.db == SetWebinarRegistration(db, id)
    ensures !r.confirmed ==> r.db == db
  {
    match data
    case None => WebAppResult(db, false)
    case Some(v) =>
      if Json.Get(v, "action") == Some(Json.Str("register_webinar")) then WebAppResult(SetWebinarRegistration(db, id), true)
      else WebAppResult(db, false)
  }

  /** The mini app's registration form and the landing page's confirmation both register; the purchase payload does not. */
  lemma WebAppPayloads(db: Users, id: int, f: WelcomeScreen.Fields, goal: WelcomeScreen.Goal, nowMs: int)
    ensures HandleWebAppData(db, id, Some(WelcomeScreen.RegisterPayload(f, goal))).confirmed
    ensures HandleWebAppData(db, id, Some(WeeklyTimer.ConfirmPayload)).confirmed
    ensures !HandleWebAppData(db, id, Some(Landing.BuyPayload(nowMs))).confirmed
  {
    WelcomeScreen.RegisterPayloadFields(f, goal);
    Json.FindLastBinding(WeeklyTimer.ConfirmPayload.fields, 0, "action");
    Json.FindLastBinding(Landing.BuyPayload(nowMs).fields, 0, "action");
  }

  /** Unlike the button, the mini app path confirms again for a user who is already registered. */
  lemma WebAppConfirmsAgain(db: Users, id: int, data: Option<Json.Value>)
    requires HasRegistered(db, id) && IsRegistrationRequest(data)
    ensures HandleWebAppData(db, id, data) == WebAppResult(db, true)
    ensures HandleRegistration(db, id).confirmation == false
  {
    assert SetWebinarRegistration(db, id) == db;
  }

  // ---------------------------------------------------------------------------
  // Administrator commands
  // ---------------------------------------------------------------------------

  /** The button `send_warmup_video` attaches: a link button, only when both a label and a link are set. */
  function TestWarmupKeyboard(cfg: Scheduler.WarmupConfig): (k: Option<Scheduler.Keyboard>)
    ensures k.Some? <==> Scheduler.Given(cfg.buttonText) && Scheduler.Given(cfg.buttonUrl)
    ensures k.Some? ==> k.value == Scheduler.UrlButton(cfg.buttonText.value, cfg.buttonUrl.value)
  {
    if Scheduler.Given(cfg.buttonText) && Scheduler.Given(cfg.buttonUrl) then
      Some(Scheduler.UrlButton(cfg.buttonText.value, cfg.buttonUrl.value))
    else None
  }

  /** `send_warmup_video`: a video when a file id is set, text otherwise, with the link button. */
  function TestWarmupMessage(cfg: Scheduler.WarmupConfig): (m: Scheduler.Message)
    ensures m.caption == cfg.caption && m.keyboard == TestWarmupKeyboard(cfg)
    ensures m.Video? <==> Scheduler.Given(cfg.fileId)
  {
    if Scheduler.Given(cfg.fileId) then Scheduler.Video(cfg.fileId.value, cfg.caption, TestWarmupKeyboard(cfg))
    else Scheduler.Text(cfg.caption, TestWarmupKeyboard(cfg))
  }

  /** The test command ignores `callback_data`: a callback-only warm-up shows a button when scheduled and none through `/test_warmup`. */
  lemma TestDropsCallbackButton(cfg: Scheduler.WarmupConfig)
    requires Scheduler.Given(cfg.buttonText) && Scheduler.Given(cfg.callbackData) && !Scheduler.Given(cfg.buttonUrl)
    ensures Scheduler.WarmupMessage(cfg).keyboard == Some(Scheduler.CallbackButton(cfg.buttonText.value, cfg.callbackData.value))
    ensures TestWarmupMessage(cfg).keyboard == None
  {
  }

  datatype TestWarmupReply = Silent | TestUsage | OutOfRange | NotConfigured(video: int) | SentVideo(video: int, message: Scheduler.Message)

  /** The video number `/test_warmup` reads: the rest of the command as an integer, surrounding blanks allowed. */
  function VideoNumber(text: string): Option<int> {
    var parts := SplitFirst(text);
    if |parts| < 2 then None else ParseInt(DropSpacesEnd(parts[1]))
  }

  /**
   * `cmd_test_warmup`: silent for non-administrators, usage without an
   * argument, a refusal unless it reads as an integer from 1 to 5, then the
   * configured video or a "not configured" note.
   */
  function CmdTestWarmup(admin: bool, text: string, configs: int -> Option<Scheduler.WarmupConfig>): (r: TestWarmupReply)
    ensures !admin <==> r == Silent
    ensures admin && |SplitFirst(text)| < 2 <==> r == TestUsage
    ensures r.SentVideo? || r.NotConfigured? <==>
      admin && VideoNumber(text).Some? && 1 <= VideoNumber(text).value <= 5
    ensures r.SentVideo? ==> r.video == VideoNumber(text).value && configs(r.video).Some? &&
                             r.message == TestWarmupMessage(configs(r.video).value)
    ensures r.NotConfigured? ==> r.video == VideoNumber(text).value && configs(r.video).None?
  {
    if !admin then Silent
    else if |SplitFirst(text)| < 2 then TestUsage
    else
      match VideoNumber(text)
      case None => OutOfRange
      case Some(n) =>
        if n < 1 || n > 5 then OutOfRange
        else match configs(n)
          case None => NotConfigured(n)
          case Some(cfg) => SentVideo(n, TestWarmupMessage(cfg))
  }

  lemma SplitFirstCommand(cmd: string, arg: string)
    requires cmd != [] && NoSpace(cmd) && arg != [] && !IsSpace(arg[0])
    ensures |SplitFirst(cmd + " " + arg)| == 2
    ensures SplitFirst(cmd + " " + arg)[0] == cmd && SplitFirst(cmd + " " + arg)[1] == arg
  {
    var s := cmd + " " + arg;
    assert DropSpaces(s) == s;
    TakeWordOfWord(cmd, " " + arg);
    assert s == cmd + (" " + arg);
    assert s[|cmd|..] == " " + arg;
    assert (" " + arg)[1..] == arg;
    assert DropSpaces(" " + arg) == DropSpaces(arg) == arg;
  }

  lemma VideoNumberOf(n: nat)
    ensures |SplitFirst("/test_warmup " + IntToString(n))| == 2
    ensures VideoNumber("/test_warmup " + IntToString(n)) == Some(n)
  {
    var digits := IntToString(n);
    NoSpaceOfDigits(digits);
    assert "/test_warmup " + digits == "/test_warmup" + " " + digits;
    SplitFirstCommand("/test_warmup", digits);
    assert DropSpacesEnd(digits) == digits;
    ParseIntOfIntToString(n);
  }

  /** The command reads back the number it was given: 1 to 5 reach the configuration, anything else is refused. */
  lemma TestWarmupRange(n: nat, configs: int -> Option<Scheduler.WarmupConfig>)
    ensures var r := CmdTestWarmup(true, "/test_warmup " + IntToString(n), configs);
      (1 <= n <= 5 ==> r == if configs(n).Some? then SentVideo(n, TestWarmupMessage(configs(n).value)) else NotConfigured(n)) &&
      (n > 5 || n == 0 ==> r == OutOfRange)
  {
    VideoNumberOf(n);
  }

  datatype BroadcastReply = NoReply | BroadcastUsage | BroadcastConfirmed(count: nat)

  /**
   * `cmd_broadcast`: an administrator's text after the command goes to every
   * active user; the confirmation counts the successful sends and each
   * failing recipient is deactivated.
   */
  method CmdBroadcast(admin: bool, text: string, db: Users, recipients: seq<int>, failing: set<int>)
    returns (reply: BroadcastReply, sent: Option<string>, r: Users)
    requires forall u :: u in recipients <==> u in ActiveUsers(db)
    ensures !admin ==> reply == NoReply && sent.None? && r == db
    ensures admin && |SplitFirst(text)| < 2 ==> reply == BroadcastUsage && sent.None? && r == db
    ensures admin && |SplitFirst(text)| == 2 ==> sent == Some(SplitFirst(text)[1])
    ensures admin && |SplitFirst(text)| == 2 ==> reply == BroadcastConfirmed(Delivery.Delivered(recipients, failing))
    ensures admin && |SplitFirst(text)| == 2 ==> Delivery.MarkedFailures(db, recipients, failing, r)
    ensures admin && |SplitFirst(text)| == 2 ==> forall u :: u in failing ==> u !in ActiveUsers(r)
  {
    if !admin {
      return NoReply, None, db;
    }
    var parts := SplitFirst(text);
    if |parts| < 2 {
      return BroadcastUsage, None, db;
    }
    sent := Some(parts[1]);
    var count;
    count, r := Delivery.SendToAll(db, recipients, failing);
    Delivery.FailuresLeaveAudience(db, recipients, failing, r);
    reply := BroadcastConfirmed(count);
  }
}

=== FILE: countdown.dfy ===
/**
 * The countdown component of the mini app: the time-left breakdown, the
 * one-second interval that re-samples it and stops at expiry, and the choice of
 * which blocks are drawn. Instants are milliseconds.
 */
module Countdown {
  import opened Options
  import opened Text

  const MsPerSecond := 1000
  const MsPerMinute := 60_000
  const MsPerHour := 3_600_000
  const MsPerDay := 86_400_000

  datatype TimeLeft = TimeLeft(days: int, hours: int, minutes: int, seconds: int, total: int)

  const Zero := TimeLeft(0, 0, 0, 0, 0)

  /** The milliseconds a breakdown accounts for, sub-second remainder excluded. */
  function Composed(t: TimeLeft): int {
    t.days * MsPerDay + t.hours * MsPerHour + t.minutes * MsPerMinute + t.seconds * MsPerSecond
  }

  /** The clock-field ranges of a breakdown of a positive difference. */
  predicate InRange(t: TimeLeft) {
    t.days >= 0 && 0 <= t.hours < 24 && 0 <= t.minutes < 60 && 0 <= t.seconds < 60
  }

  /**
   * The floor/mod breakdown of a positive millisecond difference. Every
   * countdown of the app uses these formulas; the variants without seconds
   * simply do not show the last field.
   */
  function Breakdown(diff: int): (t: TimeLeft)
    requires diff > 0
    ensures InRange(t) && t.total == diff
    ensures Composed(t) <= diff < Composed(t) + MsPerSecond
  {
    BreakdownArithmetic(diff);
    TimeLeft(
      diff / MsPerDay,
      (diff % MsPerDay) / MsPerHour,
      (diff % MsPerHour) / MsPerMinute,
      (diff % MsPerMinute) / MsPerSecond,
      diff)
  }

  lemma HourRemainder(x: int, q: int, r: int)
    requires x == q * MsPerHour + r && 0 <= r < MsPerHour
    ensures x % MsPerHour == r
  {
  }

  lemma MinuteRemainder(x: int, q: int, r: int)
    requires x == q * MsPerMinute + r && 0 <= r < MsPerMinute
    ensures x % MsPerMinute == r
  {
  }

  /** The nested remainders agree with the direct ones, so the four fields recompose the difference. */
  lemma BreakdownArithmetic(diff: int)
    requires diff > 0
    ensures diff % MsPerHour == (diff % MsPerDay) % MsPerHour
    ensures diff % MsPerMinute == (diff % MsPerHour) % MsPerMinute
  {
    var d := diff / MsPerDay;
    var r := diff % MsPerDay;
    var h := r / MsPerHour;
    var r2 := r % MsPerHour;
    assert diff == (d * 24 + h) * MsPerHour + r2;
    HourRemainder(diff, d * 24 + h, r2);
    var m := r2 / MsPerMinute;
    var r3 := r2 % MsPerMinute;
    assert diff == ((d * 24 + h) * 60 + m) * MsPerMinute + r3;
    MinuteRemainder(diff, (d * 24 + h) * 60 + m, r3);
  }

  /** `calculateTimeLeft`: all zeros once the deadline is reached, the breakdown before it. */
  function CalculateTimeLeft(deadline: int, now: int): (t: TimeLeft)
    ensures deadline - now <= 0 <==> t == Zero
    ensures deadline - now > 0 ==> t.total == deadline - now && InRange(t)
    ensures deadline - now > 0 ==> Composed(t) <= t.total < Composed(t) + MsPerSecond
  {
    var diff := deadline - now;
    if diff <= 0 then Zero else Breakdown(diff)
  }

  /** The breakdown is the only in-range split of the difference, so it is fully determined by it. */
  lemma BreakdownUnique(diff: int, t: TimeLeft)
    requires diff > 0
    requires InRange(t) && t.total == diff
    requires Composed(t) <= diff < Composed(t) + MsPerSecond
    ensures t == Breakdown(diff)
  {
    var b := Breakdown(diff);
    var sub := t.hours * MsPerHour + t.minutes * MsPerMinute + t.seconds * MsPerSecond;
    assert 0 <= sub < MsPerDay;
    assert t.days == diff / MsPerDay;
    assert t.hours == b.hours;
    assert t.minutes == b.minutes;
  }

  /** A later sample never shows more time left. */
  lemma TotalNonIncreasing(deadline: int, now1: int, now2: int)
    requires now1 <= now2
    ensures CalculateTimeLeft(deadline, now2).total <= CalculateTimeLeft(deadline, now1).total
  {
  }

  /** 90061000 ms is one day, one hour, one minute and one second. */
  lemma WorkedExample(now: int)
    ensures CalculateTimeLeft(now + 90_061_000, now) == TimeLeft(1, 1, 1, 1, 90_061_000)
  {
  }

  // ---------------------------------------------------------------------------
  // The interval
  // ---------------------------------------------------------------------------

  /** The component's interval: whether it is still scheduled, and the breakdown on display. */
  datatype Interval = Interval(active: bool, shown: TimeLeft)

  datatype Tick = Tick(interval: Interval, expireCalled: bool)

  /**
   * One run of the interval callback: store the new breakdown, and once it is
   * zero clear the interval and call `onExpire`. A cleared interval runs no more.
   */
  function OnTick(iv: Interval, deadline: int, now: int): (r: Tick)
    ensures !iv.active ==> r == Tick(iv, false)
    ensures iv.active ==> r.interval.shown == CalculateTimeLeft(deadline, now)
    ensures iv.active ==> (r.expireCalled <==> deadline - now <= 0)
    ensures iv.active ==> (r.interval.active <==> deadline - now > 0)
  {
    if !iv.active then Tick(iv, false)
    else
      var t := CalculateTimeLeft(deadline, now);
      if t.total <= 0 then Tick(Interval(false, t), true) else Tick(Interval(true, t), false)
  }

  /** The state after the interval fires at each instant of `samples`, and how often `onExpire` ran. */
  function RunTicks(iv: Interval, deadline: int, samples: seq<int>): (Interval, nat)
    decreases |samples|
  {
    if |samples| == 0 then (iv, 0)
    else
      var r := OnTick(iv, deadline, samples[0]);
      var (last, calls) := RunTicks(r.interval, deadline, samples[1..]);
      (last, calls + if r.expireCalled then 1 else 0)
  }

  predicate SomeSampleExpired(deadline: int, samples: seq<int>) {
    exists i :: 0 <= i < |samples| && deadline - samples[i] <= 0
  }

  /**
   * Within one interval, `onExpire` runs once if some sample reaches the
   * deadline and never otherwise; a cleared interval never calls it.
   */
  lemma {:induction false} ExpireCalledAtMostOnce(iv: Interval, deadline: int, samples: seq<int>)
    ensures var (last, calls) := RunTicks(iv, deadline, samples);
      calls <= 1 &&
      (!iv.active ==> calls == 0 && last == iv) &&
      (iv.active ==> (calls == 1 <==> SomeSampleExpired(deadline, samples))) &&
      (iv.active ==> (last.active <==> !SomeSampleExpired(deadline, samples)))
    decreases |samples|
  {
    if |samples| > 0 {
      var r := OnTick(iv, deadline, samples[0]);
      ExpireCalledAtMostOnce(r.interval, deadline, samples[1..]);
      if iv.active {
        if deadline - samples[0] <= 0 {
          assert SomeSampleExpired(deadline, samples);
        } else {
          assert SomeSampleExpired(deadline, samples) <==> SomeSampleExpired(deadline, samples[1..]) by {
            if SomeSampleExpired(deadline, samples) {
              var i :| 0 <= i < |samples| && deadline - samples[i] <= 0;
              assert i > 0 && samples[1..][i - 1] == samples[i];
            }
            if SomeSampleExpired(deadline, samples[1..]) {
              var j :| 0 <= j < |samples[1..]| && deadline - samples[1..][j] <= 0;
              assert samples[j + 1] == samples[1..][j];
            }
          }
        }
      }
    }
  }

  // ---------------------------------------------------------------------------
  // What is drawn
  // ---------------------------------------------------------------------------

  datatype Size = Small | Medium | Large

  /** The "time is up" message, or the padded blocks, the days and seconds blocks being optional. */
  datatype View =
    | Expired
    | Blocks(days: Option<string>, hours: string, minutes: string, seconds: Option<string>)

  function Render(t: TimeLeft, size: Size): (v: View)
    ensures v.Expired? <==> t.total <= 0
    ensures v.Blocks? ==> (v.days.Some? <==> t.days > 0)
    ensures v.Blocks? ==> (v.seconds.Some? <==> size != Small)
    ensures v.Blocks? ==> v.hours == Pad2(t.hours) && v.minutes == Pad2(t.minutes)
    ensures v.Blocks? && v.days.Some? ==> v.days.value == Pad2(t.days)
    ensures v.Blocks? && v.seconds.Some? ==> v.seconds.value == Pad2(t.seconds)
  {
    if t.total <= 0 then Expired
    else
      Blocks(
        if t.days > 0 then Some(Pad2(t.days)) else None,
        Pad2(t.hours),
        Pad2(t.minutes),
        if size != Small then Some(Pad2(t.seconds)) else None)
  }

  /** Sampling at or past the deadline draws the "time is up" view and nothing else. */
  lemma ExpiredViewAtDeadline(deadline: int, now: int, size: Size)
    ensures Render(CalculateTimeLeft(deadline, now), size).Expired? <==> now >= deadline
  {
  }
}

=== FILE: dashboard_screen.dfy ===
/**
 * The participant dashboard: which blocks the current mode unlocks, the
 * arguments it hands the progress bar, the greeting, the data it loads, and
 * the invite and story actions that wait for the referral record.
 */
module DashboardScreen {
  import opened Options
  import opened Text
  import opened Types
  import ApiClient
  import ProgressBar

  /** The Sales control is offered only in the post-webinar sale window; Tools always is. */
  predicate ShowSales(appMode: Option<AppMode>) {
    appMode.Some? && appMode.value.mode == AfterWebinar
  }

  /** The pre-webinar countdown needs both the mode and a webinar date. */
  predicate ShowCountdown(appMode: Option<AppMode>) {
    appMode.Some? && appMode.value.mode == BeforeWebinar && appMode.value.webinarDate.Some?
  }

  /** At most one of the two mode-gated blocks is on the dashboard at a time. */
  lemma SalesAndCountdownExclusive(appMode: Option<AppMode>)
    ensures !(ShowSales(appMode) && ShowCountdown(appMode))
  {
  }

  /** The referral counts handed to the progress bar. */
  datatype BarArgs = BarArgs(current: int, target: int)

  /** `referrals || 0` and `target_referrals || 2`: a missing record or a zero reads as the default. */
  function ProgressArgs(user: Option<UserData>): (a: BarArgs)
    ensures a.target != 0
    ensures user.None? ==> a == BarArgs(0, 2)
    ensures user.Some? ==> a.current == user.value.referrals
    ensures user.Some? && user.value.targetReferrals != 0 ==> a.target == user.value.targetReferrals
    ensures user.Some? && user.value.targetReferrals == 0 ==> a.target == 2
  {
    match user
    case None => BarArgs(0, 2)
    case Some(u) => BarArgs(u.referrals, if u.targetReferrals != 0 then u.targetReferrals else 2)
  }

  /** Before the user record arrives the bar is empty and the goal not reached. */
  lemma EmptyBarWithoutUser()
    ensures var a := ProgressArgs(None);
      ProgressBar.Percentage(a.current, a.target) == 0.0 && !ProgressBar.LabelOf(a.current, a.target).GoalReached?
  {
  }

  datatype RaffleText = Participating | InviteTwoFriends

  /** The raffle status line and whether the three-step instructions are shown. */
  datatype RaffleBlock = RaffleBlock(text: RaffleText, instructions: bool)

  /** `userData?.in_raffle` selects both; a missing record counts as not in the raffle. */
  function Raffle(user: Option<UserData>): (b: RaffleBlock)
    ensures b.text == Participating <==> user.Some? && user.value.inRaffle
    ensures b.instructions <==> b.text == InviteTwoFriends
  {
    if user.Some? && user.value.inRaffle then RaffleBlock(Participating, false)
    else RaffleBlock(InviteTwoFriends, true)
  }

  const DefaultName := "Участник"

  /** `full_name.split(' ')[0] || 'Участник'`: the first space-separated word, or the fallback. */
  function Greeting(user: Option<UserData>): (g: string)
    ensures g != []
    ensures forall i :: 0 <= i < |g| ==> g[i] != ' '
    ensures g != DefaultName ==> user.Some? && user.value.fullName.Some? && g <= user.value.fullName.value
    ensures g != DefaultName ==> var n := user.value.fullName.value; |g| == |n| || n[|g|] == ' '
  {
    var first := if user.Some? && user.value.fullName.Some? then TakeUntil(user.value.fullName.value, ' ') else [];
    if first != [] then first else DefaultName
  }

  /** A full name that begins with a word keeps exactly that word. */
  lemma GreetingFirstWord(u: UserData, word: string, rest: string)
    requires word != [] && word != DefaultName && forall i :: 0 <= i < |word| ==> word[i] != ' '
    requires u.fullName == Some(word + " " + rest)
    ensures Greeting(Some(u)) == word
  {
    TakeUntilPast(word, ' ', rest);
    assert word + " " + rest == word + [' '] + rest;
  }

  /** The dashboard's own copies of the records. */
  datatype Loaded = Loaded(user: Option<UserData>, referral: Option<ReferralInfo>)

  /** `loadData`'s requests: both records for a known user, nothing otherwise. */
  function LoadRequests(userId: Option<int>): (rs: seq<ApiClient.Request>)
    ensures userId.None? ==> rs == []
    ensures userId.Some? ==> rs == [ApiClient.UserDataRequest(userId.value), ApiClient.ReferralRequest(userId.value)]
  {
    if userId.Some? then [ApiClient.UserDataRequest(userId.value), ApiClient.ReferralRequest(userId.value)] else []
  }

  /** `loadData`: both answers are stored together once both settled; without a user nothing changes. */
  function LoadData(s: Loaded, userId: Option<int>, user: Option<UserData>, referral: Option<ReferralInfo>): (r: Loaded)
    ensures userId.None? ==> r == s
    ensures userId.Some? ==> r.user == user && r.referral == referral
  {
    if userId.Some? then Loaded(user, referral) else s
  }

  /** What the share sheet receives: the text above the link, separated by a blank line. */
  datatype Share = Share(fullText: string)

  /** `handleInvite`: nothing until the referral record is loaded; then the share text and the link. */
  function HandleInvite(referral: Option<ReferralInfo>): (r: Option<Share>)
    ensures r.Some? <==> referral.Some?
    ensures r.Some? ==> r.value.fullText == referral.value.shareText + "\n\n" + referral.value.referralLink
  {
    if referral.Some? then Some(Share(referral.value.shareText + "\n\n" + referral.value.referralLink)) else None
  }

  const StoryIntro := "Иду на эфир по гвоздестоянию! 🧘\nЗаряжаться энергией и снимать стресс.\n\nКто со мной? 👇\n\n"

  /** The story's caption and the link widget it carries. */
  datatype Story = Story(text: string, widgetUrl: string, widgetName: string)

  /** The story button: nothing until the referral record is loaded; then the caption ends with the link. */
  function HandleStory(referral: Option<ReferralInfo>): (r: Option<Story>)
    ensures r.Some? <==> referral.Some?
    ensures r.Some? ==> r.value.widgetUrl == referral.value.referralLink
    ensures r.Some? ==> StartsWith(r.value.text, StoryIntro) && r.value.text[|StoryIntro|..] == referral.value.referralLink
  {
    if referral.Some? then
      var link := referral.value.referralLink;
      Some(Story(StoryIntro + link, link, "Записаться"))
    else None
  }
}

=== FILE: database.dfy ===
/**
 * The `users` table as a finite map from Telegram id to row, with the
 * statements the bot, the API and the scheduler run against it.
 */
module Database {
  import opened Options

  /** One row; `registeredAt` is the insertion instant. */
  datatype Row = Row(username: Option<string>, fullName: Option<string>, registeredAt: int, isActive: bool, hasRegisteredWebinar: bool)

  type Users = map<int, Row>

  /** A new row: active, not yet registered for the webinar. */
  function NewRow(username: Option<string>, fullName: Option<string>, now: int): (r: Row)
    ensures r.isActive && !r.hasRegisteredWebinar
  {
    Row(username, fullName, now, true, false)
  }

  /**
   * `add_user`: `INSERT OR IGNORE` a fresh row, then reactivate the id. A
   * statement that fails is logged and swallowed before the commit, so
   * nothing changes.
   */
  function AddUser(db: Users, id: int, username: Option<string>, fullName: Option<string>, now: int, fails: bool): (r: Users)
    ensures r.Keys == if fails then db.Keys else db.Keys + {id}
    ensures !fails ==> r[id].isActive
    ensures !fails && id !in db ==> r[id] == NewRow(username, fullName, now)
    ensures !fails && id in db ==> r[id] == db[id].(isActive := true)
    ensures forall k :: k in db && (fails || k != id) ==> r[k] == db[k]
  {
    if fails then db
    else
      var inserted := if id in db then db else db[id := NewRow(username, fullName, now)];
      inserted[id := inserted[id].(isActive := true)]
  }

  /** A repeated `/start` leaves the row as the first one made it, webinar flag included. */
  lemma AddUserIdempotent(db: Users, id: int, u: Option<string>, n: Option<string>, t1: int, t2: int)
    ensures var once := AddUser(db, id, u, n, t1, false);
      AddUser(once, id, u, n, t2, false) == once
  {
    var once := AddUser(db, id, u, n, t1, false);
    assert once[id].isActive;
    assert once[id := once[id].(isActive := true)] == once;
  }

  /** `set_webinar_registration`: sets the flag on that row only; an unknown id creates nothing. */
  function SetWebinarRegistration(db: Users, id: int): (r: Users)
    ensures r.Keys == db.Keys
    ensures id in db ==> r[id] == db[id].(hasRegisteredWebinar := true)
    ensures forall k :: k in db && k != id ==> r[k] == db[k]
  {
    if id in db then db[id := db[id].(hasRegisteredWebinar := true)] else db
  }

  /** `update_status`: only the active flag of that row changes. */
  function UpdateStatus(db: Users, id: int, isActive: bool): (r: Users)
    ensures r.Keys == db.Keys
    ensures id in db ==> r[id] == db[id].(isActive := isActive)
    ensures forall k :: k in db && k != id ==> r[k] == db[k]
  {
    if id in db then db[id := db[id].(isActive := isActive)] else db
  }

  /** `get_active_users`: the ids whose row is active. */
  function ActiveUsers(db: Users): (s: set<int>)
    ensures forall k :: k in s <==> k in db && db[k].isActive
  {
    set k | k in db && db[k].isActive
  }

  /** `get_registered_users`: the active ids registered for the webinar. */
  function RegisteredUsers(db: Users): (s: set<int>)
    ensures forall k :: k in s <==> k in db && db[k].isActive && db[k].hasRegisteredWebinar
    ensures s <= ActiveUsers(db)
  {
    set k | k in db && db[k].isActive && db[k].hasRegisteredWebinar
  }

  /** Deactivating a user drops them from both audiences and leaves everyone else's membership alone. */
  lemma DeactivateRemovesFromAudiences(db: Users, id: int)
    ensures ActiveUsers(UpdateStatus(db, id, false)) == ActiveUsers(db) - {id}
    ensures RegisteredUsers(UpdateStatus(db, id, false)) == RegisteredUsers(db) - {id}
  {
  }

  /** Registering an active user adds exactly that user to the registered audience. */
  lemma RegistrationJoinsAudience(db: Users, id: int)
    requires id in db && db[id].isActive
    ensures RegisteredUsers(SetWebinarRegistration(db, id)) == RegisteredUsers(db) + {id}
    ensures ActiveUsers(SetWebinarRegistration(db, id)) == ActiveUsers(db)
  {
  }
}

=== FILE: delivery.dfy ===
/**
 * The send loop shared by reminders, warm-up videos and broadcasts: one
 * message per recipient, a failed send marks that recipient inactive, and the
 * count is the number of successful sends.
 */
module Delivery {
  import opened Database

  /** How many of `users` the transport accepts a message for. */
  function Delivered(users: seq<int>, failing: set<int>): (n: nat)
    ensures n <= |users|
    decreases |users|
  {
    if |users| == 0 then 0
    else Delivered(users[..|users| - 1], failing) + if users[|users| - 1] in failing then 0 else 1
  }

  /** The table after marking every failed recipient among `users` inactive. */
  predicate MarkedFailures(db: Users, users: seq<int>, failing: set<int>, r: Users) {
    r.Keys == db.Keys &&
    forall k :: k in db ==>
      r[k] == if k in users && k in failing then db[k].(isActive := false) else db[k]
  }

  /** `send_reminder` / `send_warmup_job` / `cmd_broadcast`'s loop; `failing` are the recipients whose send raises. */
  method SendToAll(db: Users, users: seq<int>, failing: set<int>) returns (count: nat, r: Users)
    ensures count == Delivered(users, failing)
    ensures MarkedFailures(db, users, failing, r)
  {
    count := 0;
    r := db;
    var i := 0;
    while i < |users|
      invariant 0 <= i <= |users|
      invariant count == Delivered(users[..i], failing)
      invariant MarkedFailures(db, users[..i], failing, r)
    {
      var u := users[i];
      if u in failing {
        r := UpdateStatus(r, u, false);
      } else {
        count := count + 1;
      }
      assert users[..i + 1][..i] == users[..i];
      i := i + 1;
    }
    assert users[..|users|] == users;
  }

  /** Every recipient that failed is out of the active audience afterwards; nobody else is. */
  lemma FailuresLeaveAudience(db: Users, users: seq<int>, failing: set<int>, r: Users)
    requires MarkedFailures(db, users, failing, r)
    ensures forall k :: k in users && k in failing ==> k !in ActiveUsers(r)
    ensures forall k :: k !in failing ==> (k in ActiveUsers(r) <==> k in ActiveUsers(db))
  {
  }

  /** With no failures every recipient is counted. */
  lemma {:induction false} AllDelivered(users: seq<int>)
    ensures Delivered(users, {}) == |users|
    decreases |users|
  {
    if |users| > 0 {
      AllDelivered(users[..|users| - 1]);
    }
  }
}

=== FILE: host.dfy ===
/**
 * The host bridge the mini app sees through `useTelegram`: identity, and the
 * link-opening capability, with the "no host" variant resolved once at start.
 */
module Host {
  import opened Options

  datatype TelegramUser = TelegramUser(id: int, firstName: string, lastName: Option<string>, username: Option<string>)

  /** Either the messaging client's bridge is present (possibly without a user), or it is absent. */
  datatype Env = Present(user: Option<TelegramUser>) | Absent

  /** The user the hook substitutes when no host is present. */
  const MockUser := TelegramUser(123456789, "Test", Some("User"), Some("testuser"))

  function User(env: Env): Option<TelegramUser> {
    match env
    case Present(u) => u
    case Absent => Some(MockUser)
  }

  /** `user?.id || null`: a zero id reads as absent. */
  function UserId(env: Env): (id: Option<int>)
    ensures id.Some? ==> id.value != 0
    ensures env.Absent? ==> id == Some(MockUser.id)
    ensures env.Present? ==> (id.Some? <==> env.user.Some? && env.user.value.id != 0)
    ensures id.Some? ==> User(env).Some? && id.value == User(env).value.id
  {
    match User(env)
    case Some(u) => if u.id != 0 then Some(u.id) else None
    case None => None
  }

  datatype Link = ExternalLink(url: string) | TelegramLink(url: string) | NewWindow(url: string)

  /** `openLink(url, external)`: through the host when present, a browser window otherwise. */
  function OpenLink(env: Env, url: string, external: bool): (l: Link)
    ensures l.url == url
    ensures l.NewWindow? <==> env.Absent?
    ensures l.ExternalLink? <==> env.Present? && external
  {
    if env.Absent? then NewWindow(url)
    else if external then ExternalLink(url)
    else TelegramLink(url)
  }
}

=== FILE: json.dfy ===
/**
 * The JSON values that cross the app's boundaries: request bodies sent by the
 * client, the bodies the server reads, and the payloads handed to the host's
 * `sendData`.
 */
module Json {
  import opened Options

  datatype Value =
    | Null
    | Bool(b: bool)
    | Num(n: int)
    | Str(s: string)
    | Arr(items: seq<Value>)
    | Obj(fields: seq<(string, Value)>)

  /** The value bound to `key` in a field list; like `json.loads`, a repeated key keeps its last binding. */
  function Find(fields: seq<(string, Value)>, key: string): (r: Option<Value>)
    ensures r.Some? <==> exists i :: 0 <= i < |fields| && fields[i].0 == key
    ensures r.Some? ==> exists i :: 0 <= i < |fields| && fields[i] == (key, r.value)
    decreases |fields|
  {
    if |fields| == 0 then None
    else if fields[|fields| - 1].0 == key then Some(fields[|fields| - 1].1)
    else Find(fields[..|fields| - 1], key)
  }

  /** Fields that do not bind `key` may follow its binding without hiding it. */
  lemma {:induction false} FindPastOtherKeys(pre: seq<(string, Value)>, rest: seq<(string, Value)>, key: string)
    requires forall i :: 0 <= i < |rest| ==> rest[i].0 != key
    ensures Find(pre + rest, key) == Find(pre, key)
    decreases |rest|
  {
    if |rest| > 0 {
      var init := rest[..|rest| - 1];
      assert (pre + rest)[..|pre + rest| - 1] == pre + init;
      FindPastOtherKeys(pre, init, key);
    } else {
      assert pre + rest == pre;
    }
  }

  /** A binding that no later field overrides is the one found. */
  lemma {:induction false} FindLastBinding(fields: seq<(string, Value)>, i: nat, key: string)
    requires i < |fields| && fields[i].0 == key
    requires forall j :: i < j < |fields| ==> fields[j].0 != key
    ensures Find(fields, key) == Some(fields[i].1)
    decreases |fields|
  {
    if i < |fields| - 1 {
      FindLastBinding(fields[..|fields| - 1], i, key);
    }
  }

  /** Python's `d.get(key)` on a decoded object. */
  function Get(v: Value, key: string): Option<Value> {
    if v.Obj? then Find(v.fields, key) else None
  }

  /** Python's truthiness: `None`, `False`, `0`, `""`, `[]` and `{}` are false. */
  predicate Truthy(v: Value) {
    match v
    case Null => false
    case Bool(b) => b
    case Num(n) => n != 0
    case Str(s) => s != ""
    case Arr(items) => items != []
    case Obj(fields) => fields != []
  }
}

=== FILE: landing.dfy ===
/**
 * The static landing page: a days/hours/minutes countdown to a fixed event
 * instant and a buy button that reports to the host. Instants are milliseconds.
 */
module Landing {
  import opened Text
  import opened Countdown
  import Json

  /** The three countdown fields, and whether the "live now" texts have replaced the labels. */
  datatype Display = Display(days: string, hours: string, minutes: string, liveLabels: bool)

  /**
   * `updateCountdown`: nothing changes unless all three field elements exist;
   * at or after the event the fields read "00" and the labels switch to the
   * live texts; before it the fields are the padded breakdown.
   */
  function UpdateCountdown(elementsPresent: bool, webinar: int, now: int, d: Display): (r: Display)
    ensures !elementsPresent ==> r == d
    ensures elementsPresent && webinar - now <= 0 ==> r == Display("00", "00", "00", true)
    ensures elementsPresent && webinar - now > 0 ==>
      r.liveLabels == d.liveLabels && |r.days| >= 2 && |r.hours| == 2 && |r.minutes| == 2
  {
    if !elementsPresent then d
    else
      var diff := webinar - now;
      if diff <= 0 then Display("00", "00", "00", true)
      else
        var t := Breakdown(diff);
        Display(Pad2(t.days), Pad2(t.hours), Pad2(t.minutes), d.liveLabels)
  }

  /**
   * Before the event, the page shows the same hours and minutes the mini
   * app's countdown draws, and the same days whenever the mini app shows them;
   * with less than a day left, where the mini app drops the days block, the page shows "00".
   */
  lemma SameFieldsAsMiniApp(webinar: int, now: int, d: Display)
    requires webinar - now > 0
    ensures var v := Render(CalculateTimeLeft(webinar, now), Medium);
      v.Blocks? &&
      UpdateCountdown(true, webinar, now, d).hours == v.hours &&
      UpdateCountdown(true, webinar, now, d).minutes == v.minutes &&
      (v.days.Some? ==> UpdateCountdown(true, webinar, now, d).days == v.days.value) &&
      (v.days.None? ==> UpdateCountdown(true, webinar, now, d).days == "00")
  {
    var t := Breakdown(webinar - now);
    assert CalculateTimeLeft(webinar, now) == t;
    assert UpdateCountdown(true, webinar, now, d) == Display(Pad2(t.days), Pad2(t.hours), Pad2(t.minutes), d.liveLabels);
    if t.days == 0 {
      assert Pad2(0) == "00";
    }
  }

  const BuyPrice := 4790

  datatype Effect = HostSendData(payload: Json.Value) | HostAlert(message: string) | BrowserAlert(message: string)

  /** The payload the buy button hands to the host. */
  function BuyPayload(nowMs: int): Json.Value {
    Json.Obj([("action", Json.Str("buy_course")), ("price", Json.Num(BuyPrice)), ("timestamp", Json.Num(nowMs))])
  }

  /** `handleBuyClick`: with a host, send the buy payload then alert through it; without one, only a browser alert. */
  function HandleBuyClick(hostPresent: bool, nowMs: int): (effects: seq<Effect>)
    ensures hostPresent ==> |effects| == 2 && effects[0] == HostSendData(BuyPayload(nowMs)) && effects[1].HostAlert?
    ensures !hostPresent ==> |effects| == 1 && effects[0].BrowserAlert?
  {
    if hostPresent then [HostSendData(BuyPayload(nowMs)), HostAlert("Переходим к оплате...")]
    else [BrowserAlert("Для покупки откройте приложение в Telegram")]
  }
}

=== FILE: options.dfy ===
/** The source's `null` / `None` / "absent", as a value. */
module Options {

  datatype Option<+T> = None | Some(value: T) {

    /** The wrapped value, or `default` when absent. */
    function GetOr(default: T): T {
      match this
      case Some(v) => v
      case None => default
    }
  }
}

=== FILE: progress_bar.dfy ===
/** The referral progress bar: a clamped percentage, its label and its rounded number. */
module ProgressBar {
  import opened Rounding

  /** `Math.min((current / target) * 100, 100)`; the component has no guard for a zero target. */
  function Percentage(current: int, target: int): (p: real)
    requires target != 0
    ensures p <= 100.0
    ensures p == 100.0 || p == current as real / target as real * 100.0
    ensures p <= current as real / target as real * 100.0
    ensures target > 0 && current >= target ==> p == 100.0
    ensures target > 0 && current >= 0 ==> p >= 0.0
  {
    var ratio := current as real / target as real * 100.0;
    if ratio < 100.0 then ratio else 100.0
  }

  /** For a fixed positive target, more referrals never show a smaller bar. */
  lemma PercentageMonotone(c1: int, c2: int, target: int)
    requires target > 0 && c1 <= c2
    ensures Percentage(c1, target) <= Percentage(c2, target)
  {
    var t := target as real;
    assert c1 as real / t <= c2 as real / t by {
      assert c1 as real / t * t == c1 as real;
      assert c2 as real / t * t == c2 as real;
    }
  }

  datatype Label = GoalReached(current: int, target: int) | Partial(current: int, target: int)

  /** The label's wording: "goal reached" exactly when the current count meets the target. */
  function LabelOf(current: int, target: int): (l: Label)
    ensures l.GoalReached? <==> current >= target
    ensures l.current == current && l.target == target
  {
    if current >= target then GoalReached(current, target) else Partial(current, target)
  }

  /** The number printed next to the label: `Math.round(percentage)`. */
  function Shown(current: int, target: int): (n: int)
    requires target != 0
    ensures n <= 100
    ensures target > 0 && current >= 0 ==> 0 <= n
    ensures target > 0 && current >= target ==> n == 100
    ensures n as real - 0.5 <= Percentage(current, target) < n as real + 0.5
  {
    var p := Percentage(current, target);
    Round(p)
  }

  /** Two referrals out of the default target of two: a full bar and the "goal reached" label. */
  lemma DefaultTargetReached()
    ensures Percentage(2, 2) == 100.0 && Shown(2, 2) == 100 && LabelOf(2, 2).GoalReached?
  {
  }
}

=== FILE: rounding.dfy ===
/** JavaScript's `Math.round` on exact ratios. */
module Rounding {

  /** `Math.round(x)`: the nearest integer, a half rounded up. */
  function Round(x: real): (r: int)
    ensures r as real - 0.5 <= x < r as real + 0.5
  {
    (x + 0.5).Floor
  }

  lemma RoundMonotone(x: real, y: real)
    requires x <= y
    ensures Round(x) <= Round(y)
  {
  }

  /** Rounding never leaves an integer interval that contains the argument. */
  lemma RoundWithin(x: real, lo: int, hi: int)
    requires lo as real <= x <= hi as real
    ensures lo <= Round(x) <= hi
  {
  }
}

=== FILE: sales_screen.dfy ===
/**
 * The special-offer screen: price defaults, the advertised discount, and what
 * is shown before and after the offer expires.
 */
module SalesScreen {
  import opened Options
  import opened Rounding
  import opened Types
  import Host

  const DefaultPrice := 5990
  const DefaultDiscountPrice := 4790
  const CheckoutUrl := "https://p.edpro.biz/offer-link"

  /** `appMode?.course_price || 5990`: absent or zero falls back to the default. */
  function Price(appMode: Option<AppMode>): (p: int)
    ensures p != 0
    ensures appMode.Some? && appMode.value.coursePrice != 0 ==> p == appMode.value.coursePrice
    ensures appMode.None? || appMode.value.coursePrice == 0 ==> p == DefaultPrice
  {
    if appMode.Some? && appMode.value.coursePrice != 0 then appMode.value.coursePrice else DefaultPrice
  }

  /** `appMode?.course_price_discount || 4790`. */
  function DiscountPrice(appMode: Option<AppMode>): (p: int)
    ensures p != 0
    ensures appMode.Some? && appMode.value.coursePriceDiscount != 0 ==> p == appMode.value.coursePriceDiscount
    ensures appMode.None? || appMode.value.coursePriceDiscount == 0 ==> p == DefaultDiscountPrice
  {
    if appMode.Some? && appMode.value.coursePriceDiscount != 0 then appMode.value.coursePriceDiscount else DefaultDiscountPrice
  }

  /** `Math.round((1 - discountPrice / price) * 100)`: the advertised saving in percent. */
  function Discount(price: int, discountPrice: int): (d: int)
    requires price != 0
    ensures 0 < discountPrice <= price ==> 0 <= d <= 100
    ensures discountPrice == price ==> d == 0
    ensures price > 0 && discountPrice > price ==> d <= 0
  {
    RatioBounds(price, discountPrice);
    Round((1.0 - discountPrice as real / price as real) * 100.0)
  }

  lemma RatioBounds(price: int, discountPrice: int)
    requires price != 0
    ensures 0 < discountPrice <= price ==> 0.0 < discountPrice as real / price as real <= 1.0
    ensures discountPrice == price ==> discountPrice as real / price as real == 1.0
    ensures price > 0 && discountPrice > price ==> discountPrice as real / price as real > 1.0
  {
    var p := price as real;
    var q := discountPrice as real / p;
    assert q * p == discountPrice as real;
    if price > 0 {
      ScaleFacts(q, p);
    }
  }

  lemma ScaleFacts(q: real, p: real)
    requires p > 0.0
    ensures q > 1.0 ==> q * p > p
    ensures q <= 0.0 ==> q * p <= 0.0
    ensures q == 1.0 <==> q * p == p
  {
    if q > 1.0 {
      assert q * p - p == (q - 1.0) * p;
    }
    assert q * p - p == (q - 1.0) * p;
  }

  /** A deeper cut never advertises a smaller saving. */
  lemma DiscountMonotone(price: int, dp1: int, dp2: int)
    requires price > 0 && dp1 <= dp2
    ensures Discount(price, dp2) <= Discount(price, dp1)
  {
    var p := price as real;
    assert dp1 as real / p <= dp2 as real / p by {
      assert dp1 as real / p * p == dp1 as real;
      assert dp2 as real / p * p == dp2 as real;
    }
    RoundMonotone((1.0 - dp2 as real / p) * 100.0, (1.0 - dp1 as real / p) * 100.0);
  }

  /** With the default prices the badge reads -20%. */
  lemma DefaultDiscount()
    ensures Discount(Price(None), DiscountPrice(None)) == 20
  {
    assert (1.0 - 4790.0 / 5990.0) * 100.0 == 120000.0 / 5990.0;
  }

  /** What the screen shows below the course description. */
  datatype Cta = BuyButton | OfferEnded

  /** The screen's visible parts: the countdown (to which deadline) and the call to action. */
  datatype View = View(timer: Option<int>, cta: Cta)

  /**
   * The offer counts as expired only in the `offer_expired` mode; the timer
   * needs a deadline as well, and the buy button is the alternative to the
   * "discount ended" note.
   */
  function Render(appMode: Option<AppMode>): (v: View)
    ensures v.cta == OfferEnded <==> appMode.Some? && appMode.value.mode == OfferExpired
    ensures v.timer.Some? <==> v.cta == BuyButton && appMode.Some? && appMode.value.deadline.Some?
    ensures v.timer.Some? ==> v.timer == appMode.value.deadline
  {
    var isExpired := appMode.Some? && appMode.value.mode == OfferExpired;
    var deadline := if appMode.Some? then appMode.value.deadline else None;
    View(if !isExpired && deadline.Some? then deadline else None, if isExpired then OfferEnded else BuyButton)
  }

  /** Without a mode snapshot the buy button shows, without a timer. */
  lemma RenderWithoutMode()
    ensures Render(None) == View(None, BuyButton)
  {
  }

  /** `handleBuy`: the checkout page, opened outside the messaging client when it is present. */
  function HandleBuy(env: Host.Env): (l: Host.Link)
    ensures l.url == CheckoutUrl
    ensures env.Present? ==> l.ExternalLink?
  {
    Host.OpenLink(env, CheckoutUrl, true)
  }
}

=== FILE: scheduler.dfy ===
/**
 * The reminder schedule: the dated jobs set up around the webinar start, the
 * one-minute test schedule, and what each job sends. Instants are
 * microseconds of wall-clock time. The scheduler reads its run dates in
 * Europe/Moscow; the model takes the API host's clock, whose naive `now`
 * dates the test jobs and classifies the phase, to run on that same wall
 * time, so one instant scale serves both.
 */
module Scheduler {
  import opened Options
  import opened Text
  import opened Database
  import Delivery
  import ApiServer
  import Types

  const UsPerMinute := ApiServer.UsPerMinute
  const UsPerHour := ApiServer.UsPerHour
  const UsPerDay := 24 * UsPerHour

  datatype JobAction = Warmup(video: int) | ReminderWithLink | PostWebinarOffer(hoursLeft: int)

  datatype Job = Job(id: string, runAt: int, action: JobAction)

  /** The end of the sale as the scheduler counts it: twelve hours from the fifth video, sent 90 minutes in. */
  function OfferEnd(w: int): (e: int)
    ensures e == ApiServer.OfferDeadline(w) - 30 * UsPerMinute
  {
    w + 90 * UsPerMinute + 12 * UsPerHour
  }

  predicate StrictlyIncreasing(jobs: seq<Job>) {
    forall i, j :: 0 <= i < j < |jobs| ==> jobs[i].runAt < jobs[j].runAt
  }

  predicate DistinctIds(jobs: seq<Job>) {
    forall i, j :: 0 <= i < j < |jobs| ==> jobs[i].id != jobs[j].id
  }

  /**
   * `setup_scheduler`: warm-ups 1–4 five days, three days, one day and one
   * hour before the start, the start reminder at the start, warm-up 5 ninety
   * minutes in, and the three offer notices counted back from the offer end.
   */
  function ProductionJobs(w: int): (jobs: seq<Job>)
    ensures |jobs| == 9
    ensures forall i :: 0 <= i < |jobs| && jobs[i].action.PostWebinarOffer? ==>
      jobs[i].runAt == OfferEnd(w) - jobs[i].action.hoursLeft * UsPerHour
    ensures forall i :: 0 <= i < |jobs| && jobs[i].action.ReminderWithLink? ==> jobs[i].runAt == w
    ensures forall i :: 0 <= i < |jobs| ==> (jobs[i].action.Warmup? <==> i < 4 || i == 5)
    ensures forall i :: 0 <= i < |jobs| && jobs[i].action.Warmup? ==> jobs[i].action.video == if i < 4 then i + 1 else 5
    ensures jobs[0].runAt == w - 5 * UsPerDay && jobs[1].runAt == w - 3 * UsPerDay
    ensures jobs[2].runAt == w - UsPerDay && jobs[3].runAt == w - UsPerHour
    ensures jobs[4].action == ReminderWithLink && jobs[5].runAt == w + 90 * UsPerMinute
    ensures jobs[6].action == PostWebinarOffer(3) && jobs[7].action == PostWebinarOffer(1) && jobs[8].action == PostWebinarOffer(0)
  {
    [ Job("warmup_1", w - 5 * UsPerDay, Warmup(1)),
      Job("warmup_2", w - 3 * UsPerDay, Warmup(2)),
      Job("warmup_3", w - UsPerDay, Warmup(3)),
      Job("warmup_4", w - UsPerHour, Warmup(4)),
      Job("reminder_start", w, ReminderWithLink),
      Job("warmup_5", w + 90 * UsPerMinute, Warmup(5)),
      Job("deadline_3h", OfferEnd(w) - 3 * UsPerHour, PostWebinarOffer(3)),
      Job("deadline_1h", OfferEnd(w) - UsPerHour, PostWebinarOffer(1)),
      Job("offer_closed", OfferEnd(w), PostWebinarOffer(0)) ]
  }

  /** `start_test_schedule`: every job is dropped and six take their place, a minute apart. */
  function StartTestSchedule(existing: seq<Job>, now: int): (jobs: seq<Job>)
    ensures |jobs| == 6
    ensures forall i :: 0 <= i < |jobs| ==> jobs[i].runAt == now + (i + 1) * UsPerMinute
  {
    [ Job("test_w1", now + UsPerMinute, Warmup(1)),
      Job("test_w2", now + 2 * UsPerMinute, Warmup(2)),
      Job("test_w3", now + 3 * UsPerMinute, Warmup(3)),
      Job("test_w4", now + 4 * UsPerMinute, Warmup(4)),
      Job("test_start", now + 5 * UsPerMinute, ReminderWithLink),
      Job("test_w5", now + 6 * UsPerMinute, Warmup(5)) ]
  }

  /** Each job running before the next one orders the whole list. */
  lemma {:induction false} AdjacentIncreasing(jobs: seq<Job>)
    requires forall i :: 0 <= i < |jobs| - 1 ==> jobs[i].runAt < jobs[i + 1].runAt
    ensures StrictlyIncreasing(jobs)
    decreases |jobs|
  {
    if |jobs| > 1 {
      var init := jobs[..|jobs| - 1];
      assert forall i :: 0 <= i < |init| - 1 ==> init[i].runAt < init[i + 1].runAt by {
        forall i | 0 <= i < |init| - 1 ensures init[i].runAt < init[i + 1].runAt {
          assert init[i] == jobs[i] && init[i + 1] == jobs[i + 1];
        }
      }
      AdjacentIncreasing(init);
      forall i, j | 0 <= i < j < |jobs| ensures jobs[i].runAt < jobs[j].runAt {
        if j < |jobs| - 1 {
          assert init[i] == jobs[i] && init[j] == jobs[j];
        } else if i < j - 1 {
          assert init[i] == jobs[i] && init[j - 1] == jobs[j - 1];
        }
      }
    }
  }

  /** The production jobs run in list order, under pairwise different ids. */
  lemma ProductionJobsOrdered(w: int)
    ensures StrictlyIncreasing(ProductionJobs(w)) && DistinctIds(ProductionJobs(w))
  {
    var jobs := ProductionJobs(w);
    AdjacentIncreasing(jobs);
    forall i, j | 0 <= i < j < |jobs| ensures jobs[i].id != jobs[j].id {
      if |jobs[i].id| == |jobs[j].id| {
        var k := if i == 6 then 9 else 7;
        assert jobs[i].id[k] != jobs[j].id[k];
      }
    }
  }

  /** The test jobs run in list order, under pairwise different ids. */
  lemma TestScheduleOrdered(existing: seq<Job>, now: int)
    ensures StrictlyIncreasing(StartTestSchedule(existing, now)) && DistinctIds(StartTestSchedule(existing, now))
  {
    var jobs := StartTestSchedule(existing, now);
    forall i, j | 0 <= i < j < |jobs| ensures jobs[i].id != jobs[j].id {
      if |jobs[i].id| == |jobs[j].id| {
        assert jobs[i].id[6] != jobs[j].id[6];
      }
    }
  }

  /** The test run replays the first six production steps, in the same order, without the offer notices. */
  lemma TestMirrorsProduction(existing: seq<Job>, now: int, w: int)
    ensures forall i :: 0 <= i < 6 ==> StartTestSchedule(existing, now)[i].action == ProductionJobs(w)[i].action
    ensures forall i :: 0 <= i < 6 ==> !StartTestSchedule(existing, now)[i].action.PostWebinarOffer?
  {
  }

  // ---------------------------------------------------------------------------
  // The post-webinar notices
  // ---------------------------------------------------------------------------

  /** `strftime("%H:%M")` of a local instant. */
  function ClockOf(t: int): (s: string)
    ensures |s| == 5 && s[2] == ':'
  {
    var hh, mm := Pad2(t / UsPerHour % 24), Pad2(t / UsPerMinute % 60);
    assert |hh| == 2 && |mm| == 2;
    hh + ":" + mm
  }

  /** Reading the two fields of the printed clock back gives the hour of the day and the minute of the hour. */
  lemma ClockOfReadsBack(t: int)
    ensures ParseInt(ClockOf(t)[..2]) == Some(t / UsPerHour % 24)
    ensures ParseInt(ClockOf(t)[3..]) == Some(t / UsPerMinute % 60)
  {
    var h, m := t / UsPerHour % 24, t / UsPerMinute % 60;
    var s := ClockOf(t);
    Pad2Value(h);
    Pad2Value(m);
    assert s[..2] == Pad2(h) && s[3..] == Pad2(m);
    assert IsDigit(Pad2(h)[0]) && IsDigit(Pad2(m)[0]);
  }

  /** The deadline the notices print: twelve hours after the start. */
  function PrintedDeadline(w: int): (d: int)
    ensures d == OfferEnd(w) - 90 * UsPerMinute
  {
    w + 12 * UsPerHour
  }

  datatype OfferText = Deadline3h(buyers: int, deadline: string) | Deadline1h(buyers: int, deadline: string) | OfferClosed

  /** `send_post_webinar_offer`: a notice for 3, 1 and 0 hours left, nothing for any other argument. */
  function SendPostWebinarOffer(w: int, hoursLeft: int, buyers: int): (r: Option<OfferText>)
    ensures r.Some? <==> hoursLeft == 3 || hoursLeft == 1 || hoursLeft == 0
    ensures hoursLeft == 0 ==> r == Some(OfferClosed)
    ensures r.Some? && !r.value.OfferClosed? ==>
      r.value.buyers == buyers && r.value.deadline == ClockOf(PrintedDeadline(w)) &&
      (r.value.Deadline3h? <==> hoursLeft == 3)
  {
    var deadline := ClockOf(PrintedDeadline(w));
    if hoursLeft == 3 then Some(Deadline3h(buyers, deadline))
    else if hoursLeft == 1 then Some(Deadline1h(buyers, deadline))
    else if hoursLeft == 0 then Some(OfferClosed)
    else None
  }

  lemma MulAtLeast(a: int, d: int)
    requires a >= 1 && d > 0
    ensures a * d >= d
  {
  }

  /** Quotient and remainder are the only such pair. */
  lemma {:induction false} DivModUnique(n: int, d: int, q: int, r: int)
    requires d > 0 && n == q * d + r && 0 <= r < d
    ensures n / d == q && n % d == r
  {
    var q2, r2 := n / d, n % d;
    assert (q - q2) * d == r2 - r;
    if q - q2 >= 1 {
      MulAtLeast(q - q2, d);
    } else if q2 - q >= 1 {
      MulAtLeast(q2 - q, d);
    }
  }

  lemma {:induction false} AddMultiple(x: int, k: int, d: int)
    requires d > 0
    ensures (x + k * d) / d == x / d + k && (x + k * d) % d == x % d
  {
    var q, r := x / d, x % d;
    assert x + k * d == (q + k) * d + r;
    DivModUnique(x + k * d, d, q + k, r);
  }

  /** The printed deadline is the start's clock time moved on twelve hours: same minute, hour plus 12 modulo 24. */
  lemma {:induction false} PrintedClockTwelveHoursOn(w: int)
    ensures ClockOf(PrintedDeadline(w)) == Pad2((w / UsPerHour + 12) % 24) + ":" + Pad2(w / UsPerMinute % 60)
  {
    var t := PrintedDeadline(w);
    var h, m := (w / UsPerHour + 12) % 24, w / UsPerMinute % 60;
    assert t / UsPerHour % 24 == h by {
      AddMultiple(w, 12, UsPerHour);
    }
    assert t / UsPerMinute % 60 == m by {
      assert t == w + 720 * UsPerMinute;
      AddMultiple(w, 720, UsPerMinute);
      AddMultiple(w / UsPerMinute, 12, 60);
    }
    ClockParts(t, h, m);
  }

  lemma {:induction false} ClockParts(t: int, h: int, m: int)
    requires t / UsPerHour % 24 == h && t / UsPerMinute % 60 == m
    ensures ClockOf(t) == Pad2(h) + ":" + Pad2(m)
  {
  }

  /**
   * The three deadlines disagree: the one-hour notice goes out half an hour
   * after the deadline it prints, the closing notice goes out while the API
   * still reports the sale window, and the API's window ends half an hour later.
   * The comparison with the API holds when its host clock runs on
   * Europe/Moscow wall time like the scheduler.
   */
  lemma DeadlinesDisagree(w: int)
    ensures var jobs := ProductionJobs(w);
      jobs[7].action == PostWebinarOffer(1) && jobs[7].runAt == PrintedDeadline(w) + 30 * UsPerMinute
    ensures var jobs := ProductionJobs(w);
      jobs[8].action == PostWebinarOffer(0) && ApiServer.Classify(w, jobs[8].runAt) == Types.AfterWebinar
    ensures ApiServer.OfferDeadline(w) == OfferEnd(w) + 30 * UsPerMinute
  {
  }

  /** Every dated offer job produces its notice. */
  lemma ScheduledOffersAllSend(w: int, buyers: int)
    ensures forall i :: 0 <= i < 9 && ProductionJobs(w)[i].action.PostWebinarOffer? ==>
      SendPostWebinarOffer(w, ProductionJobs(w)[i].action.hoursLeft, buyers).Some?
  {
  }

  // ---------------------------------------------------------------------------
  // Warm-up videos and reminders
  // ---------------------------------------------------------------------------

  /** A warm-up's configuration; a key that is absent or empty reads as not set. */
  datatype WarmupConfig = WarmupConfig(fileId: Option<string>, caption: string, buttonText: Option<string>,
                                       callbackData: Option<string>, buttonUrl: Option<string>)

  predicate Given(o: Option<string>) {
    o.Some? && o.value != ""
  }

  datatype Keyboard = CallbackButton(text: string, data: string) | UrlButton(text: string, url: string)

  /** The warm-up button: none without a label; a callback wins over a URL; neither gives none. */
  function WarmupKeyboard(cfg: WarmupConfig): (k: Option<Keyboard>)
    ensures k.None? <==> !Given(cfg.buttonText) || (!Given(cfg.callbackData) && !Given(cfg.buttonUrl))
    ensures k.Some? ==> k.value.text == cfg.buttonText.value
    ensures k.Some? ==> (k.value.CallbackButton? <==> Given(cfg.callbackData))
    ensures k.Some? && k.value.CallbackButton? ==> k.value.data == cfg.callbackData.value
    ensures k.Some? && k.value.UrlButton? ==> k.value.url == cfg.buttonUrl.value
  {
    if !Given(cfg.buttonText) then None
    else if Given(cfg.callbackData) then Some(CallbackButton(cfg.buttonText.value, cfg.callbackData.value))
    else if Given(cfg.buttonUrl) then Some(UrlButton(cfg.buttonText.value, cfg.buttonUrl.value))
    else None
  }

  datatype Message = Video(fileId: string, caption: string, keyboard: Option<Keyboard>) | Text(caption: string, keyboard: Option<Keyboard>)

  /** A video with the caption when a file id is set, the caption as text otherwise. */
  function WarmupMessage(cfg: WarmupConfig): (m: Message)
    ensures m.caption == cfg.caption && m.keyboard == WarmupKeyboard(cfg)
    ensures m.Video? <==> Given(cfg.fileId)
    ensures m.Video? ==> m.fileId == cfg.fileId.value
  {
    if Given(cfg.fileId) then Video(cfg.fileId.value, cfg.caption, WarmupKeyboard(cfg))
    else Text(cfg.caption, WarmupKeyboard(cfg))
  }

  /**
   * `send_warmup_job`: without a configuration nothing is read or sent;
   * otherwise the message goes to every registered user, failures are
   * deactivated, and the successes are counted.
   */
  method SendWarmupJob(db: Users, config: Option<WarmupConfig>, recipients: seq<int>, failing: set<int>)
    returns (count: nat, r: Users, sent: Option<Message>)
    requires forall u :: u in recipients <==> u in RegisteredUsers(db)
    ensures config.None? ==> count == 0 && r == db && sent.None?
    ensures config.Some? ==> sent == Some(WarmupMessage(config.value))
    ensures config.Some? ==> count == Delivery.Delivered(recipients, failing)
    ensures config.Some? ==> Delivery.MarkedFailures(db, recipients, failing, r)
  {
    if config.None? {
      return 0, db, None;
    }
    sent := Some(WarmupMessage(config.value));
    count, r := Delivery.SendToAll(db, recipients, failing);
  }

  /** The start reminder: the link template when a stream link is stored, the fallback text otherwise. */
  datatype ReminderText = StartWithLink(link: string) | StartNoLink

  function StartReminder(streamLink: Option<string>): (t: ReminderText)
    ensures t.StartWithLink? <==> Given(streamLink)
    ensures t.StartWithLink? ==> t.link == streamLink.value
  {
    if Given(streamLink) then StartWithLink(streamLink.value) else StartNoLink
  }

  /**
   * `send_reminder`: the registered audience by default, every active user
   * otherwise; a failed send deactivates that user.
   */
  method SendReminder(db: Users, onlyRegistered: bool, recipients: seq<int>, failing: set<int>) returns (count: nat, r: Users)
    requires forall u :: u in recipients <==> u in (if onlyRegistered then RegisteredUsers(db) else ActiveUsers(db))
    ensures count == Delivery.Delivered(recipients, failing)
    ensures Delivery.MarkedFailures(db, recipients, failing, r)
    ensures forall u :: u in failing && u in (if onlyRegistered then RegisteredUsers(db) else ActiveUsers(db)) ==> u !in ActiveUsers(r)
  {
    count, r := Delivery.SendToAll(db, recipients, failing);
    Delivery.FailuresLeaveAudience(db, recipients, failing, r);
  }
}

=== FILE: text.dfy ===
/**
 * String helpers shared by the client and the server code: decimal rendering
 * (`String(n)` / `str(n)`), a plain decimal parser (`int(s)` without Python's
 * sign-whitespace-underscore extras), `padStart`, `str.replace`, `str.split()`
 * and ASCII lower-casing.
 */
module Text {
  import opened Options

  predicate IsDigit(c: char) {
    '0' <= c <= '9'
  }

  predicate AllDigits(s: string) {
    forall i :: 0 <= i < |s| ==> IsDigit(s[i])
  }

  /** The six ASCII blanks `str.split()` separates on (it also splits on \x1c-\x1f and Unicode spaces, not modelled). */
  predicate IsSpace(c: char) {
    c == ' ' || c == '\t' || c == '\n' || c == '\r' || c == '\U{0B}' || c == '\U{0C}'
  }

  predicate NoSpace(s: string) {
    forall i :: 0 <= i < |s| ==> !IsSpace(s[i])
  }

  predicate StartsWith(s: string, prefix: string) {
    |prefix| <= |s| && s[..|prefix|] == prefix
  }

  // ---------------------------------------------------------------------------
  // Decimal rendering and parsing
  // ---------------------------------------------------------------------------

  function DigitChar(d: nat): (c: char)
    requires d < 10
    ensures IsDigit(c) && c as int - '0' as int == d
  {
    ('0' as int + d) as char
  }

  function DigitValue(c: char): nat
    requires IsDigit(c)
  {
    c as int - '0' as int
  }

  /** Decimal digits of `n`, most significant first, without leading zeros. */
  function NatToString(n: nat): (s: string)
    ensures |s| >= 1 && AllDigits(s)
    ensures |s| > 1 ==> s[0] != '0'
    ensures n < 10 ==> |s| == 1
    ensures n < 100 ==> |s| <= 2
    decreases n
  {
    if n < 10 then [DigitChar(n)] else NatToString(n / 10) + [DigitChar(n % 10)]
  }

  /** `String(i)` in JavaScript, `str(i)` in Python, for integers. */
  function IntToString(i: int): (s: string)
    ensures |s| >= 1
    ensures i >= 0 ==> AllDigits(s)
  {
    if i < 0 then "-" + NatToString(-i) else NatToString(i)
  }

  /** The value of a digit string read in base ten (0 for the empty string). */
  function DigitsValue(s: string): nat
    requires AllDigits(s)
  {
    if |s| == 0 then 0 else DigitsValue(s[..|s| - 1]) * 10 + DigitValue(s[|s| - 1])
  }

  /** A plain decimal integer: an optional '-' followed by one or more digits. */
  predicate IsDecimal(s: string) {
    if |s| > 0 && s[0] == '-' then |s| > 1 && AllDigits(s[1..]) else |s| > 0 && AllDigits(s)
  }

  /** `int(s)`, restricted to plain decimal text; `None` stands for `ValueError`. */
  function ParseInt(s: string): (r: Option<int>)
    ensures r.Some? <==> IsDecimal(s)
  {
    if |s| > 0 && s[0] == '-' then
      if |s| > 1 && AllDigits(s[1..]) then Some(0 - DigitsValue(s[1..])) else None
    else if |s| > 0 && AllDigits(s) then Some(DigitsValue(s))
    else None
  }

  lemma DigitsValueSnoc(s: string, c: char)
    requires AllDigits(s) && IsDigit(c)
    ensures AllDigits(s + [c])
    ensures DigitsValue(s + [c]) == DigitsValue(s) * 10 + DigitValue(c)
  {
    assert (s + [c])[..|s|] == s;
  }

  /** Reading back the rendering of `n` gives `n`. */
  lemma {:induction false} DigitsValueOfNatToString(n: nat)
    ensures DigitsValue(NatToString(n)) == n
    decreases n
  {
    if n < 10 {
      assert NatToString(n)[..0] == [];
    } else {
      DigitsValueOfNatToString(n / 10);
      DigitsValueSnoc(NatToString(n / 10), DigitChar(n % 10));
    }
  }

  lemma ParseNegative(n: nat)
    requires n > 0
    ensures ParseInt("-" + NatToString(n)) == Some(-(n as int))
  {
    var digits := NatToString(n);
    var s := "-" + digits;
    assert s[0] == '-' && s[1..] == digits;
    DigitsValueOfNatToString(n);
  }

  lemma ParseNatural(n: nat)
    ensures ParseInt(NatToString(n)) == Some(n)
  {
    var digits := NatToString(n);
    DigitsValueOfNatToString(n);
    assert digits[0] != '-';
  }

  /** The parser inverts the renderer on every integer. */
  lemma ParseIntOfIntToString(i: int)
    ensures ParseInt(IntToString(i)) == Some(i)
  {
    if i < 0 {
      ParseNegative(-i);
    } else {
      ParseNatural(i);
    }
  }

  /** Leading zeros do not change the value read. */
  lemma {:induction false} DigitsValueLeadingZero(s: string)
    requires AllDigits(s)
    ensures AllDigits("0" + s) && DigitsValue("0" + s) == DigitsValue(s)
    decreases |s|
  {
    if |s| > 0 {
      var init := s[..|s| - 1];
      DigitsValueLeadingZero(init);
      assert "0" + s == ("0" + init) + [s[|s| - 1]];
      DigitsValueSnoc("0" + init, s[|s| - 1]);
      assert s == init + [s[|s| - 1]];
      DigitsValueSnoc(init, s[|s| - 1]);
    } else {
      assert ("0" + s)[..0] == [];
    }
  }

  // ---------------------------------------------------------------------------
  // padStart
  // ---------------------------------------------------------------------------

  /** `n` copies of `c`. */
  function Repeat(c: char, n: nat): (r: string)
    ensures |r| == n && forall i :: 0 <= i < n ==> r[i] == c
  {
    seq(n, _ => c)
  }

  /** `s.padStart(width, fill)`: `fill` copies in front until `width` is reached. */
  function PadStart(s: string, width: nat, fill: char): (r: string)
    ensures |r| == if |s| < width then width else |s|
    ensures r[|r| - |s|..] == s
    ensures forall i :: 0 <= i < |r| - |s| ==> r[i] == fill
  {
    if |s| >= width then s
    else
      var r := Repeat(fill, width - |s|) + s;
      assert r[|r| - |s|..] == s;
      r
  }

  lemma SingleDigit(n: nat)
    requires n < 10
    ensures IntToString(n) == [DigitChar(n)]
  {
  }

  /** `String(n).padStart(2, '0')`, the two-digit clock field. */
  function Pad2(n: int): (r: string)
    ensures |r| >= 2
    ensures 0 <= n < 10 ==> r == ['0', DigitChar(n)]
    ensures n >= 10 ==> r == IntToString(n)
    ensures 0 <= n < 100 ==> |r| == 2
  {
    var digits := IntToString(n);
    var r := PadStart(digits, 2, '0');
    if 0 <= n < 10 then
      SingleDigit(n);
      assert r == ['0'] + digits;
      r
    else
      r
  }

  /** A two-digit clock field reads back as the number it shows. */
  lemma Pad2Value(n: nat)
    ensures AllDigits(Pad2(n)) && DigitsValue(Pad2(n)) == n
  {
    if n < 10 {
      var r := Pad2(n);
      var c := DigitChar(n);
      assert r == ['0', c];
      assert r[..1] == ['0'] && r[..1][..0] == [];
      assert DigitsValue(r[..1]) == 0;
      assert DigitsValue(r) == DigitsValue(r[..1]) * 10 + DigitValue(c);
    } else {
      assert Pad2(n) == NatToString(n);
      DigitsValueOfNatToString(n);
    }
  }

  // ---------------------------------------------------------------------------
  // str.replace
  // ---------------------------------------------------------------------------

  /** Python's `s.replace(pat, rep)`: every non-overlapping occurrence, left to right. */
  function ReplaceAll(s: string, pat: string, rep: string): (r: string)
    requires |pat| > 0
    ensures |rep| <= |pat| ==> |r| <= |s|
    decreases |s|
  {
    if |s| < |pat| then s
    else if s[..|pat|] == pat then rep + ReplaceAll(s[|pat|..], pat, rep)
    else [s[0]] + ReplaceAll(s[1..], pat, rep)
  }

  /** Text in which the pattern's first character never occurs is left as it is. */
  lemma {:induction false} ReplaceAllNoOccurrence(s: string, pat: string, rep: string)
    requires |pat| > 0
    requires forall i :: 0 <= i < |s| ==> s[i] != pat[0]
    ensures ReplaceAll(s, pat, rep) == s
    decreases |s|
  {
    if |s| >= |pat| {
      assert s[..|pat|][0] != pat[0];
      ReplaceAllNoOccurrence(s[1..], pat, rep);
      assert [s[0]] + s[1..] == s;
    }
  }

  /** A stretch without the pattern's first character passes through unchanged in front of the rest. */
  lemma {:induction false} ReplaceAllPastPrefix(x: string, y: string, pat: string, rep: string)
    requires |pat| > 0
    requires forall i :: 0 <= i < |x| ==> x[i] != pat[0]
    ensures ReplaceAll(x + y, pat, rep) == x + ReplaceAll(y, pat, rep)
    decreases |x|
  {
    if |x| > 0 && |x + y| >= |pat| {
      assert (x + y)[..|pat|][0] != pat[0];
      assert (x + y)[1..] == x[1..] + y;
      ReplaceAllPastPrefix(x[1..], y, pat, rep);
      assert [x[0]] + x[1..] == x;
    } else if |x| == 0 {
      assert x + y == y;
    }
  }

  // ---------------------------------------------------------------------------
  // str.split() and friends
  // ---------------------------------------------------------------------------

  /** `s.lstrip()`. */
  function DropSpaces(s: string): (r: string)
    ensures |r| <= |s| && r == s[|s| - |r|..]
    ensures r == [] || !IsSpace(r[0])
    ensures forall i :: 0 <= i < |s| - |r| ==> IsSpace(s[i])
    decreases |s|
  {
    if |s| > 0 && IsSpace(s[0]) then DropSpaces(s[1..]) else s
  }

  /** `s.rstrip()`. */
  function DropSpacesEnd(s: string): (r: string)
    ensures r <= s
    ensures r == [] || !IsSpace(r[|r| - 1])
    ensures forall i :: |r| <= i < |s| ==> IsSpace(s[i])
    decreases |s|
  {
    if |s| > 0 && IsSpace(s[|s| - 1]) then DropSpacesEnd(s[..|s| - 1]) else s
  }

  /** The longest prefix of `s` without whitespace. */
  function TakeWord(s: string): (w: string)
    ensures w <= s && NoSpace(w)
    ensures |w| < |s| ==> IsSpace(s[|w|])
    ensures s != [] && !IsSpace(s[0]) ==> w != []
    decreases |s|
  {
    if |s| == 0 || IsSpace(s[0]) then [] else [s[0]] + TakeWord(s[1..])
  }

  /** Every entry is a non-empty run without whitespace. */
  predicate AllWords(ws: seq<string>) {
    forall k :: 0 <= k < |ws| ==> ws[k] != [] && NoSpace(ws[k])
  }

  lemma AllWordsCons(w: string, rest: seq<string>)
    requires w != [] && NoSpace(w) && AllWords(rest)
    ensures AllWords([w] + rest)
  {
    var ws := [w] + rest;
    forall k | 0 <= k < |ws| ensures ws[k] != [] && NoSpace(ws[k]) {
      if k > 0 {
        assert ws[k] == rest[k - 1];
      }
    }
  }

  /** Python's `s.split()`: the maximal runs of non-whitespace characters. */
  function Words(s: string): (ws: seq<string>)
    ensures |ws| <= |s|
    ensures AllWords(ws)
    decreases |s|
  {
    var t := DropSpaces(s);
    if t == [] then []
    else
      var w := TakeWord(t);
      var rest := Words(t[|w|..]);
      AllWordsCons(w, rest);
      [w] + rest
  }

  /** A word ending before the end of the text is not lengthened by what follows. */
  lemma {:induction false} TakeWordExtend(x: string, z: string)
    requires |TakeWord(x)| < |x| || z == [] || IsSpace(z[0])
    ensures TakeWord(x + z) == TakeWord(x)
    decreases |x|
  {
    if x == [] {
      assert x + z == z;
    } else if !IsSpace(x[0]) {
      assert (x + z)[1..] == x[1..] + z;
      TakeWordExtend(x[1..], z);
    }
  }

  /** A leading blank is skipped. */
  lemma WordsSpaceFirst(s: string)
    requires s != [] && IsSpace(s[0])
    ensures Words(s) == Words(s[1..])
  {
    assert DropSpaces(s) == DropSpaces(s[1..]);
  }

  /** A leading non-blank starts the first word. */
  lemma WordsWordFirst(s: string)
    requires s != [] && !IsSpace(s[0])
    ensures Words(s) == [TakeWord(s)] + Words(s[|TakeWord(s)|..])
  {
    assert DropSpaces(s) == s;
  }

  /** A whitespace character splits the text: the words before it, then the words after it. */
  lemma {:induction false} WordsSplit(x: string, c: char, y: string)
    requires IsSpace(c)
    ensures Words(x + [c] + y) == Words(x) + Words(y)
    decreases |x|, 1
  {
    var s := x + [c] + y;
    if x == [] {
      assert s == [c] + y && s[1..] == y;
      WordsSpaceFirst(s);
      assert Words(x) == [];
    } else if IsSpace(x[0]) {
      assert s[0] == x[0] && s[1..] == x[1..] + [c] + y;
      WordsSpaceFirst(s);
      WordsSpaceFirst(x);
      WordsSplit(x[1..], c, y);
    } else {
      WordsSplitAtWord(x, c, y);
    }
  }

  /** The step of `WordsSplit` where the text starts with a word. */
  lemma {:induction false} WordsSplitAtWord(x: string, c: char, y: string)
    requires IsSpace(c) && x != [] && !IsSpace(x[0])
    ensures Words(x + [c] + y) == Words(x) + Words(y)
    decreases |x|, 0
  {
    var s := x + [c] + y;
    var w := TakeWord(x);
    var x' := x[|w|..];
    assert s[0] == x[0];
    TakeWordExtend(x, [c] + y);
    assert s == x + ([c] + y);
    assert TakeWord(s) == w;
    assert s[|w|..] == x' + [c] + y;
    calc {
      Words(s);
      { WordsWordFirst(s); }
      [w] + Words(x' + [c] + y);
      { WordsSplit(x', c, y); }
      [w] + (Words(x') + Words(y));
      ([w] + Words(x')) + Words(y);
      { WordsWordFirst(x); }
      Words(x) + Words(y);
    }
  }

  /** Python's `s.split(maxsplit=1)`: the first word and the left-stripped rest, if any. */
  function SplitFirst(s: string): (parts: seq<string>)
    ensures |parts| <= 2
    ensures |parts| >= 1 ==> parts[0] != [] && NoSpace(parts[0])
    ensures |parts| == 2 ==> parts[1] != [] && !IsSpace(parts[1][0])
  {
    var t := DropSpaces(s);
    if t == [] then []
    else
      var w := TakeWord(t);
      var rest := DropSpaces(t[|w|..]);
      if rest == [] then [w] else [w, rest]
  }

  /** Stripping leading blanks does not change the words. */
  lemma {:induction false} DropSpacesWords(u: string)
    ensures Words(DropSpaces(u)) == Words(u)
    decreases |u|
  {
    if u != [] && IsSpace(u[0]) {
      WordsSpaceFirst(u);
      DropSpacesWords(u[1..]);
    }
  }

  /**
   * `split(maxsplit=1)` agrees with `split()`: it yields as many parts as there
   * are words, up to two; the first part is the first word; the second is a
   * suffix of the text whose words are all the remaining words.
   */
  lemma {:induction false} SplitFirstWords(s: string)
    ensures |SplitFirst(s)| == if |Words(s)| < 2 then |Words(s)| else 2
    ensures |SplitFirst(s)| >= 1 ==> SplitFirst(s)[0] == Words(s)[0]
    ensures |SplitFirst(s)| == 2 ==> Words(s)[1..] == Words(SplitFirst(s)[1])
    ensures |SplitFirst(s)| == 2 ==> IsSuffix(SplitFirst(s)[1], s)
  {
    var t := DropSpaces(s);
    if t == [] {
      DropSpacesWords(s);
      assert Words(t) == [];
      assert SplitFirst(s) == [];
    } else {
      var w := TakeWord(t);
      var rest := DropSpaces(t[|w|..]);
      SplitFirstParts(s, t, w, rest);
      var rs := Words(rest);
      assert Words(s) == [w] + rs;
      assert Words(s)[0] == w && Words(s)[1..] == rs;
      if rest == [] {
        assert SplitFirst(s) == [w] && rs == [];
      } else {
        assert SplitFirst(s) == [w, rest] && |rs| >= 1;
        assert IsSuffix(rest, s);
      }
    }
  }

  /** `x` is the tail end of `s`. */
  predicate IsSuffix(x: string, s: string) {
    |x| <= |s| && x == s[|s| - |x|..]
  }

  /** The non-empty case of `SplitFirstWords`, with the intermediate texts named. */
  lemma {:induction false} SplitFirstParts(s: string, t: string, w: string, rest: string)
    requires t == DropSpaces(s) && t != [] && w == TakeWord(t) && rest == DropSpaces(t[|w|..])
    ensures Words(s) == [w] + Words(rest)
    ensures SplitFirst(s) == if rest == [] then [w] else [w, rest]
    ensures rest == [] <==> Words(rest) == []
    ensures IsSuffix(rest, s)
  {
    DropSpacesWords(s);
    WordsWordFirst(t);
    DropSpacesWords(t[|w|..]);
    if rest != [] {
      WordsWordFirst(rest);
    }
    RestIsSuffix(t, w, rest);
    assert IsSuffix(t, s);
    SuffixOfSuffix(s, t, rest);
  }

  /** What follows the first word, left-stripped, is a suffix of the text. */
  lemma {:induction false} RestIsSuffix(t: string, w: string, rest: string)
    requires t != [] && w == TakeWord(t) && rest == DropSpaces(t[|w|..])
    ensures IsSuffix(rest, t)
  {
  }

  lemma SuffixOfSuffix(a: string, b: string, c: string)
    requires IsSuffix(b, a) && IsSuffix(c, b)
    ensures IsSuffix(c, a)
  {
    assert forall k :: 0 <= k < |c| ==> c[k] == b[|b| - |c| + k] == a[|a| - |c| + k];
  }

  lemma {:induction false} TakeWordOfWord(w: string, rest: string)
    requires NoSpace(w)
    requires rest == [] || IsSpace(rest[0])
    ensures TakeWord(w + rest) == w
    decreases |w|
  {
    if |w| > 0 {
      var s := w + rest;
      assert s[0] == w[0] && !IsSpace(s[0]);
      assert s[1..] == w[1..] + rest;
      TakeWordOfWord(w[1..], rest);
      assert TakeWord(s) == [w[0]] + w[1..];
    } else {
      assert w + rest == rest;
    }
  }

  /** Leading blanks do not change the split. */
  lemma WordsLeadingBlank(rest: string)
    ensures Words(" " + rest) == Words(rest)
  {
    assert (" " + rest)[1..] == rest;
    assert DropSpaces(" " + rest) == DropSpaces(rest);
  }

  lemma WordsOfWordStart(w: string, tail: string)
    requires w != [] && NoSpace(w)
    requires tail == [] || IsSpace(tail[0])
    ensures Words(w + tail) == [w] + Words(tail)
  {
    var s := w + tail;
    assert !IsSpace(s[0]);
    assert DropSpaces(s) == s;
    TakeWordOfWord(w, tail);
    assert s[|w|..] == tail;
  }

  /** A leading word followed by a blank is split off first. */
  lemma WordsCons(w: string, rest: string)
    requires w != [] && NoSpace(w)
    ensures Words(w + " " + rest) == [w] + Words(rest)
  {
    assert w + " " + rest == w + (" " + rest);
    WordsOfWordStart(w, " " + rest);
    WordsLeadingBlank(rest);
  }

  /** The positions of a sequence with one element put in front. */
  lemma SeqCons<X>(x: X, ys: seq<X>, zs: seq<X>)
    requires zs == [x] + ys
    ensures |zs| == |ys| + 1 && zs[0] == x
    ensures forall k :: 0 <= k < |ys| ==> zs[k + 1] == ys[k]
  {
  }

  /** A single word splits into itself. */
  lemma WordsOfWord(w: string)
    requires w != [] && NoSpace(w)
    ensures |Words(w)| == 1 && Words(w)[0] == w
  {
    assert w + [] == w;
    WordsOfWordStart(w, []);
    SeqCons(w, Words([]), Words(w));
  }

  /** The first word of `w rest`, and the words of `rest` after it. */
  lemma WordsHead(w: string, rest: string)
    requires w != [] && NoSpace(w)
    ensures |Words(w + " " + rest)| == |Words(rest)| + 1 && Words(w + " " + rest)[0] == w
    ensures forall k :: 0 <= k < |Words(rest)| ==> Words(w + " " + rest)[k + 1] == Words(rest)[k]
  {
    WordsCons(w, rest);
    SeqCons(w, Words(rest), Words(w + " " + rest));
  }

  /** Two words separated by a blank split into those two words. */
  lemma WordsOfTwo(a: string, b: string)
    requires a != [] && NoSpace(a) && b != [] && NoSpace(b)
    ensures |Words(a + " " + b)| == 2
    ensures Words(a + " " + b)[0] == a && Words(a + " " + b)[1] == b
  {
    WordsHead(a, b);
    WordsOfWord(b);
  }

  /** The first two words of `a b rest`. */
  lemma WordsLeadingTwo(a: string, b: string, rest: string)
    requires a != [] && NoSpace(a) && b != [] && NoSpace(b)
    ensures |Words(a + " " + (b + " " + rest))| >= 2
    ensures Words(a + " " + (b + " " + rest))[0] == a && Words(a + " " + (b + " " + rest))[1] == b
  {
    var t := b + " " + rest;
    WordsHead(b, rest);
    WordsHead(a, t);
  }

  // ---------------------------------------------------------------------------
  // JavaScript `split(' ')[0]` and lower-casing
  // ---------------------------------------------------------------------------

  /** `s.split(c)[0]`: everything before the first `c`. */
  function TakeUntil(s: string, c: char): (r: string)
    ensures r <= s
    ensures forall i :: 0 <= i < |r| ==> r[i] != c
    ensures |r| < |s| ==> s[|r|] == c
    decreases |s|
  {
    if |s| == 0 || s[0] == c then [] else [s[0]] + TakeUntil(s[1..], c)
  }

  /** The text before the first `c` is recovered when `c` does not occur in it. */
  lemma {:induction false} TakeUntilPast(a: string, c: char, b: string)
    requires forall i :: 0 <= i < |a| ==> a[i] != c
    ensures TakeUntil(a + [c] + b, c) == a
    decreases |a|
  {
    if |a| > 0 {
      assert (a + [c] + b)[1..] == a[1..] + [c] + b;
      TakeUntilPast(a[1..], c, b);
      assert [a[0]] + a[1..] == a;
    }
  }

  function LowerChar(c: char): char {
    if 'A' <= c <= 'Z' then (c as int + 32) as char else c
  }

  /** `s.lower()` on ASCII letters; other characters are kept. */
  function Lower(s: string): (r: string)
    ensures |r| == |s|
    ensures forall i :: 0 <= i < |s| ==> r[i] == LowerChar(s[i])
  {
    seq(|s|, i requires 0 <= i < |s| => LowerChar(s[i]))
  }
}

=== FILE: timeline.dfy ===
/**
 * The event timeline seen end to end: the mode the API reports at a server
 * instant, carried to the client, decides what the dashboard and the sales
 * screen show. Server instants are microseconds, client ones milliseconds.
 * The API host, the scheduler and the browser are all taken to run on
 * Europe/Moscow wall time: the API compares with a naive `now` and sends
 * naive ISO dates, which the browser reads in its own zone.
 */
module Timeline {
  import opened Options
  import opened Types
  import ApiServer
  import Scheduler
  import DashboardScreen
  import SalesScreen

  /** The snapshot the client holds after asking the API at server instant `now`. */
  function Snapshot(w: int, now: int, price: int, discount: int): (m: Option<AppMode>)
    ensures m.Some? && m.value.mode == ApiServer.Classify(w, now)
  {
    Some(ApiServer.ToClient(ApiServer.GetAppMode(w, now, price, discount)))
  }

  /** The dashboard offers the sales screen exactly from two hours after the start until fourteen hours after it. */
  lemma SalesButtonWindow(w: int, now: int, price: int, discount: int)
    ensures DashboardScreen.ShowSales(Snapshot(w, now, price, discount)) <==>
      w + 2 * ApiServer.UsPerHour <= now < w + 14 * ApiServer.UsPerHour
  {
  }

  /** The dashboard countdown runs exactly before the start. */
  lemma CountdownBeforeStart(w: int, now: int, price: int, discount: int)
    ensures DashboardScreen.ShowCountdown(Snapshot(w, now, price, discount)) <==> now < w
  {
  }

  /**
   * While the sale is open the sales screen shows the buy button and a timer
   * aimed at the API's deadline, in milliseconds; once it is over, only the
   * "discount ended" note.
   */
  lemma SalesScreenFollowsDeadline(w: int, now: int, price: int, discount: int)
    ensures w + 2 * ApiServer.UsPerHour <= now < w + 14 * ApiServer.UsPerHour ==>
      SalesScreen.Render(Snapshot(w, now, price, discount)) ==
        SalesScreen.View(Some((w + 14 * ApiServer.UsPerHour) / 1000), SalesScreen.BuyButton)
    ensures now >= w + 14 * ApiServer.UsPerHour ==>
      SalesScreen.Render(Snapshot(w, now, price, discount)) == SalesScreen.View(None, SalesScreen.OfferEnded)
  {
  }

  /**
   * When the bot announces that the offer has closed, the mini app still
   * sells, with half an hour on its timer (all three parties on Moscow time).
   */
  lemma ClosedNoticeWhileStillSelling(w: int, price: int, discount: int)
    ensures var now := Scheduler.OfferEnd(w);
      DashboardScreen.ShowSales(Snapshot(w, now, price, discount)) &&
      SalesScreen.Render(Snapshot(w, now, price, discount)).cta == SalesScreen.BuyButton &&
      ApiServer.GetAppMode(w, now, price, discount).secondsUntil == 30 * 60
  {
    var now := Scheduler.OfferEnd(w);
    var r := ApiServer.GetAppMode(w, now, price, discount);
    assert r.deadline == Some(now + 30 * ApiServer.UsPerMinute);
  }
}

=== FILE: tools_screen.dfy ===
/**
 * The tools screen: a practice stopwatch whose stop persists the session, and
 * the 21-day completion tracker kept either by the server or, without a
 * Telegram user, in local storage.
 */
module ToolsScreen {
  import opened Options
  import opened Text
  import opened Rounding
  import opened Types
  import ApiClient

  /** The length of the practice programme. */
  const TrackerDays := 21

  // ---------------------------------------------------------------------------
  // The stopwatch
  // ---------------------------------------------------------------------------

  datatype Stopwatch = Stopwatch(seconds: nat, isRunning: bool)

  const InitialStopwatch := Stopwatch(0, false)

  /** One firing of the one-second interval, which exists only while running. */
  function Tick(w: Stopwatch): (r: Stopwatch)
    ensures r.isRunning == w.isRunning
    ensures r.seconds == if w.isRunning then w.seconds + 1 else w.seconds
  {
    if w.isRunning then w.(seconds := w.seconds + 1) else w
  }

  /** The stopwatch after `n` interval firings. */
  function Ticks(w: Stopwatch, n: nat): Stopwatch
    decreases n
  {
    if n == 0 then w else Tick(Ticks(w, n - 1))
  }

  /** A running stopwatch counts exactly one second per firing. */
  lemma {:induction false} TicksCount(w: Stopwatch, n: nat)
    ensures Ticks(w, n).isRunning == w.isRunning
    ensures Ticks(w, n).seconds == if w.isRunning then w.seconds + n else w.seconds
    decreases n
  {
    if n > 0 {
      TicksCount(w, n - 1);
    }
  }

  /** The toggle's new state and whether it started a save of the session. */
  datatype Toggle = Toggle(watch: Stopwatch, saves: bool)

  /** `handleStartStop`: flip running; stopping a non-empty session saves it. The count is kept. */
  function HandleStartStop(w: Stopwatch): (r: Toggle)
    ensures r.watch.isRunning == !w.isRunning
    ensures r.watch.seconds == w.seconds
    ensures r.saves <==> w.isRunning && w.seconds > 0
  {
    Toggle(w.(isRunning := !w.isRunning), w.isRunning && w.seconds > 0)
  }

  /** `handleReset`: stopped at zero, whatever the state was. */
  function HandleReset(w: Stopwatch): (r: Stopwatch)
    ensures r == InitialStopwatch
  {
    Stopwatch(0, false)
  }

  /** Start, `n` firings, stop: the count grew by `n`, and a save happens iff the count is non-zero. */
  lemma SessionSaves(w: Stopwatch, n: nat)
    requires !w.isRunning
    ensures var started := HandleStartStop(w);
      var stopped := HandleStartStop(Ticks(started.watch, n));
      !started.saves && !stopped.watch.isRunning &&
      stopped.watch.seconds == w.seconds + n &&
      (stopped.saves <==> w.seconds + n > 0)
  {
    TicksCount(HandleStartStop(w).watch, n);
  }

  // ---------------------------------------------------------------------------
  // formatTime
  // ---------------------------------------------------------------------------

  /** `formatTime`: whole minutes and the remaining seconds as "MM:SS", each at least two digits. */
  function FormatTime(total: nat): (s: string)
    ensures |s| >= 5 && s[|s| - 3] == ':'
    ensures total < 6000 ==> |s| == 5
  {
    Pad2(total / 60) + ":" + Pad2(total % 60)
  }

  /** Reads "M…M:SS" back into seconds; `None` for anything else. */
  function ParseClock(s: string): Option<nat> {
    var m := TakeUntil(s, ':');
    if |m| == |s| then None
    else
      var sec := s[|m| + 1..];
      if |m| >= 2 && AllDigits(m) && |sec| == 2 && AllDigits(sec) && DigitsValue(sec) < 60
      then Some(DigitsValue(m) * 60 + DigitsValue(sec))
      else None
  }

  /** A clock made of a digit run, ':' and two digits below 60 reads as minutes and seconds. */
  lemma {:induction false} ParseClockOf(mins: string, secs: string)
    requires |mins| >= 2 && AllDigits(mins)
    requires |secs| == 2 && AllDigits(secs) && DigitsValue(secs) < 60
    ensures ParseClock(mins + ":" + secs) == Some(DigitsValue(mins) * 60 + DigitsValue(secs))
  {
    var s := mins + ":" + secs;
    forall i | 0 <= i < |mins| ensures mins[i] != ':' {
      assert IsDigit(mins[i]);
    }
    assert s == mins + [':'] + secs;
    TakeUntilPast(mins, ':', secs);
    var m := TakeUntil(s, ':');
    assert m == mins;
    assert s[|m| + 1..] == secs;
  }

  /** Digit runs worth the whole minutes and the remaining seconds read back as the total. */
  lemma {:induction false} ClockRoundTrip(total: nat, mins: string, secs: string)
    requires |mins| >= 2 && AllDigits(mins) && DigitsValue(mins) == total / 60
    requires |secs| == 2 && AllDigits(secs) && DigitsValue(secs) == total % 60
    ensures ParseClock(mins + ":" + secs) == Some(total)
  {
    ParseClockOf(mins, secs);
  }

  /** The rendered clock reads back as the number of seconds it was made from. */
  lemma {:induction false} FormatTimeRoundTrip(total: nat)
    ensures ParseClock(FormatTime(total)) == Some(total)
  {
    var q, r := total / 60, total % 60;
    Pad2Value(q);
    Pad2Value(r);
    ClockRoundTrip(total, Pad2(q), Pad2(r));
  }

  // ---------------------------------------------------------------------------
  // The 21-day tracker
  // ---------------------------------------------------------------------------

  predicate NoDuplicates(days: seq<int>) {
    forall i, j :: 0 <= i < j < |days| ==> days[i] != days[j]
  }

  /** What the local fallback maintains: at most 21 distinct day numbers, each in 1..21. */
  predicate WellFormed(days: seq<int>) {
    |days| <= TrackerDays && NoDuplicates(days) && forall i :: 0 <= i < |days| ==> 1 <= days[i] <= TrackerDays
  }

  /** The local fallback of `savePracticeToServer`: mark the next day, unless past 21 or already marked. */
  function LocalRecord(days: seq<int>): (r: seq<int>)
    ensures r == days || r == days + [|days| + 1]
    ensures r != days <==> |days| + 1 <= TrackerDays && (|days| + 1) !in days
    ensures WellFormed(days) ==> WellFormed(r)
  {
    var dayIndex := |days| + 1;
    if dayIndex <= TrackerDays && dayIndex !in days then days + [dayIndex] else days
  }

  /** `n` local saves starting from an empty tracker. */
  function LocalRecords(n: nat): seq<int>
    decreases n
  {
    if n == 0 then [] else LocalRecord(LocalRecords(n - 1))
  }

  /** The days 1..k in order. */
  function DaysUpTo(k: nat): (r: seq<int>)
    ensures |r| == k && forall i :: 0 <= i < k ==> r[i] == i + 1
  {
    seq(k, i requires 0 <= i < k => i + 1)
  }

  function Min(a: int, b: int): int {
    if a <= b then a else b
  }

  /** From an empty tracker, the fallback marks days 1, 2, … in order and stops at 21. */
  lemma {:induction false} LocalRecordsFromEmpty(n: nat)
    ensures LocalRecords(n) == DaysUpTo(Min(n, TrackerDays))
    ensures WellFormed(LocalRecords(n))
    decreases n
  {
    if n > 0 {
      LocalRecordsFromEmpty(n - 1);
      var prev := LocalRecords(n - 1);
      var k := Min(n - 1, TrackerDays);
      if k < TrackerDays {
        assert (k + 1) !in prev by {
          forall i | 0 <= i < |prev| ensures prev[i] != k + 1 {
          }
        }
        assert LocalRecords(n) == prev + [k + 1];
        assert prev + [k + 1] == DaysUpTo(k + 1);
      }
    }
  }

  /** The tracker after a save: the list shown, what went to local storage, and the request sent. */
  datatype Saved = Saved(days: seq<int>, stored: Option<seq<int>>, sent: Option<ApiClient.Request>)

  /**
   * `savePracticeToServer`. Without a user the local fallback runs and is
   * stored when it marked a day; with one, the session is posted and a
   * non-null answer (the result of `fetchApi`) replaces the list wholesale.
   */
  function SavePracticeToServer(userId: Option<int>, days: seq<int>, seconds: nat, answer: Option<PracticeData>): (r: Saved)
    ensures userId.None? ==> r.sent.None? && r.days == LocalRecord(days)
    ensures userId.None? ==> (r.stored.Some? <==> r.days != days) && (r.stored.Some? ==> r.stored.value == r.days)
    ensures userId.Some? ==> r.stored.None? && r.sent == Some(ApiClient.SavePracticeRequest(userId.value, None, Some(seconds)))
    ensures userId.Some? && answer.Some? ==> r.days == answer.value.completedDays
    ensures userId.Some? && answer.None? ==> r.days == days
  {
    match userId
    case None =>
      var newDays := LocalRecord(days);
      Saved(newDays, if newDays != days then Some(newDays) else None, None)
    case Some(id) =>
      var request := ApiClient.SavePracticeRequest(id, None, Some(seconds));
      Saved(if answer.Some? then answer.value.completedDays else days, None, Some(request))
  }

  /** The tracker after a reset: the list shown, whether local storage was cleared, and the request sent. */
  datatype Cleared = Cleared(days: seq<int>, clearedLocal: bool, sent: Option<ApiClient.Request>)

  /**
   * `handleResetTracker`. The list is emptied once the deletion call returns,
   * whatever `success` it reports; a failure that propagates out of it skips
   * the emptying. Without a user only local storage is cleared.
   */
  function HandleResetTracker(userId: Option<int>, days: seq<int>, reset: ApiClient.ResetResult): (r: Cleared)
    ensures userId.None? ==> r.days == [] && r.clearedLocal && r.sent.None?
    ensures userId.Some? ==> !r.clearedLocal && r.sent == Some(ApiClient.ResetPracticeRequest(userId.value))
    ensures userId.Some? && reset.Returned? ==> r.days == []
    ensures userId.Some? && reset.Propagated? ==> r.days == days
  {
    match userId
    case None => Cleared([], true, None)
    case Some(id) =>
      Cleared(if reset.Returned? then [] else days, false, Some(ApiClient.ResetPracticeRequest(id)))
  }

  /** The tracker's percentage: `Math.round(length / 21 * 100)`. */
  function Progress(days: seq<int>): (p: int)
    ensures 0 <= p
    ensures |days| <= TrackerDays ==> p <= 100
    ensures |days| == 0 <==> p == 0
    ensures |days| == TrackerDays ==> p == 100
  {
    Round(|days| as real / TrackerDays as real * 100.0)
  }

  /** Marking more days never lowers the percentage. */
  lemma ProgressMonotone(a: seq<int>, b: seq<int>)
    requires |a| <= |b|
    ensures Progress(a) <= Progress(b)
  {
    RoundMonotone(|a| as real / 21.0 * 100.0, |b| as real / 21.0 * 100.0);
  }

  /**
   * The list on mount: with a user, the server's list if `getPractice`
   * returned one and the initial empty list otherwise; without one, the
   * stored list if any.
   */
  function InitialDays(userId: Option<int>, stored: Option<seq<int>>, fetched: Option<PracticeData>): (r: seq<int>)
    ensures userId.Some? && fetched.Some? ==> r == fetched.value.completedDays
    ensures userId.Some? && fetched.None? ==> r == []
    ensures userId.None? && stored.Some? ==> r == stored.value
    ensures userId.None? && stored.None? ==> r == []
  {
    if userId.Some? then (if fetched.Some? then fetched.value.completedDays else [])
    else stored.GetOr([])
  }

  /** Local storage keeps what the fallback showed, so a reload shows the same list. */
  lemma ReloadShowsStoredDays(days: seq<int>, seconds: nat)
    requires LocalRecord(days) != days
    ensures var saved := SavePracticeToServer(None, days, seconds, None);
      InitialDays(None, saved.stored, None) == saved.days
  {
  }
}

=== FILE: types.dfy ===
/** The records the mini app exchanges with its server. */
module Types {
  import opened Options

  /** The four phases of the event timeline, in the order they occur. */
  datatype Mode = BeforeWebinar | Live | AfterWebinar | OfferExpired

  /** The position of a phase on the timeline. */
  function Rank(m: Mode): nat {
    match m
    case BeforeWebinar => 0
    case Live => 1
    case AfterWebinar => 2
    case OfferExpired => 3
  }

  /** The `/api/mode` snapshot as the client holds it; instants in milliseconds. */
  datatype AppMode = AppMode(
    mode: Mode,
    webinarDate: Option<int>,
    secondsUntil: int,
    deadline: Option<int>,
    coursePrice: int,
    coursePriceDiscount: int)

  datatype UserData = UserData(
    userId: int,
    username: Option<string>,
    fullName: Option<string>,
    isRegistered: bool,
    referrals: int,
    targetReferrals: int,
    inRaffle: bool)

  datatype ReferralInfo = ReferralInfo(referralLink: string, shareText: string, shareUrl: string)

  /** The practice tracker record; `targetDays` is only part of the read endpoint's answer. */
  datatype PracticeData = PracticeData(completedDays: seq<int>, totalDays: int, targetDays: Option<int>)

  datatype Screen = Welcome | Dashboard | Sales | Tools
}

=== FILE: weekly_timer.dfy ===
/**
 * The prototype landing page whose countdown targets the next Sunday 18:00.
 * Instants are local wall-clock milliseconds counted from 1970-01-01 00:00,
 * a Thursday; time zones and daylight saving are not modelled.
 */
module WeeklyTimer {
  import opened Text
  import opened Countdown
  import Json

  const SessionHour := 18

  /** `getDay()`: 0 is Sunday. */
  function DayOfWeek(now: int): (d: int)
    ensures 0 <= d < 7
  {
    (now / MsPerDay + 4) % 7
  }

  /** `getHours()`. */
  function HourOf(now: int): (h: int)
    ensures 0 <= h < 24
  {
    (now % MsPerDay) / MsPerHour
  }

  /** The day offset to the target Sunday, as the page computes it. */
  function DaysUntilSunday(dayOfWeek: int, hours: int): (k: int)
    requires 0 <= dayOfWeek < 7
    ensures dayOfWeek == 0 && hours < SessionHour ==> k == 0
    ensures dayOfWeek == 0 && hours >= SessionHour ==> k == 7
    ensures dayOfWeek != 0 ==> k == 7 - dayOfWeek
  {
    var d := 0 - dayOfWeek;
    if d <= 0 && hours >= 18 then d + 7
    else if d < 0 then d + 7
    else d
  }

  /** The target before the page's "still in the past" check: the offset day at 18:00:00.000. */
  function Candidate(now: int): int {
    (now / MsPerDay + DaysUntilSunday(DayOfWeek(now), HourOf(now))) * MsPerDay + SessionHour * MsPerHour
  }

  lemma DayRemainder(x: int, q: int, r: int)
    requires x == q * MsPerDay + r && 0 <= r < MsPerDay
    ensures x / MsPerDay == q && x % MsPerDay == r
  {
  }

  /** The candidate is never in the past, so the page's extra week is never added. */
  lemma CandidateNotPast(now: int)
    ensures Candidate(now) > now
    ensures Candidate(now) - now <= 7 * MsPerDay
  {
    var day := now / MsPerDay;
    var t := now % MsPerDay;
    assert HourOf(now) < SessionHour ==> t < SessionHour * MsPerHour;
    assert HourOf(now) >= SessionHour ==> t >= SessionHour * MsPerHour;
  }

  /** `updateTimer`'s target: the next Sunday at 18:00, strictly ahead and at most a week away. */
  function NextSession(now: int): (target: int)
    ensures 0 < target - now <= 7 * MsPerDay
    ensures DayOfWeek(target) == 0
    ensures target % MsPerDay == SessionHour * MsPerHour
  {
    CandidateNotPast(now);
    var c := Candidate(now);
    var k := DaysUntilSunday(DayOfWeek(now), HourOf(now));
    DayRemainder(c, now / MsPerDay + k, SessionHour * MsPerHour);
    DayRemainder(now, now / MsPerDay, now % MsPerDay);
    if c < now then c + 7 * MsPerDay else c
  }

  datatype Display = Display(days: string, hours: string, minutes: string)

  /** `updateTimer`: the padded day/hour/minute breakdown of the time to the next session. */
  function UpdateTimer(now: int): (d: Display)
    ensures var t := Breakdown(NextSession(now) - now);
      t.days <= 7 && d == Display(Pad2(t.days), Pad2(t.hours), Pad2(t.minutes))
  {
    var t := Breakdown(NextSession(now) - now);
    Display(Pad2(t.days), Pad2(t.hours), Pad2(t.minutes))
  }

  datatype Effect = SendData(payload: Json.Value) | CloseApp | DisableRegisterButton | ShowSuccessModal | HapticSuccess

  const ConfirmPayload := Json.Obj([("action", Json.Str("register_webinar")), ("status", Json.Str("confirmed"))])

  /** `closeApp`: hand the confirmation payload to the host, then close. */
  function CloseAppEffects(): (effects: seq<Effect>)
    ensures |effects| == 2 && effects[0] == SendData(ConfirmPayload) && effects[1] == CloseApp
  {
    [SendData(ConfirmPayload), CloseApp]
  }

  /**
   * `handleRegistration`: disables the button and, after the simulated delay,
   * shows the modal; the payload it builds is never handed to the host.
   */
  function HandleRegistration(hapticAvailable: bool): (effects: seq<Effect>)
    ensures forall i :: 0 <= i < |effects| ==> !effects[i].SendData? && !effects[i].CloseApp?
    ensures ShowSuccessModal in effects
    ensures HapticSuccess in effects <==> hapticAvailable
  {
    [DisableRegisterButton, ShowSuccessModal] + if hapticAvailable then [HapticSuccess] else []
  }
}

=== FILE: welcome_screen.dfy ===
/**
 * The onboarding screen: the intro/form step, the registration form, and the
 * guards and outcomes of the registration attempt. The component is handed an
 * `onComplete` callback and never calls it.
 */
module WelcomeScreen {
  import opened Options
  import opened Types
  import Json
  import Host
  import ApiClient

  datatype Step = Intro | Form

  /** `URLSearchParams.get(key)`: the first value bound to `key`. */
  function QueryGet(query: seq<(string, string)>, key: string): (r: Option<string>)
    ensures r.None? <==> forall i :: 0 <= i < |query| ==> query[i].0 != key
    ensures r.Some? ==>
      exists i :: 0 <= i < |query| && query[i] == (key, r.value) && forall j :: 0 <= j < i ==> query[j].0 != key
    decreases |query|
  {
    if |query| == 0 then None
    else if query[0].0 == key then Some(query[0].1)
    else
      var r := QueryGet(query[1..], key);
      if r.Some? then
        ghost var i :|
          0 <= i < |query[1..]| && query[1..][i] == (key, r.value) && forall j :: 0 <= j < i ==> query[1..][j].0 != key;
        assert query[i + 1] == (key, r.value);
        r
      else r
  }

  /** The form is shown first exactly when the page was opened with `form=1`. */
  function InitialStep(query: seq<(string, string)>): (s: Step)
    ensures s == Form <==> QueryGet(query, "form") == Some("1")
  {
    if QueryGet(query, "form") == Some("1") then Form else Intro
  }

  /** A later `form` binding does not override the first. */
  lemma FirstFormParameterWins(rest: seq<(string, string)>)
    ensures InitialStep([("form", "0")] + rest) == Intro
    ensures InitialStep([("form", "1")] + rest) == Form
  {
  }

  /** The form's Back button; the intro's only button closes the app instead. */
  function Back(s: Step): (r: Step)
    ensures r == Intro
  {
    Intro
  }

  datatype Goal = Stress | Energy | Health

  function GoalName(g: Goal): (s: string)
    ensures s in {"stress", "energy", "health"}
  {
    match g
    case Stress => "stress"
    case Energy => "energy"
    case Health => "health"
  }

  /** The form's fields; `goal` is `None` until one is picked. */
  datatype Fields = Fields(name: string, phone: string, goal: Option<Goal>, errorMsg: Option<string>)

  /** The name starts as the user's first name, or empty without a user. */
  function InitialFields(user: Option<Host.TelegramUser>): (f: Fields)
    ensures f.phone == "" && f.goal.None? && f.errorMsg.None?
    ensures f.name == if user.Some? then user.value.firstName else ""
  {
    Fields(if user.Some? then user.value.firstName else "", "", None, None)
  }

  /** The submit button: disabled without a goal or while a request is in flight. */
  predicate SubmitEnabled(f: Fields, loading: bool) {
    f.goal.Some? && !loading
  }

  const NoIdAlert := "Ошибка: App не видит ваш Telegram ID. Попробуйте перезапустить бота (/start)."
  const NullResultMessage := "API returned null"

  /** The failure alert; the build-time API label is taken as unset, so it reads 'HARDCODED'. */
  const HostFailureAlert := "Ошибка: " + NullResultMessage + "\nAPI: HARDCODED"
  const BrowserFailureAlert := "Ошибка: " + NullResultMessage

  datatype Effect = BrowserAlert(text: string) | HostAlert(text: string) | SendData(payload: Json.Value)

  /** The confirmation handed to the bot through the host. */
  function RegisterPayload(f: Fields, goal: Goal): Json.Value {
    Json.Obj([("action", Json.Str("register_webinar")), ("name", Json.Str(f.name)),
              ("phone", Json.Str(f.phone)), ("goal", Json.Str(GoalName(goal)))])
  }

  /** The payload carries exactly the attempt's fields under their keys. */
  lemma RegisterPayloadFields(f: Fields, goal: Goal)
    ensures var p := RegisterPayload(f, goal);
      Json.Get(p, "action") == Some(Json.Str("register_webinar")) &&
      Json.Get(p, "name") == Some(Json.Str(f.name)) &&
      Json.Get(p, "phone") == Some(Json.Str(f.phone)) &&
      Json.Get(p, "goal") == Some(Json.Str(GoalName(goal))) &&
      |p.fields| == 4
  {
    var fs := RegisterPayload(f, goal).fields;
    Json.FindLastBinding(fs, 0, "action");
    Json.FindLastBinding(fs, 1, "name");
    Json.FindLastBinding(fs, 2, "phone");
    Json.FindLastBinding(fs, 3, "goal");
  }

  /** One registration attempt: the fields afterwards, the API call made, and what the user sees. */
  datatype Attempt = Attempt(fields: Fields, call: Option<ApiClient.Request>, effects: seq<Effect>)

  /**
   * `handleRegister`, with `result` the value `registerUser` resolved to.
   * Without a Telegram id only an alert; without a goal nothing at all.
   * Otherwise the error is cleared and the form posted; a record sends the
   * confirmation to the bot (when a host is there to take it), and null
   * records 'API returned null' and alerts it.
   */
  function HandleRegister(env: Host.Env, f: Fields, result: Option<UserData>): (r: Attempt)
    ensures r.fields.name == f.name && r.fields.phone == f.phone && r.fields.goal == f.goal
    ensures Host.UserId(env).None? ==> r == Attempt(f, None, [BrowserAlert(NoIdAlert)])
    ensures Host.UserId(env).Some? && f.goal.None? ==> r == Attempt(f, None, [])
    ensures r.call.Some? <==> Host.UserId(env).Some? && f.goal.Some?
    ensures r.call.Some? ==>
      r.call.value == ApiClient.RegisterRequest(Host.UserId(env).value, Some(f.name), Some(f.phone), Some(GoalName(f.goal.value)))
    ensures r.call.Some? && result.Some? ==>
      r.fields.errorMsg.None? &&
      r.effects == (if env.Present? then [SendData(RegisterPayload(f, f.goal.value))] else [])
    ensures r.call.Some? && result.None? ==>
      r.fields.errorMsg == Some(NullResultMessage) &&
      r.effects == [if env.Present? then HostAlert(HostFailureAlert) else BrowserAlert(BrowserFailureAlert)]
  {
    match Host.UserId(env)
    case None => Attempt(f, None, [BrowserAlert(NoIdAlert)])
    case Some(id) =>
      match f.goal
      case None => Attempt(f, None, [])
      case Some(goal) =>
        var call := ApiClient.RegisterRequest(id, Some(f.name), Some(f.phone), Some(GoalName(goal)));
        var cleared := f.(errorMsg := None);
        if result.Some? then
          Attempt(cleared, Some(call), if env.Present? then [SendData(RegisterPayload(f, goal))] else [])
        else
          var alert := if env.Present? then HostAlert(HostFailureAlert) else BrowserAlert(BrowserFailureAlert);
          Attempt(cleared.(errorMsg := Some(NullResultMessage)), Some(call), [alert])
  }

  /** For a known user, a press posts the form exactly when the idle submit button is enabled: the goal guard repeats the button's. */
  lemma SubmitGuardMatchesButton(env: Host.Env, f: Fields, result: Option<UserData>)
    requires Host.UserId(env).Some?
    ensures HandleRegister(env, f, result).call.Some? <==> SubmitEnabled(f, false)
  {
  }

  /** Outside the messaging client the mock user registers, but nothing reaches the bot. */
  lemma NoHostNoConfirmation(f: Fields, u: UserData)
    requires f.goal.Some?
    ensures var r := HandleRegister(Host.Absent, f, Some(u));
      r.call.Some? && r.effects == []
  {
  }

  /** The server's reason for a refusal never reaches the form: any failed envelope shows the same text. */
  lemma ServerErrorNotShown(env: Host.Env, f: Fields, e1: ApiClient.Envelope<UserData>, e2: ApiClient.Envelope<UserData>)
    requires !e1.success && !e2.success
    ensures HandleRegister(env, f, ApiClient.FetchApi(ApiClient.Answered(e1)).result)
         == HandleRegister(env, f, ApiClient.FetchApi(ApiClient.Answered(e2)).result)
  {
  }
}
